=== FILE: README.md ===
# Planetarium core in Dafny

A model of the core of the Planetarium repository, with proofs about it.
The model covers these parts:

- **The star-catalogue refresher** (`scripts/update_stars.py`). It reads
  the `stars.js` text and cuts it into a header, a body and a footer at the
  first `[` and the last `]`. A brace-depth scanner cuts the body into
  record blocks. Each block is parsed into an ordered `key: value` mapping.
  The position, magnitude and spectral type come from a star-name lookup
  service, with the sexagesimal coordinates converted to decimal degrees.
  The records are then rendered back in a fixed layout. Names the service
  did not resolve are reported.
- **The star registry** (`astroCatalog.js`): stars with their defaults,
  constellations, and the getters.
- **The simulated clock** (`core/timeController.js`): the realtime,
  custom-speed and fixed-time-of-day modes, with pausing.
- **The star-trail recorder** (`systems/starTrailSystem.js`). Each star
  has segments of at most 320 points, sampled every 0.2 s. A sample closer
  than 1 unit to the last one is dropped, and the trail is cut when the
  star sets.
- **The ground-surface selector** (`systems/surfaceSystem.js`) and the
  settings hook that applies a surface type
  (`core/planetariumSettings.js`).
- **The default settings** and the surface-type aliases
  (`core/settings.js`).
- **The constellation library** (`ui/celestialLibrary.js`): name
  normalisation, the unlocked shelf, the spine code, the accent colour and
  the content of a book.

## Files and modules

Each file holds one module.

- `wrappers.dfy` (`Wrappers`): `Option`, `Result` and the error values.
- `text.dfy` (`Text`): character classes, strip and trim, `splitlines`,
  `split()`, and one-character `index` / `rindex` / `replace`.
- `spacing.dfy` (`Spacing`): whitespace runs collapsed to single spaces,
  words joined by spaces, and the relations between them.
- `fields.dfy` (`OrderedFields`): the `OrderedDict[str, str]` of one
  record, as a list of fields.
- `scanner.dfy` (`Scanner`): `_extract_entries` as a function and as the
  source's nested loop.
- `record.dfy` (`RecordCodec`): `_parse_entry`, `_render_entry` and the
  round trip between them.
- `coordinates.dfy` (`Coordinates`): `_sexagesimal_to_decimal`.
- `updater.dfy` (`StarUpdate`): `_update_star`.
- `document.dfy` (`Document`): `main` without the file system.
- `catalog.dfy` (`Catalog`): `AstroCatalog`.
- `timecontroller.dfy` (`TimeControl`): `TimeController`.
- `startrail.dfy` (`StarTrails`): `createStarTrailSystem`.
- `settings.dfy` (`Settings`): `core/settings.js`.
- `surfaces.dfy` (`Surfaces`): `createSurfaceSystem` and
  `applySurfaceType`.
- `library.dfy` (`Library`): the pure parts of `celestialLibrary.js`.

## Behaviour worth knowing

- **Unmatched braces.** An unterminated `{` is not rejected. The scanner
  in `scripts/update_stars.py:35-55` drops it and everything after it
  without complaint. `Scanner.UnterminatedTailDropped` states this.
- **Comments inside a record.** `_parse_entry` skips comment lines
  (`scripts/update_stars.py:63`), so a rewrite drops them. Only the
  header and footer text survive verbatim.

## Parameters instead of hidden code

- **Number handling** is the `Numerics` record:
  - Python's `float()` parser.
  - `str()` of a float.
  - The `.6f` and `.2f` formatters.
- **The SIMBAD query** is a `Lookup` function from a name to an optional
  `StarInfo`.
- **The clock readings** (`Date.now()` and the seconds source) form a
  `Clock` value passed to each operation.
- **The sky projection** (`convertRADecToVector`) is a function from a
  star to an optional point.
- **The tale finder** (`findConstellationTale`) is a function from a name
  to an optional tale.

## Model

| member | source | states |
|---|---|---|
| Text.StripIsTrimmed | scripts/update_stars.py:62 | a stripped line starts and ends with a non-whitespace character (or is empty) |
| Text.StripPadded | scripts/update_stars.py:68 | stripping removes exactly the surrounding whitespace: `pre + core + post` strips to a trimmed `core` |
| Text.SplitLinesNoBreaks | scripts/update_stars.py:61 | no line produced by `splitlines` contains a line-break character |
| Text.IndexOf | scripts/update_stars.py:132 | `text.index("[")`: absent exactly when the character does not occur; otherwise its first occurrence |
| Text.LastIndexOf | scripts/update_stars.py:133 | `text.rindex("]")`: absent exactly when the character does not occur; otherwise its last occurrence |
| Text.ReplaceChar | scripts/update_stars.py:86 | every Unicode minus is replaced by `-`, and every other character is kept, position by position |
| Text.WordsAreWords | scripts/update_stars.py:89 | `split()` yields only non-empty parts without whitespace |
| OrderedFields.PutGet | scripts/update_stars.py:68 | after `fields[k] = v`, `k` maps to `v` and every other key maps to what it mapped to before |
| OrderedFields.PutKeys | scripts/update_stars.py:68 | assigning an existing key keeps the key order; assigning a new key appends it last |
| OrderedFields.PutUnique | scripts/update_stars.py:68 | assignment never duplicates a key |
| OrderedFields.PutTwice | scripts/update_stars.py:114-126 | assigning a key twice is the same as assigning the second value once |
| OrderedFields.PutSame | scripts/update_stars.py:114-126 | assigning a key the value it already has leaves the mapping unchanged |
| Scanner.ExtractEntries | scripts/update_stars.py:35-55 | the nested loop returns exactly the reference scan `Scan(body)`, and every entry is a brace-balanced block |
| Scanner.MatchingBrace | scripts/update_stars.py:40-52 | the inner loop stops at the brace that the reference `Close` finds, or runs off the end exactly when `Close` finds none |
| Scanner.CloseSound | scripts/update_stars.py:43-51 | the closing index found brings the depth back to zero, and the depth stays positive before it |
| Scanner.CloseComplete | scripts/update_stars.py:43-51 | the first index at which the depth returns to zero is the one `Close` finds |
| Scanner.ScanYieldsBlocks | scripts/update_stars.py:35-55 | every extracted entry starts with `{`, ends with `}` and is balanced |
| Scanner.ScanSkipsGap | scripts/update_stars.py:53-54 | text without `{` before a record contributes nothing |
| Scanner.ScanTakesBlock | scripts/update_stars.py:40-51 | a balanced block at the front is extracted whole, and scanning resumes after it |
| Scanner.UnterminatedTailDropped | scripts/update_stars.py:39-52 | a `{` that is never closed yields no entry, and nothing after it is extracted |
| RecordCodec.ParseLine | scripts/update_stars.py:62-68 | one line fails exactly when, once stripped, it is not blank, is not a `//` comment, and has no colon |
| RecordCodec.ParseLinesCanonical | scripts/update_stars.py:58-69 | every parsed mapping has distinct keys, and each key and value is stripped, on one line, and colon-free in the key |
| RecordCodec.ParseFieldLine | scripts/update_stars.py:76-78 | a rendered field line, with or without its comma, parses back to the same field |
| RecordCodec.RenderEntry | scripts/update_stars.py:72-81 | the rendering starts with the `    {` line and ends with a newline and the `    }` line |
| RecordCodec.RenderThenParse | scripts/update_stars.py:58-81 | for a renderable mapping, parsing its rendering gives back the same mapping, with keys in the same order |
| RecordCodec.ParseThenRenderStable | scripts/update_stars.py:58-81 | any accepted record, once rendered, parses to the same mapping (unless its last value ends in a comma) |
| RecordCodec.ParseRejectsExactlyColonlessLines | scripts/update_stars.py:58-69 | a record is rejected exactly when one of its lines is neither blank, nor a comment, nor has a colon |
| RecordCodec.ParseBraced | scripts/update_stars.py:58-59 | the block the scanner cuts out of a rendered record parses back to the mapping |
| Coordinates.FromPartsBounds | scripts/update_stars.py:92-99 | the conversion succeeds when all three parts are numbers; with minutes in [0, 59] and seconds in [0, 60), a declination has the sign of its first part's text and a magnitude in [abs(base), abs(base) + 1), and right ascension lies in [15·base, 15·base + 15) |
| Coordinates.NegativeZeroDeclination | scripts/update_stars.py:95-98 | the sign is read from the text, so `-0 30 0` is -0.5 degrees |
| Coordinates.RightAscensionIsFifteenfold | scripts/update_stars.py:95-99 | right ascension is fifteen times the declination reading of the same non-negative parts |
| Coordinates.OnlyThreePartsCount | scripts/update_stars.py:89-94 | two texts that agree on their first three parts convert alike; any further parts are ignored |
| Coordinates.ColonSeparatedFails | scripts/update_stars.py:87-91 | `12:30:45` enters the sexagesimal branch but is one part for `split()`, so it is rejected |
| Coordinates.ColonCounterexample | scripts/update_stars.py:87-91 | as written, `12:30:45` is rejected as an unexpected sexagesimal format |
| Coordinates.ColonsReadAsSeparators | scripts/update_stars.py:87-99 | with colons read as separators, `base:minutes:seconds` converts exactly like `base minutes seconds` |
| Coordinates.FixedAgreesWithoutColons | scripts/update_stars.py:84-99 | the correction changes nothing for text without a colon: there it converts exactly as the script does |
| Coordinates.TabSeparatedIsDecimal | scripts/update_stars.py:87-88 | text without an ASCII space or a colon is passed whole to `float()` |
| Coordinates.UnicodeMinusIsMinus | scripts/update_stars.py:86 | replacing Unicode minus signs by `-` beforehand changes neither the success nor the value |
| Coordinates.SameSanitized | scripts/update_stars.py:85-86 | the conversion depends on the stripped, minus-normalised text alone |
| StarUpdate.UpdateStarOutcomes | scripts/update_stars.py:102-127 | without `nameSIMBAD` the record is unchanged and nothing is reported; with an unresolved name the record is unchanged and the name is reported with blanks and quotes stripped; with a resolved name whose position converts, the record is the merge of the answer and is marked updated; a position that does not convert fails with the conversion's error, right ascension first |
| StarUpdate.UpdateStarPreservesRecord | scripts/update_stars.py:102-127 | an update keeps every key in place, changes only `ra`, `dec`, `magnitude` and `sp_type`, and appends only those keys |
| StarUpdate.MergeWrites | scripts/update_stars.py:111-126 | `ra` and `dec` are set to their six-decimal forms; `magnitude` is set only when it reads as a number, and `sp_type` only when it is given, in quotes |
| StarUpdate.MergeTwice | scripts/update_stars.py:114-126 | merging the same data into a merged record changes nothing |
| StarUpdate.UpdateStarIdempotent | scripts/update_stars.py:102-127 | with the same service answers, updating an updated record gives the same outcome |
| Document.SplitDocumentFails | scripts/update_stars.py:132-133 | the split fails exactly when `[` or `]` is missing |
| Document.SplitDocumentParts | scripts/update_stars.py:132-136 | the header runs to and including the first `[`, and the footer starts at the last `]`; with the brackets in order, header + body + footer is the text |
| Document.SplitRejoined | scripts/update_stars.py:132-136 | splitting `header + body + footer` recovers the three parts |
| Document.ScanJoined | scripts/update_stars.py:149-157 | scanning the joined rendered records finds exactly those records, in order |
| Document.UpdateAllRecords | scripts/update_stars.py:142-145 | there is one output record per scanned record, each the parse of that record extended only by the merge keys |
| Document.UpdateAllMissing | scripts/update_stars.py:142-147 | the reported names are exactly the non-empty, unresolved `nameSIMBAD` names of the records, stripped, in document order |
| Document.UpdateDocumentFrame | scripts/update_stars.py:130-157 | the rewritten text splits back into the old header, the joined updated records with a final newline, and the old footer; the names reported are the unresolved ones |
| Document.RenderedDocumentStable | scripts/update_stars.py:130-157 | a catalogue already in the rendered shape, whose records the service leaves as they are, is written back unchanged |
| Document.RewriteIdempotent | scripts/update_stars.py:130-157 | a second run over the rewritten text, with the same answers, writes the same text and reports the same names |
| Spacing.WordsOfJoin | ui/celestialLibrary.js:62 | splitting words joined by single spaces gives the words back |
| Spacing.JoinSingleSpaced | ui/celestialLibrary.js:62 | joined words have exactly one plain space between words and none at the ends |
| Spacing.CollapseWords | ui/celestialLibrary.js:62 | `replace(/\s+/g, ' ')` is one space for a leading run, then the words joined by single spaces, then one space for a trailing run |
| Spacing.WordsStrip | ui/celestialLibrary.js:62 | trimming does not change the words |
| Library.NormalizeNameIsJoinedWords | ui/celestialLibrary.js:60-63 | a normalised name is the name's words joined by single spaces |
| Library.NormalizedNameShape | ui/celestialLibrary.js:60-63 | a normalised name is trimmed and single-spaced, and it is empty exactly when the name is all whitespace |
| Library.NormalizeNameIdempotent | ui/celestialLibrary.js:60-63 | normalising twice is the same as normalising once |
| Library.Unlock | ui/celestialLibrary.js:49-58 | an unlock only adds, and adds at most the normalised name |
| Library.UnlockAdds | ui/celestialLibrary.js:49-58 | the normalised name ends up on the shelf exactly when it was already there, or is neither empty nor `星図外` |
| Library.UnlockKeepsShelf | ui/celestialLibrary.js:49-58 | the shelf holds only normalised, non-empty names |
| Library.UnlockIdempotent | ui/celestialLibrary.js:49-58 | repeating an unlock changes nothing |
| Library.UnlockIgnoresSpacing | ui/celestialLibrary.js:49-58 | names that differ only in whitespace unlock the same book |
| Library.SplitCamelSpacesEveryBoundary | ui/celestialLibrary.js:68 | the left-to-right regex replacement puts a space at every lower-or-digit/upper boundary |
| Library.FormatCodeIsUpperWords | ui/celestialLibrary.js:65-72 | the code is the id cut into words at camel-case boundaries, underscores and whitespace, joined by single spaces and upper-cased |
| Library.FormatCodeShape | ui/celestialLibrary.js:65-72 | the code holds no lower-case ASCII letter and no underscore |
| Library.FormatCodeExample | ui/celestialLibrary.js:65-72 | `muOri` becomes `MU ORI` |
| Library.PickAccentColor | ui/celestialLibrary.js:496-500 | the colour is always one of the six palette entries |
| Library.AccentColorIgnoresOrder | ui/celestialLibrary.js:496-500 | the colour depends on which characters the name has, not on their order |
| Library.AccentColorCycles | ui/celestialLibrary.js:496-500 | colours repeat every six books, and neighbouring books with the same name never share a colour |
| Library.DescriptionMapKeys | ui/celestialLibrary.js:14-16 | the map has a key exactly when some entry's normalised name is that key |
| Library.DescriptionMapLast | ui/celestialLibrary.js:14-16 | for a key with several entries, the last one wins |
| Library.ContentWithoutSources | ui/celestialLibrary.js:145-161 | with neither a tale nor a base entry, every field takes its fallback, and the code is the normalised name's code |
| Library.ContentFromBase | ui/celestialLibrary.js:145-161 | without a tale, the base entry supplies the name, the spine label, the lede and the code |
| Library.ContentFromTale | ui/celestialLibrary.js:145-161 | a tale found under the name as given supplies every field it has |
| Library.ContentFromNormalizedTale | ui/celestialLibrary.js:145-161 | with no tale under the name as given, a tale found under the normalised name supplies every field it has |
| Library.ContentNamed | ui/celestialLibrary.js:149-158 | a book built from a non-empty name has a non-empty name, and its spine label equals its name |
| Settings.NormalizeSurfaceType | core/settings.js:10-13 | the result is never empty or `land`, and any other non-empty type is kept |
| Settings.NormalizeSurfaceTypeIdempotent | core/settings.js:10-13 | normalising twice is the same as normalising once |
| Settings.NormalizeSurfaceTypeAliases | core/settings.js:10-13 | exactly the empty type and `water` normalise to `water`, and exactly `land` and `desert` to `desert` |
| Settings.DefaultSettings | core/settings.js:15-43 | the default surface is the default location's `grass`; the sun is hidden, there are no meteors, and the comet tail intensity is 1 |
| Settings.DefaultsShowSkyHideGuides | core/settings.js:15-43 | the defaults show the stars, the Milky Way, the constellations, the moon and the planets, and hide every guide circle, line and trail |
| Surfaces.Lookup | systems/surfaceSystem.js:29 | `surfaces.get(kind)` returns a registered surface of that type, and is absent exactly when no surface has the type |
| Surfaces.RegisterSurfaceEffect | systems/surfaceSystem.js:14-21 | the surface becomes the entry for its type (in place, or appended if new), other types are untouched; in the group the meshes it does not name stay first, in order, and its meshes follow, all hidden, each present; a re-added mesh moves rather than doubling, so a group without repeats keeps none; meshes that are new and distinct are appended exactly, in order |
| Surfaces.AddAllHiddenOrder | systems/surfaceSystem.js:17-20 | after adding meshes one by one, the meshes not added keep their order at the front and only added meshes, hidden, follow |
| Surfaces.AddAllHiddenHas | systems/surfaceSystem.js:17-20 | every added mesh is in the group afterwards, hidden |
| Surfaces.AddAllHiddenDistinct | systems/surfaceSystem.js:17-20 | adding meshes never lists one mesh twice in a group that had no repeats |
| Surfaces.AddAllHiddenFresh | systems/surfaceSystem.js:17-20 | when the meshes are distinct and none is in the group yet, adding them appends exactly them, in order, hidden |
| Surfaces.RegisterSurfaceIgnores | systems/surfaceSystem.js:15 | a surface without a type or without meshes changes nothing |
| Surfaces.SetSurfaceTypeChoice | systems/surfaceSystem.js:27-30 | `land` means desert and a missing type means water; a registered type is chosen, an unknown one falls back to the first registered surface, and with nothing registered nothing is active |
| Surfaces.SetSurfaceTypeActivatesOne | systems/surfaceSystem.js:31-33 | every surface offering `setActive` gets at least one call, every call goes to such a surface, and the call says `true` exactly for the active surface |
| Surfaces.UpdateForwardsToActive | systems/surfaceSystem.js:36-40 | `update` reaches only the active surface, and nothing when no surface is active |
| Surfaces.DefaultStartsOnWater | systems/surfaceSystem.js:23-49 | with the default settings (`grass`, which no surface provides), the first-registered water surface is active at start-up |
| Surfaces.AppliedTypeNeverRecorded | core/planetariumSettings.js:11-21 | as written, when a surface system exists, the settings are never updated and nothing is returned |
| Surfaces.AppliedTypeCounterexample | core/planetariumSettings.js:11-21 | water and desert are registered and the settings say water; picking `land` shows desert while the settings still say water |
| Surfaces.ApplySurfaceTypeRecords | core/planetariumSettings.js:11-21 | when `setSurfaceType` reports the surface it activated, the settings record the type actually shown (the fallback included), or the normalised type when there is no system |
| Catalog.FindId | astroCatalog.js:29 | `findIndex` returns an index holding the id, or is absent exactly when no listed star has it |
| Catalog.RegisterStarRejects | astroCatalog.js:14-16 | a definition is rejected exactly when it is not an object with a truthy id |
| Catalog.RegisterStarDefaults | astroCatalog.js:18-26 | the stored star has every property of the definition, plus a default (magnitude 2.5, featured false, and the rest) for each property it lacks |
| Catalog.RegisterStarPlacement | astroCatalog.js:28-35 | a known id replaces its star in place with the length kept; a new id is appended; the map answers the new star, the registry stays consistent, and the constellations are untouched |
| Catalog.RegisterStarMap | astroCatalog.js:34 | whatever the list holds, the map gains the definition's id, mapped to the stored star |
| Catalog.ReRegisterKeepsPosition | astroCatalog.js:28-34 | registering an id a second time keeps the star where the first registration put it, showing only the second's data |
| Catalog.FindIdUnique | astroCatalog.js:29 | in a consistent registry, the search finds the one star with the id |
| Catalog.DedupeValues | astroCatalog.js:62 | `[...new Set(ids)]` has no duplicates and holds exactly the ids |
| Catalog.DedupeFirstOccurrences | astroCatalog.js:62 | the deduplicated ids are in order of their first occurrence |
| Catalog.DedupeDistinct | astroCatalog.js:62 | a list without duplicates is kept as it is |
| Catalog.RegisterStarsIds | astroCatalog.js:53-56 | the embedded stars' ids are collected in order, and each is registered |
| Catalog.RegisterConstellationFields | astroCatalog.js:38-68 | a definition with neither name nor id is rejected; otherwise the id falls back to the name, the name to the id, the colour (under `??`) is the given colour or `0x4488ff`, and the description to `''`; the lines are the element-wise copy of an array `lines` and empty otherwise; the constellation is appended |
| Catalog.CopyLinesEach | astroCatalog.js:64-66 | copying the lines succeeds exactly when every line can be spread, and then there is one copy per line, each that line's spread |
| Catalog.RegisterConstellationStars | astroCatalog.js:52-68 | the star ids are the embedded star definitions' ids followed by the explicit ids, each once, in order of first occurrence, and every embedded star is registered; the registry stays consistent and earlier constellations are unchanged |
| Catalog.CreateValid | astroCatalog.js:5-11 | a successful construction gives a consistent registry with one constellation per definition |
| Catalog.RegisterStarsListedIds | astroCatalog.js:13-35 | registering stars in turn lists their ids after the ones already listed, each once, in order of first occurrence |
| Catalog.RegisterConstellationKeepsOrder | astroCatalog.js:52-57 | registering a constellation never moves a listed star: the ids listed before stay at the front |
| Catalog.CreateListsStarsFirst | astroCatalog.js:5-11 | the constructor registers every star before any constellation: the top-level stars' ids, each once in order of first occurrence, open the star list |
| Catalog.FilterExact | astroCatalog.js:76-79 | the filtered list holds exactly the stars the predicate keeps |
| Catalog.FilterAppend | astroCatalog.js:78 | filtering distributes over concatenation, so order is kept |
| Catalog.GettersAgree | astroCatalog.js:72-87 | the featured stars are exactly the listed stars with a truthy `featured`; every listed star is what `getStar` gives for its id; every id in the map has a listed star |
| TimeControl.TimeOfDay | core/timeController.js:3-8 | the local time of day lies in [0, 86 400 000) |
| TimeControl.Trunc | core/timeController.js:113-114 | `new Date(ms)` truncates toward zero, within one millisecond of the value |
| TimeControl.ResetSnapshot | core/timeController.js:25-49 | `reset` answers with a snapshot of realtime at 240x and one day per second, running, at the base date |
| TimeControl.SetModeSnapshot | core/timeController.js:51-102 | `setMode` answers with a snapshot that reports the mode entered, running, at its base date (the given date when there is one); an unknown mode reports the state as it was |
| TimeControl.TogglePauseSnapshot | core/timeController.js:134-146 | after a toggle the snapshot's pause flag is the value the toggle returned, and the mode is unchanged |
| TimeControl.ResetDefaults | core/timeController.js:36-49 | a reset gives realtime at 240× and one day per second, running, with no offset, starting from and showing the base date, and with its time of day kept |
| TimeControl.SetModeEnters | core/timeController.js:51-103 | a known mode is entered unpaused and restarts from its base date with that date's time of day; an unknown mode changes nothing |
| TimeControl.SetModeScales | core/timeController.js:71-88 | `custom` takes a given time scale and `fixed-time` a given day scale; every other scale is kept |
| TimeControl.SetModeBase | core/timeController.js:55-93 | the base date is the valid date given; otherwise it is the shown date, except that a live (non-archive) realtime switch uses now |
| TimeControl.RealtimeFollowsWallClock | core/timeController.js:51-108 | for any options, entering realtime starts from the valid given date, else the shown date in the archive, else now, and a later update shows that start moved on by exactly the wall-clock time elapsed |
| TimeControl.CustomPausedHolds | core/timeController.js:111-114 | paused custom time stays at its start |
| TimeControl.CustomNearTarget | core/timeController.js:111-114 | running custom time is within 1 ms of start + elapsed·1000·timeScale |
| TimeControl.CustomMonotone | core/timeController.js:110-114 | custom time with a non-negative scale never runs backwards |
| TimeControl.FixedTimeDays | core/timeController.js:115-123 | fixed-time always shows the kept time of day, floor(elapsed·dayScale) calendar days after the start (none while paused) |
| TimeControl.FixedTimeAtStart | core/timeController.js:115-123 | at its start instant, fixed-time shows its start date |
| TimeControl.TogglePauseRealtime | core/timeController.js:135-138 | realtime cannot be paused, and the answer is "running" |
| TimeControl.TogglePauseFlag | core/timeController.js:139-145 | outside realtime the flag becomes the forced value or flips, and is returned; toggling twice restores it |
| TimeControl.TogglePauseContinuous | core/timeController.js:139-145 | toggling does not make the shown date jump |
| TimeControl.PauseFreezesCustom | core/timeController.js:139-145 | pausing custom time freezes it at the instant of the pause |
| StarTrails.AddPoint | systems/starTrailSystem.js:70-78 | the in-place buffer update (`copyWithin`, then a write to the last slot) equals the functional sliding window |
| StarTrails.PushPointWindow | systems/starTrailSystem.js:62-82 | after recording a point, the drawn points are the old ones with the new point last, and the oldest is dropped once 320 are drawn |
| StarTrails.SlidingWindow | systems/starTrailSystem.js:62-82 | a segment fed a run of points from empty draws exactly the latest 320, oldest first |
| StarTrails.DisposeEntry | systems/starTrailSystem.js:25-35 | a disposed entry has no segments, no active segment, no last position and is not visible, and keeps its star |
| StarTrails.AddTrailPoint | systems/starTrailSystem.js:62-66 | adding a point leaves a segment active and the entry consistent |
| StarTrails.AddTrailPointRecords | systems/starTrailSystem.js:62-80 | the point goes last into the window of the active segment, or of a new segment appended when none was active; earlier segments, the star and the last position are unchanged |
| StarTrails.SampleRecords | systems/starTrailSystem.js:97-105 | a sample far enough from the last one goes into the active segment's window (a new segment if none is active); earlier segments are unchanged |
| StarTrails.SampleTooClose | systems/starTrailSystem.js:100-102 | a sample within distance 1 of the last one changes nothing |
| StarTrails.HorizonCutsTrail | systems/starTrailSystem.js:91-99 | below the horizon the trail is cut; the next visible sample starts a new segment holding just that point, and the old segments are kept |
| StarTrails.Create | systems/starTrailSystem.js:5-23 | one entry per catalogue star, in order, each with that star and no segments, nothing active, no last position and not visible; the system starts disabled, hidden, with no time gathered |
| StarTrails.UpdateTrailsSamples | systems/starTrailSystem.js:84-107 | disabled trails ignore time; enabled ones gather time until 0.2 s, then sample every star once and reset the gathered time |
| StarTrails.SetEnabledEffect | systems/starTrailSystem.js:109-115 | switching to the current state does nothing; a real switch sets the visibility, erases every trail and resets the gathered time |
| StarTrails.DisposeEntryIdempotent | systems/starTrailSystem.js:25-35 | disposing twice is the same as disposing once |

## Left out

- **File input and output.** Reading and writing `stars.js`, writing
  `missing-stars.txt` and the progress messages are left out. The rewrite
  is a function from text to text plus the names to report.
- **The SIMBAD query and masked-value handling** (`get_star_info`,
  `_extract_field`) are behind the `Lookup` parameter.
- **Floating point.** Python's `float()` parsing, `str()` of a float and
  the `.6f` / `.2f` formatting are parameters. Conversion arithmetic is
  on exact reals, so rounding error is not modelled.
- **`splitlines`** is modelled as a cut at every line-break character.
  A `\r\n` pair therefore gives an extra empty line, which `_parse_entry`
  skips. A final line break does not add a final empty line in Python; in
  the model it does, and that line is also skipped. The parse result is
  the same.
- **Library.UpperAscii**: upper-cases ASCII letters only. JavaScript's
  `toUpperCase` also maps other scripts, which is not modelled.
- **Library.CodeSum**: sums the first UTF-16 code unit of each code
  point, as `charCodeAt(0)` on `Array.from(name)` does. The integer is
  unbounded, which matches JavaScript for any realistic name length.
- **The library's page layer**: the three.js shelf, the detail screen,
  `localStorage` loading and saving, and the sorting by `localeCompare`.
- **Three.js scene objects.** Scene objects (groups, materials, buffers,
  draw ranges, colours) are reduced to the state the logic reads:
  - in the star trails, segments and points;
  - in the surfaces, type, meshes and capabilities. A mesh is its id, so
    adding a mesh already in the group moves it to the end, as `add` does.
    Meshes whose parent is some other object are not modelled.
- **The sky projection's trigonometry** (`convertRADecToVector`) is a
  parameter. The star trails' `Float32Array` precision is not modelled.
- **The time controller's sidereal time**
  (`calculateLocalSiderealTime`) is not part of this model. The snapshot
  and the update leave it out.
- **Calendar rules.** Daylight-saving changes and the `Date` range limit
  are left out. Local time is a fixed offset from UTC, so every day is
  86 400 000 ms.
- **Date validation.** `setMode`'s checks of the `date` option (a `Date`,
  a string, `NaN`) are folded into an optional valid date. Its scale
  checks are folded into optional scales.
- **`getCurrentSeconds`** and the constructor's default `nowProvider` are
  the `Clock` parameter.
- **Catalog partial updates before a throw.** When a constellation's
  embedded star is rejected, the model returns the error alone. The source
  has already registered the earlier stars by then. Likewise, when an
  entry of `lines` cannot be spread (astroCatalog.js:64-66), the source
  throws after every embedded star is registered (astroCatalog.js:52-57);
  the model returns only the error.
- **Catalog object model.** Spread key order is not modelled (a star is a
  map from property names). `NaN` ids and object identity are not
  modelled either: values are compared by equality. The getters' copies
  are value semantics.
- **Scanner.MatchingBrace**: the source's inner loop begins at the
  opening brace; the method handles that first step before the loop
  (depth 1, cursor after the brace). It is proved equal to the reference
  `Close`, so nothing is lost.
- **RecordCodec.ParseThenRenderStable**: excludes a record whose last
  value ends in a comma. Rendering writes that field without a separating
  comma, and parsing drops the trailing comma, so such a record does not
  round-trip.
- **StarUpdate.UpdateStarOutcomes** and the other `StarUpdate` members:
  convert coordinates with the corrected `Coordinates.ToDecimalFixed`
  (see Findings). It agrees with the script on every text without a colon.
  A colon-separated answer such as `12:30:45` makes the script raise at
  `scripts/update_stars.py:112` and stop before writing; the model reads
  it instead.
- **Document.UpdateAllRecords**, **Document.UpdateAllMissing**,
  **Document.UpdateDocumentFrame**, **Document.RenderedDocumentStable**
  and **Document.RewriteIdempotent** inherit that correction: for a
  colon-separated answer they describe a run that succeeds, where the
  script stops with an error.
- **StarUpdate.UpdateStarIdempotent**, **Document.RewriteIdempotent**:
  need the service to answer the same way on both runs.
  `RewriteIdempotent` also requires every updated record to be one the
  layout and the scanner carry unchanged (no braces, canonical fields, no
  trailing comma on the last value).
- **Document.RenderedDocumentStable**: requires every record to be one
  the layout and the scanner carry unchanged and the service leaves as it
  is; a record with a new answer is rewritten, as the script does.
- **Coordinates.FromPartsBounds**: assumes minutes in [0, 59] and
  seconds in [0, 60). The source checks neither, and the bound says
  nothing about other inputs.

## Findings

| source | as written | input that shows it | evidently intended | confidence | as-written member | corrected member |
|---|---|---|---|---|---|---|
| core/planetariumSettings.js:13-19 with systems/surfaceSystem.js:27-34 | `applySurfaceType` records the value `setSurfaceType` returns, but `setSurfaceType` returns nothing, so with a surface system the setting is never written | surfaces water and desert registered, settings on `water`, `applySurfaceType(ctx, 'land')`: the ground shows desert and `settings.surfaceType` stays `water` | the settings record the type of the surface shown | not executed; high, since `setSurfaceType` has no `return` | Surfaces.AppliedTypeCounterexample | Surfaces.ApplySurfaceTypeRecords |
| scripts/update_stars.py:87-91 | a colon sends the text to the sexagesimal branch, but `split()` cuts only at whitespace, so a colon-separated coordinate is a single part and is rejected | `_sexagesimal_to_decimal("12:30:45", True)` raises `ValueError` | colons separate the parts, so `12:30:45` reads as 12 h 30 m 45 s (187.6875 degrees) | not executed; medium, since the colon test has no other use | Coordinates.ColonCounterexample | Coordinates.ColonsReadAsSeparators |

=== FILE: catalog.dfy ===
/** The star and constellation registry of `astroCatalog.js`
    (`AstroCatalog`).  JavaScript values are modelled by `Value`; a
    registered star is the map of its properties.  The catalogue is an
    immutable value, so the getters' defensive copies are the values
    themselves. */
module Catalog {

  import opened Wrappers

  /** The JavaScript values the registry handles. */
  datatype Value =
    | Undefined
    | Null
    | Bool(b: bool)
    | Num(x: real)
    | Str(s: string)
    | Arr(items: seq<Value>)
    | Obj(props: map<string, Value>)

  /** JavaScript truthiness (`NaN` is not modelled). */
  predicate Truthy(v: Value) {
    match v
    case Undefined => false
    case Null => false
    case Bool(b) => b
    case Num(x) => x != 0.0
    case Str(s) => s != []
    case _ => true
  }

  predicate Nullish(v: Value) {
    v.Undefined? || v.Null?
  }

  /** `a ?? b`. */
  function Coalesce(a: Value, b: Value): Value {
    if Nullish(a) then b else a
  }

  /** `v.key` for a `v` that is not `null`: `undefined` unless `v` is an
      object holding `key`. */
  function Prop(v: Value, key: string): Value {
    if v.Obj? && key in v.props then v.props[key] else Undefined
  }

  /** A registered star: its properties. */
  type StarRecord = map<string, Value>

  /** The defaults `registerStar` lays down before spreading the
      definition over them. */
  const StarDefaults: StarRecord := map[
    "magnitude" := Num(2.5), "distance" := Null, "spectralType" := Str("G型"),
    "temperature" := Str("約5,800K"), "colorHint" := Str(""), "featured" := Bool(false)]

  /** The default constellation colour, `0x4488ff`. */
  const DefaultColor: Value := Num(0x4488ff as real)

  function IdOf(s: StarRecord): Value {
    if "id" in s then s["id"] else Undefined
  }

  datatype Constellation = Constellation(id: Value, name: Value, color: Value, starIds: seq<Value>,
                                         lines: seq<seq<Value>>, description: Value)

  /** The registry: stars in registration order, constellations in
      registration order, and the id-to-star map. */
  datatype Catalog = Catalog(stars: seq<StarRecord>, constellations: seq<Constellation>,
                             starMap: map<Value, StarRecord>)

  const Empty: Catalog := Catalog([], [], map[])

  /** The registry's invariant: every listed star is the map's entry for
      its id, no id is listed twice, and every id in the map is listed. */
  ghost predicate Valid(cat: Catalog) {
    MapHoldsListed(cat.stars, cat.starMap) && DistinctIds(cat.stars) && ListHoldsMapped(cat.stars, cat.starMap)
  }

  /** Every listed star is the map's entry for its id. */
  predicate MapHoldsListed(stars: seq<StarRecord>, starMap: map<Value, StarRecord>) {
    forall i | 0 <= i < |stars| :: IdOf(stars[i]) in starMap && starMap[IdOf(stars[i])] == stars[i]
  }

  /** No id is listed twice. */
  predicate DistinctIds(stars: seq<StarRecord>) {
    forall i, j | 0 <= i < j < |stars| :: IdOf(stars[i]) != IdOf(stars[j])
  }

  /** Every id in the map is listed. */
  ghost predicate ListHoldsMapped(stars: seq<StarRecord>, starMap: map<Value, StarRecord>) {
    forall id | id in starMap :: exists i | 0 <= i < |stars| :: IdOf(stars[i]) == id
  }

  // ---------------------------------------------------------------------
  // registerStar

  /** `stars.findIndex(existing => existing.id === id)`. */
  function FindId(stars: seq<StarRecord>, id: Value): (r: Option<nat>)
    ensures r.Some? ==> r.value < |stars| && IdOf(stars[r.value]) == id
    ensures r.None? ==> forall j | 0 <= j < |stars| :: IdOf(stars[j]) != id
  {
    if stars == [] then None
    else if IdOf(stars[0]) == id then Some(0)
    else match FindId(stars[1..], id)
      case Some(i) => Some(i + 1)
      case None => None
  }

  /** `registerStar`: rejects a missing definition or a falsy id;
      otherwise the defaults overlaid by every property of the
      definition, stored in place of the star with the same id or
      appended.  (Were the id in the map but not in the list, `findIndex`
      would give -1 and the assignment would set a property `"-1"` that
      the list does not show; the list is then left as it was.) */
  function RegisterStar(cat: Catalog, star: Value): Result<(Catalog, StarRecord)> {
    if !Truthy(star) || !Truthy(Prop(star, "id")) then Failure(MissingStarId)
    else
      var normalized := StarDefaults + star.props;
      var id := normalized["id"];
      var stars :=
        if id in cat.starMap then
          match FindId(cat.stars, id)
          case Some(i) => cat.stars[i := normalized]
          case None => cat.stars
        else cat.stars + [normalized];
      Success((Catalog(stars, cat.constellations, cat.starMap[id := normalized]), normalized))
  }

  /** A definition is rejected exactly when it is not an object with a
      truthy id. */
  lemma RegisterStarRejects(cat: Catalog, star: Value)
    ensures RegisterStar(cat, star).Failure? <==> !(star.Obj? && Truthy(Prop(star, "id")))
    ensures RegisterStar(cat, star).Failure? ==> RegisterStar(cat, star).error == MissingStarId
  {
  }

  /** The registered star: every property of the definition as given,
      and the defaults for the properties it lacks. */
  lemma RegisterStarDefaults(cat: Catalog, star: Value)
    requires RegisterStar(cat, star).Success?
    ensures var r := RegisterStar(cat, star).value.1;
            && r.Keys == StarDefaults.Keys + star.props.Keys
            && (forall k | k in star.props :: r[k] == star.props[k])
            && (forall k | k in StarDefaults && k !in star.props :: r[k] == StarDefaults[k])
            && r["magnitude"] == (if "magnitude" in star.props then star.props["magnitude"] else Num(2.5))
            && r["featured"] == (if "featured" in star.props then star.props["featured"] else Bool(false))
            && IdOf(r) == star.props["id"]
  {
  }

  /** Re-registering an id replaces the star at its index and keeps the
      length; a new id is appended.  The invariant is kept, the map
      answers the new star, and the constellations are untouched. */
  lemma RegisterStarPlacement(cat: Catalog, star: Value)
    requires Valid(cat) && RegisterStar(cat, star).Success?
    ensures var (after, r) := RegisterStar(cat, star).value;
            var id := IdOf(r);
            && Valid(after)
            && after.starMap == cat.starMap[id := r]
            && after.constellations == cat.constellations
            && (id in cat.starMap ==>
                  |after.stars| == |cat.stars|
                  && exists i | 0 <= i < |cat.stars| ::
                       IdOf(cat.stars[i]) == id && after.stars == cat.stars[i := r])
            && (id !in cat.starMap ==> after.stars == cat.stars + [r])
  {
    var (after, r) := RegisterStar(cat, star).value;
    var id := IdOf(r);
    if id in cat.starMap {
      var i :| 0 <= i < |cat.stars| && IdOf(cat.stars[i]) == id;
      FindIdUnique(cat, i);
      ReplaceKeepsValid(cat, i, r);
    } else {
      AppendKeepsValid(cat, r);
    }
  }

  /** The part of `RegisterStarPlacement` that a sequence of
      registrations needs: validity and the constellations. */
  lemma RegisterStarKeepsValid(cat: Catalog, star: Value)
    requires Valid(cat) && RegisterStar(cat, star).Success?
    ensures Valid(RegisterStar(cat, star).value.0)
    ensures RegisterStar(cat, star).value.0.constellations == cat.constellations
  {
    RegisterStarPlacement(cat, star);
  }

  /** Whatever the list holds, the map gains the definition's id. */
  lemma RegisterStarMap(cat: Catalog, star: Value)
    requires RegisterStar(cat, star).Success?
    ensures var (after, r) := RegisterStar(cat, star).value;
            && IdOf(r) == Prop(star, "id")
            && after.starMap == cat.starMap[IdOf(r) := r]
  {
  }

  /** Registering a second definition of an id keeps the star where the
      first one was put and shows only the second's data there. */
  lemma ReRegisterKeepsPosition(cat: Catalog, a: Value, b: Value)
    requires Valid(cat) && RegisterStar(cat, a).Success?
    requires RegisterStar(RegisterStar(cat, a).value.0, b).Success?
    requires Prop(a, "id") == Prop(b, "id")
    ensures var (c1, ra) := RegisterStar(cat, a).value;
            var (c2, rb) := RegisterStar(c1, b).value;
            && |c2.stars| == |c1.stars|
            && (forall i | 0 <= i < |c1.stars| && IdOf(c1.stars[i]) == IdOf(ra) :: c2.stars[i] == rb)
            && GetStar(c2, IdOf(ra)) == Some(rb)
  {
    var (c1, ra) := RegisterStar(cat, a).value;
    var (c2, rb) := RegisterStar(c1, b).value;
    RegisterStarPlacement(cat, a);
    RegisterStarDefaults(cat, a);
    RegisterStarDefaults(c1, b);
    RegisterStarPlacement(c1, b);
    var j :| 0 <= j < |c1.stars| && IdOf(c1.stars[j]) == IdOf(rb) && c2.stars == c1.stars[j := rb];
    forall i | 0 <= i < |c1.stars| && IdOf(c1.stars[i]) == IdOf(ra)
      ensures c2.stars[i] == rb
    {
      assert i == j;
    }
  }

  /** In a valid registry the search finds the one star with the id. */
  lemma FindIdUnique(cat: Catalog, i: nat)
    requires Valid(cat) && i < |cat.stars|
    ensures FindId(cat.stars, IdOf(cat.stars[i])) == Some(i)
  {
    var f := FindId(cat.stars, IdOf(cat.stars[i]));
    assert f.Some?;
    assert IdOf(cat.stars[f.value]) == IdOf(cat.stars[i]);
  }

  lemma ReplaceKeepsValid(cat: Catalog, i: nat, r: StarRecord)
    requires Valid(cat) && i < |cat.stars| && IdOf(cat.stars[i]) == IdOf(r)
    ensures Valid(Catalog(cat.stars[i := r], cat.constellations, cat.starMap[IdOf(r) := r]))
  {
    var stars, m := cat.stars[i := r], cat.starMap[IdOf(r) := r];
    forall j | 0 <= j < |stars| ensures IdOf(stars[j]) in m && m[IdOf(stars[j])] == stars[j] {
      if j != i {
        assert stars[j] == cat.stars[j];
        assert IdOf(cat.stars[j]) != IdOf(cat.stars[i]);
      }
    }
    forall j, l | 0 <= j < l < |stars| ensures IdOf(stars[j]) != IdOf(stars[l]) {
      assert IdOf(stars[j]) == IdOf(cat.stars[j]) && IdOf(stars[l]) == IdOf(cat.stars[l]);
    }
    forall id | id in m ensures exists j | 0 <= j < |stars| :: IdOf(stars[j]) == id {
      if id != IdOf(r) {
        var j :| 0 <= j < |cat.stars| && IdOf(cat.stars[j]) == id;
        assert IdOf(stars[j]) == id;
      } else {
        assert IdOf(stars[i]) == id;
      }
    }
  }

  lemma AppendKeepsValid(cat: Catalog, r: StarRecord)
    requires Valid(cat) && IdOf(r) !in cat.starMap
    ensures Valid(Catalog(cat.stars + [r], cat.constellations, cat.starMap[IdOf(r) := r]))
  {
    var stars, m := cat.stars + [r], cat.starMap[IdOf(r) := r];
    forall j | 0 <= j < |stars| ensures IdOf(stars[j]) in m && m[IdOf(stars[j])] == stars[j] {
      if j < |cat.stars| {
        assert stars[j] == cat.stars[j];
      }
    }
    forall j, l | 0 <= j < l < |stars| ensures IdOf(stars[j]) != IdOf(stars[l]) {
      assert stars[j] == cat.stars[j];
      if l < |cat.stars| {
        assert stars[l] == cat.stars[l];
      }
    }
    forall id | id in m ensures exists j | 0 <= j < |stars| :: IdOf(stars[j]) == id {
      if id != IdOf(r) {
        var j :| 0 <= j < |cat.stars| && IdOf(cat.stars[j]) == id;
        assert IdOf(stars[j]) == id;
      } else {
        assert IdOf(stars[|cat.stars|]) == id;
      }
    }
  }

  // ---------------------------------------------------------------------
  // registerConstellation

  /** `[...new Set(xs)]`: each value once, at its first occurrence. */
  function Dedupe(xs: seq<Value>): seq<Value> {
    if xs == [] then []
    else
      var d := Dedupe(xs[..|xs| - 1]);
      if xs[|xs| - 1] in d then d else d + [xs[|xs| - 1]]
  }

  predicate NoDuplicates(xs: seq<Value>) {
    forall i, j | 0 <= i < j < |xs| :: xs[i] != xs[j]
  }

  /** Where `x` first occurs in `xs`. */
  function Position(xs: seq<Value>, x: Value): (p: nat)
    requires x in xs
    ensures p < |xs| && xs[p] == x
  {
    if xs[0] == x then 0 else Position(xs[1..], x) + 1
  }

  /** No earlier index holds the value. */
  lemma {:induction false} PositionIsFirst(xs: seq<Value>, x: Value)
    requires x in xs
    ensures x !in xs[..Position(xs, x)]
  {
    if xs[0] != x {
      PositionIsFirst(xs[1..], x);
      assert xs[..Position(xs, x)] == [xs[0]] + xs[1..][..Position(xs[1..], x)];
    }
  }

  lemma {:induction false} PositionInInit(init: seq<Value>, y: Value, x: Value)
    requires x in init
    ensures Position(init + [y], x) == Position(init, x)
  {
    if init[0] != x {
      assert (init + [y])[1..] == init[1..] + [y];
      PositionInInit(init[1..], y, x);
    }
  }

  lemma {:induction false} PositionInInitNot(init: seq<Value>, y: Value)
    requires y !in init
    ensures Position(init + [y], y) == |init|
  {
    if init != [] {
      assert (init + [y])[1..] == init[1..] + [y];
      PositionInInitNot(init[1..], y);
    }
  }

  /** De-duplication keeps exactly the values of `xs`, each once. */
  lemma {:induction false} DedupeValues(xs: seq<Value>)
    ensures NoDuplicates(Dedupe(xs))
    ensures forall x :: x in Dedupe(xs) <==> x in xs
  {
    if xs != [] {
      var init, y := xs[..|xs| - 1], xs[|xs| - 1];
      DedupeValues(init);
      assert xs == init + [y];
    }
  }

  /** The values de-duplication keeps appear in the order of their first
      occurrences. */
  lemma {:induction false} DedupeFirstOccurrences(xs: seq<Value>)
    ensures forall x | x in Dedupe(xs) :: x in xs
    ensures forall i, j | 0 <= i < j < |Dedupe(xs)| ::
              Position(xs, Dedupe(xs)[i]) < Position(xs, Dedupe(xs)[j])
  {
    DedupeValues(xs);
    if xs != [] {
      var init, y := xs[..|xs| - 1], xs[|xs| - 1];
      var d := Dedupe(init);
      DedupeValues(init);
      DedupeFirstOccurrences(init);
      assert xs == init + [y];
      forall x | x in d ensures Position(xs, x) == Position(init, x) {
        PositionInInit(init, y, x);
      }
      if y !in d {
        DedupeAppendOrder(xs, d, y);
      }
    }
  }

  /** Appending the last value of `xs`, first seen there, after values
      already ordered by first occurrence keeps the order. */
  lemma DedupeAppendOrder(xs: seq<Value>, d: seq<Value>, y: Value)
    requires xs != [] && y == xs[|xs| - 1] && y !in xs[..|xs| - 1]
    requires forall x | x in d :: x in xs && x != y
    requires forall i, j | 0 <= i < j < |d| :: Position(xs, d[i]) < Position(xs, d[j])
    ensures forall i, j | 0 <= i < j < |d + [y]| :: Position(xs, (d + [y])[i]) < Position(xs, (d + [y])[j])
  {
    var r := d + [y];
    var last := |xs| - 1;
    assert xs[..last] + [y] == xs;
    PositionInInitNot(xs[..last], y);
    PositionsBeforeLast(xs, d);
    forall i, j | 0 <= i < j < |r| ensures Position(xs, r[i]) < Position(xs, r[j]) {
      assert r[i] == d[i];
      if j < |d| {
        assert r[j] == d[j];
      } else {
        assert r[j] == y;
      }
    }
  }

  /** Values other than the last one of `xs` first occur before it. */
  lemma PositionsBeforeLast(xs: seq<Value>, d: seq<Value>)
    requires xs != [] && forall x | x in d :: x in xs && x != xs[|xs| - 1]
    ensures forall i | 0 <= i < |d| :: Position(xs, d[i]) < |xs| - 1
  {
    forall i | 0 <= i < |d| ensures Position(xs, d[i]) < |xs| - 1 {
      var x := d[i];
      assert x in d;
      assert xs[Position(xs, x)] == x;
    }
  }

  /** A list without duplicates is its own de-duplication. */
  lemma {:induction false} DedupeDistinct(xs: seq<Value>)
    requires NoDuplicates(xs)
    ensures Dedupe(xs) == xs
  {
    if xs != [] {
      var init := xs[..|xs| - 1];
      DedupeDistinct(init);
      DedupeValues(init);
      assert xs[|xs| - 1] !in init;
      assert xs == init + [xs[|xs| - 1]];
    }
  }

  /** `[...v]`: arrays copy their items, strings split into code points,
      anything else throws. */
  function Spread(v: Value): Result<seq<Value>> {
    match v
    case Arr(items) => Success(items)
    case Str(s) => Success(seq(|s|, i requires 0 <= i < |s| => Str([s[i]])))
    case _ => Failure(NotIterable)
  }

  /** `lines.map(line => [...line])`. */
  function CopyLines(lines: seq<Value>): Result<seq<seq<Value>>> {
    if lines == [] then Success([])
    else
      var init :- CopyLines(lines[..|lines| - 1]);
      var last :- Spread(lines[|lines| - 1]);
      Success(init + [last])
  }

  /** Registers each definition in turn, collecting the registered ids. */
  function RegisterStars(cat: Catalog, defs: seq<Value>): Result<(Catalog, seq<Value>)> {
    if defs == [] then Success((cat, []))
    else
      var before :- RegisterStars(cat, defs[..|defs| - 1]);
      var reg :- RegisterStar(before.0, defs[|defs| - 1]);
      Success((reg.0, before.1 + [IdOf(reg.1)]))
  }

  /** `registerConstellation`.  An absent argument is `{}`; `null` throws
      on the first property read. */
  function RegisterConstellation(cat: Catalog, definition: Value): Result<(Catalog, Constellation)> {
    var def := if definition.Undefined? then Obj(map[]) else definition;
    if def.Null? then Failure(PropertyOfNull)
    else
      var name, id := Prop(def, "name"), Prop(def, "id");
      if !Truthy(name) && !Truthy(id) then Failure(MissingConstellationName)
      else
        var embedded :- if Prop(def, "stars").Arr? then RegisterStars(cat, Prop(def, "stars").items)
                        else Success((cat, []));
        var explicit := if Prop(def, "starIds").Arr? then Prop(def, "starIds").items else [];
        var lines :- if Prop(def, "lines").Arr? then CopyLines(Prop(def, "lines").items) else Success([]);
        var c := Constellation(Coalesce(id, name), Coalesce(name, id), Coalesce(Prop(def, "color"), DefaultColor),
                               Dedupe(embedded.1 + explicit), lines,
                               Coalesce(Prop(def, "description"), Str([])));
        var after := embedded.0;
        Success((after.(constellations := after.constellations + [c]), c))
  }

  /** Registering in turn keeps the invariant and the constellations. */
  lemma {:induction false} RegisterStarsKeepValid(cat: Catalog, defs: seq<Value>)
    requires Valid(cat) && RegisterStars(cat, defs).Success?
    ensures Valid(RegisterStars(cat, defs).value.0)
    ensures RegisterStars(cat, defs).value.0.constellations == cat.constellations
  {
    if defs != [] {
      var init, last := defs[..|defs| - 1], defs[|defs| - 1];
      var before := RegisterStars(cat, init).value;
      RegisterStarsKeepValid(cat, init);
      RegisterStarKeepsValid(before.0, last);
    }
  }

  /** The collected ids are the definitions' ids, in order, and each is
      now in the map. */
  lemma {:induction false} RegisterStarsIds(cat: Catalog, defs: seq<Value>)
    requires RegisterStars(cat, defs).Success?
    ensures var (after, ids) := RegisterStars(cat, defs).value;
            && |ids| == |defs|
            && (forall i | 0 <= i < |ids| :: ids[i] == Prop(defs[i], "id") && ids[i] in after.starMap)
  {
    if defs != [] {
      var init, last := defs[..|defs| - 1], defs[|defs| - 1];
      var before := RegisterStars(cat, init).value;
      RegisterStarsIds(cat, init);
      var reg := RegisterStar(before.0, last).value;
      RegisterStarMap(before.0, last);
      var ids := before.1 + [IdOf(reg.1)];
      assert RegisterStars(cat, defs).value == (reg.0, ids);
      forall i | 0 <= i < |ids| ensures ids[i] == Prop(defs[i], "id") && ids[i] in reg.0.starMap {
        if i < |init| {
          assert defs[i] == init[i];
          assert ids[i] == before.1[i];
          assert ids[i] in before.0.starMap;
        } else {
          assert ids[i] == IdOf(reg.1);
        }
      }
    }
  }

  /** `registerConstellation` rejects a definition with neither name nor
      id.  Otherwise the id falls back to the name and the name to the
      id, the colour defaults to `0x4488ff`, and the constellation is
      appended, never merged. */
  lemma RegisterConstellationFields(cat: Catalog, definition: Value)
    requires definition.Obj?
    ensures !Truthy(Prop(definition, "name")) && !Truthy(Prop(definition, "id")) ==>
              RegisterConstellation(cat, definition) == Failure(MissingConstellationName)
    ensures RegisterConstellation(cat, definition).Success? ==>
              var (after, c) := RegisterConstellation(cat, definition).value;
              var name, id := Prop(definition, "name"), Prop(definition, "id");
              && (Truthy(name) || Truthy(id))
              && c.id == (if Nullish(id) then name else id)
              && c.name == (if Nullish(name) then id else name)
              && c.color == Coalesce(Prop(definition, "color"), DefaultColor)
              && c.description == Coalesce(Prop(definition, "description"), Str([]))
              && (Prop(definition, "lines").Arr? ==> CopyLines(Prop(definition, "lines").items) == Success(c.lines))
              && (!Prop(definition, "lines").Arr? ==> c.lines == [])
              && after.constellations[|after.constellations| - 1] == c
  {
  }

  /** `lines.map(line => [...line])` copies line by line: it succeeds
      exactly when every line can be spread, and then each copy is that
      line's spread. */
  lemma {:induction false} CopyLinesEach(lines: seq<Value>)
    ensures CopyLines(lines).Success? <==> forall i | 0 <= i < |lines| :: Spread(lines[i]).Success?
    ensures CopyLines(lines).Success? ==>
              && |CopyLines(lines).value| == |lines|
              && forall i | 0 <= i < |lines| :: Spread(lines[i]) == Success(CopyLines(lines).value[i])
  {
    if lines != [] {
      var init := lines[..|lines| - 1];
      CopyLinesEach(init);
      assert forall i | 0 <= i < |init| :: init[i] == lines[i];
    }
  }

  /** The `id` of each star definition, in order. */
  function DeclaredIds(defs: seq<Value>): (r: seq<Value>)
    ensures |r| == |defs|
  {
    seq(|defs|, i requires 0 <= i < |defs| => Prop(defs[i], "id"))
  }

  /** The constellation's star ids: the embedded stars (each now
      registered) and then the explicit ids, each once, in order of first
      occurrence.  The registry stays valid and the earlier constellations
      stay as they were. */
  lemma RegisterConstellationStars(cat: Catalog, definition: Value)
    requires Valid(cat) && RegisterConstellation(cat, definition).Success?
    ensures var (after, c) := RegisterConstellation(cat, definition).value;
            var def := if definition.Undefined? then Obj(map[]) else definition;
            var explicit := if Prop(def, "starIds").Arr? then Prop(def, "starIds").items else [];
            var declared := if Prop(def, "stars").Arr? then DeclaredIds(Prop(def, "stars").items) else [];
            && Valid(after)
            && after.constellations == cat.constellations + [c]
            && c.starIds == Dedupe(declared + explicit)
            && NoDuplicates(c.starIds)
            && (forall x | x in c.starIds :: x in explicit || x in after.starMap)
            && (forall x | x in explicit :: x in c.starIds)
            && (Prop(def, "stars").Arr? ==>
                  forall i | 0 <= i < |Prop(def, "stars").items| ::
                    var sid := Prop(Prop(def, "stars").items[i], "id");
                    sid in c.starIds && sid in after.starMap)
  {
    var def := if definition.Undefined? then Obj(map[]) else definition;
    var embedded := if Prop(def, "stars").Arr? then RegisterStars(cat, Prop(def, "stars").items).value
                    else (cat, []);
    if Prop(def, "stars").Arr? {
      RegisterStarsKeepValid(cat, Prop(def, "stars").items);
      RegisterStarsIds(cat, Prop(def, "stars").items);
      assert embedded.1 == DeclaredIds(Prop(def, "stars").items);
    }
    var explicit := if Prop(def, "starIds").Arr? then Prop(def, "starIds").items else [];
    DedupeValues(embedded.1 + explicit);
  }

  // ---------------------------------------------------------------------
  // Construction and getters

  function RegisterConstellations(cat: Catalog, defs: seq<Value>): Result<Catalog> {
    if defs == [] then Success(cat)
    else
      var before :- RegisterConstellations(cat, defs[..|defs| - 1]);
      var reg :- RegisterConstellation(before, defs[|defs| - 1]);
      Success(reg.0)
  }

  // ---------------------------------------------------------------------
  // The order of the star list

  /** The ids of the listed stars, in list order. */
  function ListedIds(stars: seq<StarRecord>): (r: seq<Value>)
    ensures |r| == |stars|
  {
    seq(|stars|, i requires 0 <= i < |stars| => IdOf(stars[i]))
  }

  /** `a` is where `b` starts. */
  predicate IsPrefix(a: seq<Value>, b: seq<Value>) {
    |a| <= |b| && b[..|a|] == a
  }

  /** De-duplicating more values only appends to the de-duplication. */
  lemma {:induction false} DedupePrefix(xs: seq<Value>, ys: seq<Value>)
    ensures IsPrefix(Dedupe(xs), Dedupe(xs + ys))
  {
    if ys == [] {
      assert xs + ys == xs;
    } else {
      var init := ys[..|ys| - 1];
      DedupePrefix(xs, init);
      assert xs + ys == (xs + init) + [ys[|ys| - 1]];
      var a, b, c := Dedupe(xs), Dedupe(xs + init), Dedupe(xs + ys);
      assert c == b || c == b + [ys[|ys| - 1]];
      assert c[..|a|] == b[..|a|];
    }
  }

  /** One step of de-duplication over a list without duplicates. */
  lemma DedupeDistinctSnoc(ids: seq<Value>, x: Value)
    requires NoDuplicates(ids)
    ensures Dedupe(ids + [x]) == if x in ids then ids else ids + [x]
  {
    DedupeDistinct(ids);
    assert (ids + [x])[..|ids|] == ids;
  }

  lemma ListedIdsReplace(stars: seq<StarRecord>, i: nat, r: StarRecord)
    requires i < |stars| && IdOf(r) == IdOf(stars[i])
    ensures ListedIds(stars[i := r]) == ListedIds(stars)
  {
  }

  lemma ListedIdsAppend(stars: seq<StarRecord>, r: StarRecord)
    ensures ListedIds(stars + [r]) == ListedIds(stars) + [IdOf(r)]
  {
  }

  /** De-duplicating twice is de-duplicating once, also after a step. */
  lemma DedupeSnoc(ys: seq<Value>, x: Value)
    ensures Dedupe(Dedupe(ys) + [x]) == Dedupe(ys + [x])
  {
    DedupeValues(ys);
    DedupeDistinct(Dedupe(ys));
    assert (Dedupe(ys) + [x])[..|Dedupe(ys)|] == Dedupe(ys);
    assert (ys + [x])[..|ys|] == ys;
  }

  /** In a valid registry the listed ids are distinct. */
  lemma ListedIdsDistinct(cat: Catalog)
    requires Valid(cat)
    ensures NoDuplicates(ListedIds(cat.stars))
    ensures forall x :: x in ListedIds(cat.stars) <==> x in cat.starMap
  {
    var ids := ListedIds(cat.stars);
    forall x | x in cat.starMap ensures x in ids {
      var i :| 0 <= i < |cat.stars| && IdOf(cat.stars[i]) == x;
      assert ids[i] == x;
    }
  }

  /** Registering a star leaves the listed ids as they were when its id
      is known, and appends the id otherwise. */
  lemma RegisterStarListedIds(cat: Catalog, star: Value)
    requires Valid(cat) && RegisterStar(cat, star).Success?
    ensures ListedIds(RegisterStar(cat, star).value.0.stars) == Dedupe(ListedIds(cat.stars) + [Prop(star, "id")])
  {
    var (after, r) := RegisterStar(cat, star).value;
    var ids := ListedIds(cat.stars);
    var id := IdOf(r);
    RegisterStarPlacement(cat, star);
    RegisterStarMap(cat, star);
    ListedIdsDistinct(cat);
    DedupeDistinctSnoc(ids, id);
    if id in cat.starMap {
      var i :| 0 <= i < |cat.stars| && IdOf(cat.stars[i]) == id && after.stars == cat.stars[i := r];
      ListedIdsReplace(cat.stars, i, r);
    } else {
      ListedIdsAppend(cat.stars, r);
    }
  }

  lemma DeclaredIdsSnoc(defs: seq<Value>)
    requires defs != []
    ensures DeclaredIds(defs) == DeclaredIds(defs[..|defs| - 1]) + [Prop(defs[|defs| - 1], "id")]
  {
  }

  /** Registering stars in turn lists their ids after the ones already
      listed, each once, in order of first occurrence. */
  lemma {:induction false} RegisterStarsListedIds(cat: Catalog, defs: seq<Value>)
    requires Valid(cat) && RegisterStars(cat, defs).Success?
    ensures ListedIds(RegisterStars(cat, defs).value.0.stars) == Dedupe(ListedIds(cat.stars) + DeclaredIds(defs))
  {
    var ids := ListedIds(cat.stars);
    if defs == [] {
      assert ids + DeclaredIds(defs) == ids;
      ListedIdsDistinct(cat);
      DedupeDistinct(ids);
    } else {
      var init, last := defs[..|defs| - 1], defs[|defs| - 1];
      var before := RegisterStars(cat, init).value;
      var after := RegisterStar(before.0, last).value;
      assert RegisterStars(cat, defs).value.0 == after.0;
      RegisterStarsListedIds(cat, init);
      RegisterStarsKeepValid(cat, init);
      RegisterStarListedIds(before.0, last);
      var x := Prop(last, "id");
      var ys := ids + DeclaredIds(init);
      DedupeSnoc(ys, x);
      DeclaredIdsSnoc(defs);
      assert ids + DeclaredIds(defs) == ys + [x];
    }
  }

  /** Registering a constellation never moves a listed star: the ids
      listed before stay at the front. */
  lemma RegisterConstellationKeepsOrder(cat: Catalog, definition: Value)
    requires Valid(cat) && RegisterConstellation(cat, definition).Success?
    ensures IsPrefix(ListedIds(cat.stars), ListedIds(RegisterConstellation(cat, definition).value.0.stars))
  {
    var def := if definition.Undefined? then Obj(map[]) else definition;
    var ids := ListedIds(cat.stars);
    ListedIdsDistinct(cat);
    DedupeDistinct(ids);
    if Prop(def, "stars").Arr? {
      RegisterStarsListedIds(cat, Prop(def, "stars").items);
      DedupePrefix(ids, DeclaredIds(Prop(def, "stars").items));
    }
  }

  lemma {:induction false} RegisterConstellationsKeepOrder(cat: Catalog, defs: seq<Value>)
    requires Valid(cat) && RegisterConstellations(cat, defs).Success?
    ensures IsPrefix(ListedIds(cat.stars), ListedIds(RegisterConstellations(cat, defs).value.stars))
  {
    if defs != [] {
      var before := RegisterConstellations(cat, defs[..|defs| - 1]).value;
      RegisterConstellationsKeepOrder(cat, defs[..|defs| - 1]);
      RegisterConstellationsKeepValid(cat, defs[..|defs| - 1]);
      RegisterConstellationKeepsOrder(before, defs[|defs| - 1]);
      var a, b := ListedIds(cat.stars), ListedIds(before.stars);
      var c := ListedIds(RegisterConstellations(cat, defs).value.stars);
      assert c[..|a|] == c[..|b|][..|a|];
    }
  }

  /** The constructor: every star first, then every constellation. */
  function Create(stars: seq<Value>, constellations: seq<Value>): Result<Catalog> {
    var withStars :- RegisterStars(Empty, stars);
    RegisterConstellations(withStars.0, constellations)
  }

  lemma {:induction false} RegisterConstellationsKeepValid(cat: Catalog, defs: seq<Value>)
    requires Valid(cat) && RegisterConstellations(cat, defs).Success?
    ensures Valid(RegisterConstellations(cat, defs).value)
    ensures |RegisterConstellations(cat, defs).value.constellations| == |cat.constellations| + |defs|
  {
    if defs != [] {
      var before := RegisterConstellations(cat, defs[..|defs| - 1]).value;
      RegisterConstellationsKeepValid(cat, defs[..|defs| - 1]);
      RegisterConstellationStars(before, defs[|defs| - 1]);
    }
  }

  /** A constructed catalogue satisfies the invariant and holds one
      constellation per definition. */
  lemma CreateValid(stars: seq<Value>, constellations: seq<Value>)
    requires Create(stars, constellations).Success?
    ensures Valid(Create(stars, constellations).value)
    ensures |Create(stars, constellations).value.constellations| == |constellations|
  {
    RegisterStarsKeepValid(Empty, stars);
    RegisterConstellationsKeepValid(RegisterStars(Empty, stars).value.0, constellations);
  }

  /** The constructor registers every star before any constellation: the
      top-level stars' ids, each once in order of first occurrence, open
      the star list, and the constellations' own stars come after them. */
  lemma CreateListsStarsFirst(stars: seq<Value>, constellations: seq<Value>)
    requires Create(stars, constellations).Success?
    ensures IsPrefix(Dedupe(DeclaredIds(stars)), ListedIds(Create(stars, constellations).value.stars))
  {
    var withStars := RegisterStars(Empty, stars).value.0;
    RegisterStarsListedIds(Empty, stars);
    assert ListedIds(Empty.stars) + DeclaredIds(stars) == DeclaredIds(stars);
    RegisterStarsKeepValid(Empty, stars);
    RegisterConstellationsKeepOrder(withStars, constellations);
  }

  /** `getStar`. */
  function GetStar(cat: Catalog, id: Value): Option<StarRecord> {
    if id in cat.starMap then Some(cat.starMap[id]) else None
  }

  /** `stars.filter(keep)`. */
  function Filter(stars: seq<StarRecord>, keep: StarRecord -> bool): (r: seq<StarRecord>)
    ensures |r| <= |stars|
  {
    if stars == [] then []
    else
      var init := Filter(stars[..|stars| - 1], keep);
      if keep(stars[|stars| - 1]) then init + [stars[|stars| - 1]] else init
  }

  /** `getStars(filterFn)`: every star, or those the function keeps. */
  function GetStars(cat: Catalog, filterFn: Option<StarRecord -> bool>): seq<StarRecord> {
    if filterFn.Some? then Filter(cat.stars, filterFn.value) else cat.stars
  }

  predicate IsFeatured(s: StarRecord) {
    "featured" in s && Truthy(s["featured"])
  }

  /** `getFeaturedStars`. */
  function GetFeaturedStars(cat: Catalog): seq<StarRecord> {
    GetStars(cat, Some(IsFeatured))
  }

  /** `getStarMap`. */
  function GetStarMap(cat: Catalog): map<Value, StarRecord> {
    cat.starMap
  }

  /** `getConstellations`. */
  function GetConstellations(cat: Catalog): seq<Constellation> {
    cat.constellations
  }

  /** Filtering keeps exactly the stars the function accepts, in list
      order: a filtered concatenation is the concatenation of the
      filtered parts. */
  lemma {:induction false} FilterExact(stars: seq<StarRecord>, keep: StarRecord -> bool)
    ensures forall s | s in Filter(stars, keep) :: s in stars && keep(s)
    ensures forall i | 0 <= i < |stars| && keep(stars[i]) :: stars[i] in Filter(stars, keep)
  {
    if stars != [] {
      FilterExact(stars[..|stars| - 1], keep);
      forall i | 0 <= i < |stars| - 1 && keep(stars[i])
        ensures stars[i] in Filter(stars, keep)
      {
        assert stars[..|stars| - 1][i] == stars[i];
      }
    }
  }

  lemma {:induction false} FilterAppend(a: seq<StarRecord>, b: seq<StarRecord>, keep: StarRecord -> bool)
    ensures Filter(a + b, keep) == Filter(a, keep) + Filter(b, keep)
    decreases |b|
  {
    if b == [] {
      assert a + b == a;
    } else {
      var init := b[..|b| - 1];
      assert (a + b)[..|a + b| - 1] == a + init;
      FilterAppend(a, init, keep);
    }
  }

  /** The featured stars are exactly the listed stars whose `featured`
      is truthy, and every star the getters return is the map's entry
      for its id. */
  lemma GettersAgree(cat: Catalog)
    requires Valid(cat)
    ensures forall s | s in GetFeaturedStars(cat) :: s in cat.stars && IsFeatured(s)
    ensures forall i | 0 <= i < |cat.stars| && IsFeatured(cat.stars[i]) :: cat.stars[i] in GetFeaturedStars(cat)
    ensures forall s | s in GetStars(cat, None) :: GetStar(cat, IdOf(s)) == Some(s)
    ensures forall id | id in GetStarMap(cat) :: GetStar(cat, id).Some?
                && GetStar(cat, id).value in GetStars(cat, None)
  {
    FilterExact(cat.stars, IsFeatured);
    forall id | id in cat.starMap
      ensures GetStar(cat, id).value in cat.stars
    {
      var i :| 0 <= i < |cat.stars| && IdOf(cat.stars[i]) == id;
    }
  }
}

=== FILE: coordinates.dfy ===
/** The coordinate normaliser of `scripts/update_stars.py`
    (`_sexagesimal_to_decimal`): right ascension or declination, given as
    a decimal number or as "base minutes seconds" text, in decimal degrees.
    Python's `float()`, `str()` and the fixed-point formatting are the host's
    and enter the model as the `Numerics` parameter. */
module Coordinates {

  import opened Wrappers
  import opened Text
  import opened Spacing

  /** A value as the catalogue service hands it over: text or a number. */
  datatype Scalar = Text(s: string) | Number(x: real)

  /** The host's numeric primitives: `float(text)` (`None` where it raises
      `ValueError`), `str(x)`, and the `.6f` / `.2f` formats. */
  datatype Numerics = Numerics(
    parseFloat: string -> Option<real>,
    show: real -> string,
    fixed6: real -> string,
    fixed2: real -> string)

  /** The Unicode minus sign U+2212. */
  const UnicodeMinus: char := '\U{2212}'

  /** `float(text)`, failing as Python does on text it cannot read. */
  function Parse(num: Numerics, text: string): (r: Result<real>)
    ensures r.Success? <==> num.parseFloat(text).Some?
    ensures r.Success? ==> r.value == num.parseFloat(text).value
    ensures r.Failure? ==> r.error == BadNumber(text)
  {
    match num.parseFloat(text)
    case None => Failure(BadNumber(text))
    case Some(x) => Success(x)
  }

  /** `str(value)` for a number, the text itself otherwise. */
  function AsText(num: Numerics, value: Scalar): string {
    match value
    case Text(s) => s
    case Number(x) => num.show(x)
  }

  /** Stripped, with every Unicode minus turned into `-`. */
  function Sanitize(text: string): string {
    ReplaceChar(Strip(text, PySpace), UnicodeMinus, '-')
  }

  /** The test that selects the sexagesimal reading: an ASCII space or a
      colon somewhere in the sanitised text. */
  predicate LooksSexagesimal(s: string) {
    ' ' in s || ':' in s
  }

  /** `base + minutes/60 + seconds/3600`. */
  function Sexagesimal(base: real, minutes: real, seconds: real): real {
    base + minutes / 60.0 + seconds / 3600.0
  }

  function Abs(x: real): (r: real)
    ensures r >= 0.0 && (r == x || r == -x)
  {
    if x < 0.0 then -x else x
  }

  /** The sexagesimal branch, given the whitespace-separated parts: only
      the first three count.  Declination takes its sign from the text of
      the first part, right ascension converts hours to degrees. */
  function FromParts(num: Numerics, parts: seq<string>, isRa: bool): (r: Result<real>)
    requires |parts| >= 3
  {
    var base :- Parse(num, parts[0]);
    var minutes :- Parse(num, parts[1]);
    var seconds :- Parse(num, parts[2]);
    if !isRa then
      var sign := if StartsWith(parts[0], "-") then -1.0 else 1.0;
      Success(sign * Sexagesimal(Abs(base), minutes, seconds))
    else
      Success(Sexagesimal(base, minutes, seconds) * 15.0)
  }

  /** The conversion of the sanitised text: `float()` unless it looks
      sexagesimal, else its whitespace-separated parts; `text` is quoted
      in the error. */
  function FromSanitized(num: Numerics, text: string, sanitized: string, isRa: bool): Result<real> {
    if !LooksSexagesimal(sanitized) then Parse(num, sanitized)
    else
      var parts := Words(sanitized, PySpace);
      if |parts| < 3 then Failure(BadSexagesimal(text))
      else FromParts(num, parts, isRa)
  }

  /** `_sexagesimal_to_decimal(value, is_ra)` as written. */
  function ToDecimal(num: Numerics, value: Scalar, isRa: bool): Result<real> {
    var text := AsText(num, value);
    FromSanitized(num, text, Sanitize(text), isRa)
  }

  /** The conversion with colons read as separators, as the colon test
      that selects the sexagesimal branch implies. */
  function ToDecimalFixed(num: Numerics, value: Scalar, isRa: bool): Result<real> {
    var text := AsText(num, value);
    FromSanitized(num, text, ReplaceChar(Sanitize(text), ':', ' '), isRa)
  }

  // ---------------------------------------------------------------------
  // Properties

  /** With whole minutes below 60 and seconds in [0, 60) the value lies within one unit of
      its base: the declination's magnitude is between `|base|` and
      `|base| + 1` with the sign of the first part's text, and right
      ascension is between `15 * base` and `15 * (base + 1)` degrees. */
  lemma FromPartsBounds(num: Numerics, parts: seq<string>, isRa: bool)
    requires |parts| >= 3
    requires num.parseFloat(parts[0]).Some?
    requires num.parseFloat(parts[1]).Some? && num.parseFloat(parts[2]).Some?
    requires 0.0 <= num.parseFloat(parts[1]).value <= 59.0
    requires 0.0 <= num.parseFloat(parts[2]).value < 60.0
    ensures FromParts(num, parts, isRa).Success?
    ensures var b := num.parseFloat(parts[0]).value;
            var r := FromParts(num, parts, isRa).value;
            if isRa then 15.0 * b <= r < 15.0 * b + 15.0
            else if StartsWith(parts[0], "-") then -Abs(b) - 1.0 < r <= -Abs(b)
            else Abs(b) <= r < Abs(b) + 1.0
  {
    var m := num.parseFloat(parts[1]).value;
    var sec := num.parseFloat(parts[2]).value;
    assert 0.0 <= m / 60.0 <= 59.0 / 60.0;
    assert 0.0 <= sec / 3600.0 < 60.0 / 3600.0;
  }

  /** Declination's sign is read from the text, so a negative zero degree
      part keeps the minus: `-0 30 0` is half a degree south. */
  lemma NegativeZeroDeclination(num: Numerics)
    requires num.parseFloat("-0") == Some(0.0)
    requires num.parseFloat("30") == Some(30.0)
    requires num.parseFloat("0") == Some(0.0)
    ensures FromParts(num, ["-0", "30", "0"], false) == Success(-0.5)
  {
    assert StartsWith("-0", "-");
  }

  /** Right ascension in hours is fifteen times the same reading taken as
      degrees of a non-negative declination. */
  lemma RightAscensionIsFifteenfold(num: Numerics, parts: seq<string>)
    requires |parts| >= 3 && !StartsWith(parts[0], "-")
    requires num.parseFloat(parts[0]).Some? && num.parseFloat(parts[0]).value >= 0.0
    requires FromParts(num, parts, false).Success?
    ensures FromParts(num, parts, true).Success?
    ensures FromParts(num, parts, true).value == 15.0 * FromParts(num, parts, false).value
  {
  }

  /** Only the first three parts count: two texts whose word lists agree
      on them convert alike. */
  lemma OnlyThreePartsCount(num: Numerics, a: string, b: string, isRa: bool)
    requires LooksSexagesimal(Sanitize(a)) && LooksSexagesimal(Sanitize(b))
    requires |Words(Sanitize(a), PySpace)| >= 3 && |Words(Sanitize(b), PySpace)| >= 3
    requires Words(Sanitize(a), PySpace)[..3] == Words(Sanitize(b), PySpace)[..3]
    ensures ToDecimal(num, Text(a), isRa) == ToDecimal(num, Text(b), isRa)
  {
    SexagesimalBranch(num, a, isRa);
    SexagesimalBranch(num, b, isRa);
    FromFirstThree(num, Words(Sanitize(a), PySpace), Words(Sanitize(b), PySpace), isRa);
  }

  lemma SexagesimalBranch(num: Numerics, t: string, isRa: bool)
    requires LooksSexagesimal(Sanitize(t)) && |Words(Sanitize(t), PySpace)| >= 3
    ensures ToDecimal(num, Text(t), isRa) == FromParts(num, Words(Sanitize(t), PySpace), isRa)
  {
  }

  lemma FromFirstThree(num: Numerics, pa: seq<string>, pb: seq<string>, isRa: bool)
    requires |pa| >= 3 && |pb| >= 3 && pa[..3] == pb[..3]
    ensures FromParts(num, pa, isRa) == FromParts(num, pb, isRa)
  {
    assert pa[0] == pa[..3][0] && pa[1] == pa[..3][1] && pa[2] == pa[..3][2];
    assert pb[0] == pb[..3][0] && pb[1] == pb[..3][1] && pb[2] == pb[..3][2];
  }

  /** Colons alone do not separate the parts: the colon sends the text to
      the sexagesimal branch, but `split()` only cuts at whitespace, so
      `12:30:45` is one part and the conversion fails. */
  lemma ColonSeparatedFails(num: Numerics, t: string, isRa: bool)
    requires NoneOf(t, PySpace) && ':' in t
    ensures ToDecimal(num, Text(t), isRa) == Failure(BadSexagesimal(t))
  {
    var k :| 0 <= k < |t| && t[k] == ':';
    assert !In(t[0], PySpace) && !In(t[|t| - 1], PySpace);
    StripTrimmed(t, PySpace);
    var s := Sanitize(t);
    assert s[k] == ':';
    assert NoneOf(s, PySpace) by {
      forall i | 0 <= i < |s| ensures !In(s[i], PySpace) {
        assert s[i] == t[i] || s[i] == '-';
      }
    }
    WordsOfWord(s, PySpace);
  }

  /** A tab does not count as a separator: text whose parts are separated
      by tabs only is handed to `float()` whole. */
  lemma TabSeparatedIsDecimal(num: Numerics, t: string, isRa: bool)
    requires ' ' !in t && ':' !in t
    ensures ToDecimal(num, Text(t), isRa) == Parse(num, Sanitize(t))
  {
    var s := Sanitize(t);
    StripIsSlice(t, PySpace);
    var st := Strip(t, PySpace);
    forall i | 0 <= i < |s|
      ensures s[i] != ' ' && s[i] != ':'
    {
      assert st[i] in t;
    }
  }

  lemma StripReplace(s: string, from: char, to: char, ws: CharClass)
    requires !In(from, ws) && !In(to, ws)
    ensures Strip(ReplaceChar(s, from, to), ws) == ReplaceChar(Strip(s, ws), from, to)
  {
    StripStartReplace(s, from, to, ws);
    StripEndReplace(StripStart(s, ws), from, to, ws);
  }

  lemma {:induction false} StripStartReplace(s: string, from: char, to: char, ws: CharClass)
    requires !In(from, ws) && !In(to, ws)
    ensures StripStart(ReplaceChar(s, from, to), ws) == ReplaceChar(StripStart(s, ws), from, to)
  {
    if s != [] && In(s[0], ws) {
      var r := ReplaceChar(s, from, to);
      assert r[0] == s[0];
      assert r[1..] == ReplaceChar(s[1..], from, to);
      StripStartReplace(s[1..], from, to, ws);
    }
  }

  lemma {:induction false} StripEndReplace(s: string, from: char, to: char, ws: CharClass)
    requires !In(from, ws) && !In(to, ws)
    ensures StripEnd(ReplaceChar(s, from, to), ws) == ReplaceChar(StripEnd(s, ws), from, to)
  {
    var r := ReplaceChar(s, from, to);
    if s != [] {
      assert In(r[|r| - 1], ws) <==> In(s[|s| - 1], ws);
      if In(s[|s| - 1], ws) {
        ReplacePrefix(s, from, to);
        StripEndReplace(s[..|s| - 1], from, to, ws);
      }
    }
  }

  lemma ReplacePrefix(s: string, from: char, to: char)
    requires s != []
    ensures ReplaceChar(s, from, to)[..|s| - 1] == ReplaceChar(s[..|s| - 1], from, to)
  {
  }

  lemma ReplaceTwice(s: string, from: char, to: char)
    ensures ReplaceChar(ReplaceChar(s, from, to), from, to) == ReplaceChar(s, from, to)
  {
  }

  /** The Unicode minus and the ASCII hyphen-minus read alike: replacing
      the one by the other beforehand changes neither whether the
      conversion succeeds nor its value. */
  lemma UnicodeMinusIsMinus(num: Numerics, t: string, isRa: bool)
    ensures var a := ToDecimal(num, Text(t), isRa);
            var b := ToDecimal(num, Text(ReplaceChar(t, UnicodeMinus, '-')), isRa);
            a.Success? == b.Success? && (a.Success? ==> a.value == b.value)
  {
    SanitizeReplaced(t);
    SameSanitized(num, t, ReplaceChar(t, UnicodeMinus, '-'), isRa);
  }

  /** The conversion depends on the sanitised text alone (up to the text
      quoted in an error). */
  lemma SameSanitized(num: Numerics, a: string, b: string, isRa: bool)
    requires Sanitize(a) == Sanitize(b)
    ensures var ra := ToDecimal(num, Text(a), isRa);
            var rb := ToDecimal(num, Text(b), isRa);
            ra.Success? == rb.Success? && (ra.Success? ==> ra.value == rb.value)
  {
    var s := Sanitize(a);
    if LooksSexagesimal(s) && |Words(s, PySpace)| >= 3 {
      SexagesimalBranch(num, a, isRa);
      SexagesimalBranch(num, b, isRa);
    }
  }

  lemma SanitizeReplaced(t: string)
    ensures Sanitize(ReplaceChar(t, UnicodeMinus, '-')) == Sanitize(t)
  {
    StripReplace(t, UnicodeMinus, '-', PySpace);
    ReplaceTwice(Strip(t, PySpace), UnicodeMinus, '-');
  }

  // ---------------------------------------------------------------------
  // Colon-separated text

  /** Replacing a character that does not occur changes nothing. */
  lemma ReplaceAbsent(s: string, from: char, to: char)
    requires from !in s
    ensures ReplaceChar(s, from, to) == s
  {
    var r := ReplaceChar(s, from, to);
    forall i | 0 <= i < |s| ensures r[i] == s[i] {
      assert s[i] != from;
    }
  }

  /** Sanitising text without a colon leaves no colon. */
  lemma SanitizeNoColon(t: string)
    requires ':' !in t
    ensures ':' !in Sanitize(t)
  {
    StripIsSlice(t, PySpace);
    var st := Strip(t, PySpace);
    var s := Sanitize(t);
    forall i | 0 <= i < |s| ensures s[i] != ':' {
      assert st[i] in t;
    }
  }

  /** The correction only touches text with a colon: elsewhere it
      converts exactly as the script does. */
  lemma FixedAgreesWithoutColons(num: Numerics, value: Scalar, isRa: bool)
    requires ':' !in AsText(num, value)
    ensures ToDecimalFixed(num, value, isRa) == ToDecimal(num, value, isRa)
  {
    SanitizeNoColon(AsText(num, value));
    ReplaceAbsent(Sanitize(AsText(num, value)), ':', ' ');
  }

  /** One sexagesimal part: non-empty, without blanks, colons or Unicode
      minus signs. */
  predicate Part(p: string) {
    p != [] && NoneOf(p, PySpace) && ':' !in p && UnicodeMinus !in p
  }

  /** Three parts joined by colons are already sanitised. */
  lemma ColonTextSanitized(a: string, b: string, c: string)
    requires Part(a) && Part(b) && Part(c)
    ensures Sanitize(a + ":" + b + ":" + c) == a + ":" + b + ":" + c
  {
    var t := a + ":" + b + ":" + c;
    assert t[0] == a[0] && t[|t| - 1] == c[|c| - 1];
    StripTrimmed(t, PySpace);
    assert UnicodeMinus !in t;
    ReplaceAbsent(t, UnicodeMinus, '-');
  }

  /** Turning the colons into spaces gives the space-separated text. */
  lemma ColonsToSpaces(a: string, b: string, c: string)
    requires Part(a) && Part(b) && Part(c)
    ensures ReplaceChar(a + ":" + b + ":" + c, ':', ' ') == a + " " + (b + " " + c)
  {
    var t := a + ":" + b + ":" + c;
    var u := a + " " + (b + " " + c);
    var r := ReplaceChar(t, ':', ' ');
    forall i | 0 <= i < |t| ensures r[i] == u[i] {
      if i < |a| {
        assert t[i] == a[i] && u[i] == a[i];
      } else if i == |a| {
      } else if i < |a| + 1 + |b| {
        assert t[i] == b[i - |a| - 1] && u[i] == b[i - |a| - 1];
      } else if i == |a| + 1 + |b| {
      } else {
        assert t[i] == c[i - |a| - |b| - 2] && u[i] == c[i - |a| - |b| - 2];
      }
    }
  }

  /** Space-separated parts split into those parts. */
  lemma WordsOfThree(a: string, b: string, c: string)
    requires Part(a) && Part(b) && Part(c)
    ensures Words(a + " " + (b + " " + c), PySpace) == [a, b, c]
  {
    assert In(' ', PySpace);
    WordsStep(a, b + " " + c, PySpace);
    WordsStep(b, c, PySpace);
    WordsOfWord(c, PySpace);
  }

  /** With the correction, `base:minutes:seconds` converts like
      `base minutes seconds`; the script as written rejects it. */
  lemma ColonsReadAsSeparators(num: Numerics, a: string, b: string, c: string, isRa: bool)
    requires Part(a) && Part(b) && Part(c)
    ensures ToDecimalFixed(num, Text(a + ":" + b + ":" + c), isRa) == FromParts(num, [a, b, c], isRa)
  {
    var t := a + ":" + b + ":" + c;
    ColonTextSanitized(a, b, c);
    ColonsToSpaces(a, b, c);
    WordsOfThree(a, b, c);
    var u := a + " " + (b + " " + c);
    assert u[|a|] == ' ';
  }

  /** The script as written rejects `12:30:45`. */
  lemma ColonCounterexample(num: Numerics)
    ensures ToDecimal(num, Text("12:30:45"), true) == Failure(BadSexagesimal("12:30:45"))
  {
    var t := "12:30:45";
    assert NoneOf(t, PySpace) by {
      forall i | 0 <= i < |t| ensures !In(t[i], PySpace) {
      }
    }
    assert t[2] == ':';
    ColonSeparatedFails(num, t, true);
  }
}

=== FILE: document.dfy ===
/** The splice of `main` in `scripts/update_stars.py`: cut the catalogue
    text at its first `[` and last `]`, scan, parse and update every record
    of the array body, and join the rendered records back between the
    untouched header and footer.  Reading and writing the files is not
    modelled: the text comes in and goes out as values. */
module Document {

  import opened Wrappers
  import opened Text
  import opened OrderedFields
  import opened Scanner
  import opened RecordCodec
  import opened Coordinates
  import opened StarUpdate

  /** Header up to and including the first `[`, the array body, and the
      footer from the last `]` on. */
  datatype Parts = Parts(header: string, body: string, footer: string)

  /** Python's `s[i:j]` for `0 <= i, j <= |s|`: empty when `j < i`. */
  function Slice(s: string, i: nat, j: nat): (r: string)
    requires i <= |s| && j <= |s|
    ensures |r| == if i <= j then j - i else 0
  {
    if i <= j then s[i..j] else []
  }

  /** `text.index("[")`, `text.rindex("]")` and the three slices. */
  function SplitDocument(text: string): Result<Parts> {
    match IndexOf(text, '[')
    case None => Failure(MissingBracket)
    case Some(start) =>
      match LastIndexOf(text, ']')
      case None => Failure(MissingBracket)
      case Some(end) => Success(Parts(text[..start + 1], Slice(text, start + 1, end), text[end..]))
  }

  /** The updated records and the unresolved names, in document order. */
  datatype Report = Report(records: seq<Fields>, missing: seq<string>)

  /** The loop of `main` over the scanned records: parse, update, and note
      the unresolved name when it is not empty.  The first error ends the
      run. */
  function UpdateAll(num: Numerics, lookup: Lookup, entries: seq<string>): Result<Report> {
    if entries == [] then Success(Report([], []))
    else
      var fs :- ParseEntry(entries[0]);
      var o :- UpdateStar(num, lookup, fs);
      var rest :- UpdateAll(num, lookup, entries[1..]);
      var noted := if o.missing.Some? && o.missing.value != [] then [o.missing.value] else [];
      Success(Report([o.fields] + rest.records, noted + rest.missing))
  }

  /** Each record rendered, a comma after every one but the last, and a
      blank line between consecutive records. */
  function JoinRecords(rs: seq<Fields>): string {
    if rs == [] then []
    else if |rs| == 1 then RenderEntry(rs[0])
    else RenderEntry(rs[0]) + "," + "\n\n" + JoinRecords(rs[1..])
  }

  /** The new catalogue text and the names to list as unresolved. */
  datatype Rewrite = Rewrite(text: string, missing: seq<string>)

  /** `main` without the file system. */
  function UpdateDocument(num: Numerics, lookup: Lookup, text: string): Result<Rewrite> {
    var parts :- SplitDocument(text);
    var report :- UpdateAll(num, lookup, Scan(parts.body));
    Success(Rewrite(parts.header + (JoinRecords(report.records) + "\n") + parts.footer, report.missing))
  }

  lemma UpdateDocumentFrom(num: Numerics, lookup: Lookup, text: string, parts: Parts, report: Report)
    requires SplitDocument(text) == Success(parts)
    requires UpdateAll(num, lookup, Scan(parts.body)) == Success(report)
    ensures UpdateDocument(num, lookup, text)
         == Success(Rewrite(parts.header + (JoinRecords(report.records) + "\n") + parts.footer, report.missing))
  {
  }

  // ---------------------------------------------------------------------
  // Cutting the document

  /** The split fails exactly when a bracket is missing. */
  lemma SplitDocumentFails(text: string)
    ensures SplitDocument(text).Failure? <==> '[' !in text || ']' !in text
  {
  }

  /** A header ends with its only `[`; a footer starts with its only `]`. */
  predicate IsHeader(h: string) {
    h != [] && h[|h| - 1] == '[' && '[' !in h[..|h| - 1]
  }

  predicate IsFooter(f: string) {
    f != [] && f[0] == ']' && ']' !in f[1..]
  }

  /** The cut: the header is a header, the footer a footer, and when the
      brackets are in order the three parts give back the text. */
  lemma SplitDocumentParts(text: string)
    requires SplitDocument(text).Success?
    ensures var p := SplitDocument(text).value;
            && IsHeader(p.header) && IsFooter(p.footer)
            && (|p.header| + |p.footer| <= |text| ==> p.header + p.body + p.footer == text)
  {
    var start := IndexOf(text, '[').value;
    var end := LastIndexOf(text, ']').value;
    var p := SplitDocument(text).value;
    assert p.header[..start] == text[..start];
    assert p.footer[1..] == text[end + 1..];
    if |p.header| + |p.footer| <= |text| {
      assert text == text[..start + 1] + text[start + 1..end] + text[end..];
    }
  }

  /** A header's `[` is the first one of any text it starts. */
  lemma HeaderIndex(h: string, rest: string)
    requires IsHeader(h)
    ensures IndexOf(h + rest, '[') == Some(|h| - 1)
  {
    var t := h + rest;
    assert t[|h| - 1] == '[';
    assert t[..|h| - 1] == h[..|h| - 1];
  }

  /** A footer's `]` is the last one of any text it ends. */
  lemma FooterIndex(pre: string, f: string)
    requires IsFooter(f)
    ensures LastIndexOf(pre + f, ']') == Some(|pre|)
  {
    var t := pre + f;
    assert t[|pre|] == ']';
    assert t[|pre| + 1..] == f[1..];
  }

  /** Splitting a spliced text recovers its parts: the header's `[` is the
      first and the footer's `]` the last. */
  lemma SplitRejoined(h: string, m: string, f: string)
    requires IsHeader(h) && IsFooter(f)
    ensures SplitDocument(h + m + f) == Success(Parts(h, m, f))
  {
    var t := h + m + f;
    assert t == h + (m + f);
    HeaderIndex(h, m + f);
    FooterIndex(h + m, f);
    assert t[..|h|] == h;
    assert t[|h|..|h| + |m|] == m;
    assert t[|h| + |m|..] == f;
  }

  // ---------------------------------------------------------------------
  // Re-scanning the joined records

  /** The scanner's cut of each rendered record. */
  function Blocks(rs: seq<Fields>): (r: seq<string>)
    ensures |r| == |rs|
  {
    if rs == [] then [] else [Braced(rs[0])] + Blocks(rs[1..])
  }

  lemma ScanRendered(fs: Fields, rest: string)
    requires BraceFree(fs)
    ensures Scan(RenderEntry(fs) + rest) == [Braced(fs)] + Scan(rest)
  {
    var b := Braced(fs);
    RenderLinesNoBraces(fs);
    BracedShape(fs);
    BracedIsBlock(RenderLines(fs) + "\n    ");
    RenderEntryIndented(fs);
    assert RenderEntry(fs) + rest == "    " + (b + rest);
    ScanSkipsGap("    ", b + rest);
    ScanTakesBlock(b, rest);
  }

  /** Scanning the joined records (with the newline before the footer)
      finds exactly the rendered records, in order. */
  lemma {:induction false} ScanJoined(rs: seq<Fields>)
    requires forall i | 0 <= i < |rs| :: BraceFree(rs[i])
    ensures Scan(JoinRecords(rs) + "\n") == Blocks(rs)
  {
    if rs == [] {
      assert JoinRecords(rs) + "\n" == "\n" + [];
      ScanSkipsGap("\n", []);
    } else if |rs| == 1 {
      ScanRendered(rs[0], "\n");
      assert "\n" == "\n" + [];
      ScanSkipsGap("\n", []);
      assert Blocks(rs) == [Braced(rs[0])] + Blocks([]);
    } else {
      var tail := JoinRecords(rs[1..]) + "\n";
      assert JoinRecords(rs) + "\n" == RenderEntry(rs[0]) + (",\n\n" + tail);
      ScanRendered(rs[0], ",\n\n" + tail);
      ScanSkipsGap(",\n\n", tail);
      ScanJoined(rs[1..]);
    }
  }

  // ---------------------------------------------------------------------
  // What the loop produces

  /** `fs` is what the loop can make of `entry`: its parse, extended by
      merge keys only. */
  ghost predicate UpdatedFrom(entry: string, fs: Fields) {
    ParseEntry(entry).Success? && Extends(ParseEntry(entry).value, fs)
  }

  /** One step of the loop: the first record's outcome goes first. */
  lemma UpdateAllCons(num: Numerics, lookup: Lookup, entries: seq<string>)
    requires entries != [] && UpdateAll(num, lookup, entries).Success?
    ensures ParseEntry(entries[0]).Success?
    ensures UpdateStar(num, lookup, ParseEntry(entries[0]).value).Success?
    ensures UpdateAll(num, lookup, entries[1..]).Success?
    ensures var rs := UpdateAll(num, lookup, entries).value.records;
            && |rs| == |UpdateAll(num, lookup, entries[1..]).value.records| + 1
            && rs[0] == UpdateStar(num, lookup, ParseEntry(entries[0]).value).value.fields
            && rs[1..] == UpdateAll(num, lookup, entries[1..]).value.records
  {
  }

  lemma UpdateAllHead(num: Numerics, lookup: Lookup, entries: seq<string>)
    requires entries != [] && UpdateAll(num, lookup, entries).Success?
    ensures UpdatedFrom(entries[0], UpdateAll(num, lookup, entries).value.records[0])
  {
    UpdateAllCons(num, lookup, entries);
    UpdateStarPreservesRecord(num, lookup, ParseEntry(entries[0]).value);
  }

  /** Record by record, `rs` is what the loop can make of `entries`. */
  ghost predicate AllUpdatedFrom(entries: seq<string>, rs: seq<Fields>) {
    |rs| == |entries| && forall i | 0 <= i < |entries| :: UpdatedFrom(entries[i], rs[i])
  }

  lemma AllUpdatedFromCons(es: seq<string>, rs: seq<Fields>)
    requires es != [] && |rs| == |es|
    requires UpdatedFrom(es[0], rs[0]) && AllUpdatedFrom(es[1..], rs[1..])
    ensures AllUpdatedFrom(es, rs)
  {
    forall i | 1 <= i < |es| ensures UpdatedFrom(es[i], rs[i]) {
      assert es[i] == es[1..][i - 1] && rs[i] == rs[1..][i - 1];
    }
  }

  /** One updated record per scanned record, each extending its parse by
      merge keys only. */
  lemma {:induction false} UpdateAllRecords(num: Numerics, lookup: Lookup, entries: seq<string>)
    requires UpdateAll(num, lookup, entries).Success?
    ensures AllUpdatedFrom(entries, UpdateAll(num, lookup, entries).value.records)
  {
    if entries != [] {
      UpdateAllCons(num, lookup, entries);
      UpdateAllHead(num, lookup, entries);
      UpdateAllRecords(num, lookup, entries[1..]);
      AllUpdatedFromCons(entries, UpdateAll(num, lookup, entries).value.records);
    }
  }

  /** The names to report, read straight off the records: for each record
      in document order, its `nameSIMBAD` with blanks and quotes stripped,
      when that is not empty and the service has no answer for it. */
  function Unresolved(lookup: Lookup, entries: seq<string>): seq<string> {
    if entries == [] then []
    else
      var rest := Unresolved(lookup, entries[1..]);
      match ParseEntry(entries[0])
      case Failure(_) => rest
      case Success(fs) =>
        var raw := Get(fs, "nameSIMBAD");
        if raw.Some? && LookupName(raw.value) != [] && lookup(LookupName(raw.value)).None?
        then [LookupName(raw.value)] + rest
        else rest
  }

  /** The names listed are exactly the unresolved ones, in document order:
      every one was looked up, is not empty and did not resolve, and there
      is at most one per record. */
  lemma {:induction false} UpdateAllMissing(num: Numerics, lookup: Lookup, entries: seq<string>)
    requires UpdateAll(num, lookup, entries).Success?
    ensures var r := UpdateAll(num, lookup, entries).value;
            && r.missing == Unresolved(lookup, entries)
            && (forall n | n in r.missing :: n != [] && lookup(n).None?)
            && |r.missing| <= |entries|
  {
    if entries != [] {
      var fs := ParseEntry(entries[0]).value;
      UpdateAllMissing(num, lookup, entries[1..]);
      UpdateStarOutcomes(num, lookup, fs);
      var o := UpdateStar(num, lookup, fs).value;
      if o.missing.Some? {
        assert lookup(o.missing.value).None?;
      }
    }
  }

  /** The rewrite keeps the header and footer verbatim: splitting the new
      text gives back the old header and footer around the joined records,
      and the names reported are the unresolved ones. */
  lemma UpdateDocumentFrame(num: Numerics, lookup: Lookup, text: string)
    requires UpdateDocument(num, lookup, text).Success?
    ensures var parts := SplitDocument(text).value;
            var report := UpdateAll(num, lookup, Scan(parts.body)).value;
            var w := UpdateDocument(num, lookup, text).value;
            && SplitDocument(w.text) == Success(Parts(parts.header, JoinRecords(report.records) + "\n", parts.footer))
            && w.missing == Unresolved(lookup, Scan(parts.body))
  {
    var parts := SplitDocument(text).value;
    var report := UpdateAll(num, lookup, Scan(parts.body)).value;
    UpdateDocumentFrom(num, lookup, text, parts, report);
    SplitDocumentParts(text);
    SplitRejoined(parts.header, JoinRecords(report.records) + "\n", parts.footer);
    UpdateAllMissing(num, lookup, Scan(parts.body));
  }

  // ---------------------------------------------------------------------
  // Running the update twice

  /** A record the rewrite can carry through a second run: the layout
      reads it back, and the scanner sees no braces in it. */
  predicate Rewritable(fs: Fields) {
    Renderable(fs) && BraceFree(fs)
  }

  lemma {:induction false} UpdateAllAgain(num: Numerics, lookup: Lookup, entries: seq<string>)
    requires UpdateAll(num, lookup, entries).Success?
    requires var rs := UpdateAll(num, lookup, entries).value.records;
             forall i | 0 <= i < |rs| :: Rewritable(rs[i])
    ensures UpdateAll(num, lookup, Blocks(UpdateAll(num, lookup, entries).value.records))
         == UpdateAll(num, lookup, entries)
  {
    if entries != [] {
      var fs := ParseEntry(entries[0]).value;
      var o := UpdateStar(num, lookup, fs).value;
      var rest := UpdateAll(num, lookup, entries[1..]).value;
      var rs := UpdateAll(num, lookup, entries).value.records;
      assert rs == [o.fields] + rest.records;
      assert forall i | 0 <= i < |rest.records| :: rest.records[i] == rs[i + 1];
      UpdateAllAgain(num, lookup, entries[1..]);
      var bs := Blocks(rs);
      assert bs[0] == Braced(o.fields) && bs[1..] == Blocks(rest.records);
      ParseBraced(o.fields);
      UpdateStarIdempotent(num, lookup, fs);
    }
  }

  /** Idempotence of the whole rewrite: with the same service answers, a
      second run over its own output writes the same text and reports the
      same names, provided every updated record is one the layout and the
      scanner carry unchanged. */
  lemma RewriteIdempotent(num: Numerics, lookup: Lookup, text: string)
    requires UpdateDocument(num, lookup, text).Success?
    requires var parts := SplitDocument(text).value;
             var rs := UpdateAll(num, lookup, Scan(parts.body)).value.records;
             forall i | 0 <= i < |rs| :: Rewritable(rs[i])
    ensures var w := UpdateDocument(num, lookup, text).value;
            UpdateDocument(num, lookup, w.text) == Success(w)
  {
    var parts := SplitDocument(text).value;
    var report := UpdateAll(num, lookup, Scan(parts.body)).value;
    var joined := JoinRecords(report.records) + "\n";
    UpdateDocumentFrom(num, lookup, text, parts, report);
    SplitDocumentParts(text);
    SplitRejoined(parts.header, joined, parts.footer);
    var parts2 := Parts(parts.header, joined, parts.footer);
    ScanJoined(report.records);
    UpdateAllAgain(num, lookup, Scan(parts.body));
    UpdateDocumentFrom(num, lookup, parts.header + joined + parts.footer, parts2, report);
  }

  /** A record the rewrite carries unchanged and the service leaves as
      it is. */
  ghost predicate Settled(num: Numerics, lookup: Lookup, fs: Fields) {
    Rewritable(fs) && UpdateStar(num, lookup, fs).Success? && UpdateStar(num, lookup, fs).value.fields == fs
  }

  /** The loop over already-rendered, settled records gives those records
      back. */
  lemma {:induction false} UpdateAllBlocks(num: Numerics, lookup: Lookup, rs: seq<Fields>)
    requires forall i | 0 <= i < |rs| :: Settled(num, lookup, rs[i])
    ensures UpdateAll(num, lookup, Blocks(rs)).Success?
    ensures UpdateAll(num, lookup, Blocks(rs)).value.records == rs
  {
    if rs != [] {
      var bs := Blocks(rs);
      assert bs[0] == Braced(rs[0]) && bs[1..] == Blocks(rs[1..]);
      assert Settled(num, lookup, rs[0]);
      ParseBraced(rs[0]);
      forall i | 0 <= i < |rs[1..]| ensures Settled(num, lookup, rs[1..][i]) {
        assert rs[1..][i] == rs[i + 1];
      }
      UpdateAllBlocks(num, lookup, rs[1..]);
      var rest := UpdateAll(num, lookup, bs[1..]).value;
      assert UpdateAll(num, lookup, bs).value.records == [rs[0]] + rest.records;
    }
  }

  /** A fixed point of the whole rewrite: a catalogue already in the
      rendered shape, whose records the service leaves as they are, is
      written back unchanged. */
  lemma RenderedDocumentStable(num: Numerics, lookup: Lookup, h: string, rs: seq<Fields>, f: string)
    requires IsHeader(h) && IsFooter(f)
    requires forall i | 0 <= i < |rs| :: Settled(num, lookup, rs[i])
    ensures var text := h + (JoinRecords(rs) + "\n") + f;
            UpdateDocument(num, lookup, text).Success? && UpdateDocument(num, lookup, text).value.text == text
  {
    var body := JoinRecords(rs) + "\n";
    var text := h + body + f;
    SplitRejoined(h, body, f);
    forall i | 0 <= i < |rs| ensures BraceFree(rs[i]) {
      assert Settled(num, lookup, rs[i]);
    }
    ScanJoined(rs);
    UpdateAllBlocks(num, lookup, rs);
    var report := UpdateAll(num, lookup, Blocks(rs)).value;
    UpdateDocumentFrom(num, lookup, text, Parts(h, body, f), report);
  }
}

=== FILE: fields.dfy ===
/** The ordered `key -> literal text` mapping a star record decodes to
    (Python's `OrderedDict[str, str]` in `scripts/update_stars.py`). */
module OrderedFields {

  import opened Wrappers

  /** One `key: value` line; `value` is the literal source text. */
  datatype Field = Field(key: string, value: string)

  type Fields = seq<Field>

  /** The keys in insertion order. */
  function Keys(fs: Fields): (r: seq<string>)
    ensures |r| == |fs|
    ensures forall i | 0 <= i < |fs| :: r[i] == fs[i].key
  {
    if fs == [] then [] else [fs[0].key] + Keys(fs[1..])
  }

  /** A dictionary holds each key once. */
  predicate UniqueKeys(fs: Fields) {
    forall i, j | 0 <= i < j < |fs| :: fs[i].key != fs[j].key
  }

  /** `fields.get(key)`. */
  function Get(fs: Fields, k: string): (r: Option<string>)
    ensures r.Some? <==> k in Keys(fs)
  {
    if fs == [] then None
    else if fs[0].key == k then Some(fs[0].value)
    else Get(fs[1..], k)
  }

  /** `fields[key] = value`: an existing key keeps its position and takes
      the new value; a new key is appended at the end. */
  function Put(fs: Fields, k: string, v: string): (r: Fields)
    ensures |r| == if k in Keys(fs) then |fs| else |fs| + 1
  {
    if fs == [] then [Field(k, v)]
    else if fs[0].key == k then [Field(k, v)] + fs[1..]
    else [fs[0]] + Put(fs[1..], k, v)
  }

  /** After `Put` the key reads back the new value and every other key
      reads what it read before. */
  lemma {:induction false} PutGet(fs: Fields, k: string, v: string)
    ensures Get(Put(fs, k, v), k) == Some(v)
    ensures forall k' | k' != k :: Get(Put(fs, k, v), k') == Get(fs, k')
  {
    if fs != [] {
      var f, rest := fs[0], fs[1..];
      GetCons(f, rest);
      assert fs == [f] + rest;
      if f.key == k {
        GetCons(Field(k, v), rest);
      } else {
        PutGet(rest, k, v);
        GetCons(f, Put(rest, k, v));
      }
    }
  }

  /** `PutGet` at one key. */
  lemma PutGetAt(fs: Fields, k: string, v: string, k': string)
    ensures Get(Put(fs, k, v), k') == if k' == k then Some(v) else Get(fs, k')
  {
    PutGet(fs, k, v);
  }

  lemma GetCons(f: Field, rest: Fields)
    ensures forall k :: Get([f] + rest, k) == if f.key == k then Some(f.value) else Get(rest, k)
  {
    assert ([f] + rest)[1..] == rest;
  }

  /** `Put` keeps the key order: an existing key stays where it was and a
      new key goes last. */
  lemma {:induction false} PutKeys(fs: Fields, k: string, v: string)
    ensures k in Keys(fs) ==> Keys(Put(fs, k, v)) == Keys(fs)
    ensures k !in Keys(fs) ==> Keys(Put(fs, k, v)) == Keys(fs) + [k]
  {
    if fs == [] {
      assert Keys([Field(k, v)]) == [k];
    } else if fs[0].key == k {
      KeysCons(Field(k, v), fs[1..]);
      KeysCons(fs[0], fs[1..]);
      assert fs == [fs[0]] + fs[1..];
    } else {
      var r := Put(fs[1..], k, v);
      PutKeys(fs[1..], k, v);
      KeysCons(fs[0], r);
      KeysCons(fs[0], fs[1..]);
      assert fs == [fs[0]] + fs[1..];
      assert Put(fs, k, v) == [fs[0]] + r;
      assert k in Keys(fs) <==> k in Keys(fs[1..]);
      if k !in Keys(fs) {
        assert [fs[0].key] + (Keys(fs[1..]) + [k]) == Keys(fs) + [k];
      }
    }
  }

  lemma KeysCons(f: Field, rest: Fields)
    ensures Keys([f] + rest) == [f.key] + Keys(rest)
  {
    assert ([f] + rest)[1..] == rest;
  }

  /** `Put` never duplicates a key. */
  lemma PutUnique(fs: Fields, k: string, v: string)
    requires UniqueKeys(fs)
    ensures UniqueKeys(Put(fs, k, v))
  {
    PutKeys(fs, k, v);
    var r := Put(fs, k, v);
    forall i, j | 0 <= i < j < |r|
      ensures r[i].key != r[j].key
    {
      assert Keys(r)[i] == r[i].key && Keys(r)[j] == r[j].key;
      if j < |fs| {
        assert Keys(fs)[i] == fs[i].key && Keys(fs)[j] == fs[j].key;
      } else {
        assert Keys(r)[j] == k && k !in Keys(fs);
        assert Keys(r)[i] == Keys(fs)[i];
      }
    }
  }

  lemma ConsFacts(f: Field, rest: Fields)
    ensures Keys([f] + rest) == [f.key] + Keys(rest)
    ensures forall k :: Get([f] + rest, k) == if f.key == k then Some(f.value) else Get(rest, k)
    ensures UniqueKeys([f] + rest) <==> UniqueKeys(rest) && f.key !in Keys(rest)
  {
    var s := [f] + rest;
    assert s[1..] == rest;
    if UniqueKeys(rest) && f.key !in Keys(rest) {
      forall i, j | 0 <= i < j < |s|
        ensures s[i].key != s[j].key
      {
        if i > 0 {
          assert s[i] == rest[i - 1] && s[j] == rest[j - 1];
        } else {
          assert s[j].key == Keys(rest)[j - 1];
        }
      }
    }
    if UniqueKeys(s) {
      forall i | 0 <= i < |rest|
        ensures rest[i].key != f.key
      {
        assert s[i + 1] == rest[i];
      }
    }
  }

  /** A fresh key is simply appended. */
  lemma {:induction false} PutFresh(fs: Fields, k: string, v: string)
    requires k !in Keys(fs)
    ensures Put(fs, k, v) == fs + [Field(k, v)]
  {
    if fs != [] {
      assert Keys(fs) == [fs[0].key] + Keys(fs[1..]);
      PutFresh(fs[1..], k, v);
      assert [fs[0]] + (fs[1..] + [Field(k, v)]) == fs + [Field(k, v)];
    }
  }

  /** Assigning a key twice is the same as assigning it once with the last
      value: the last value wins, the first position is kept. */
  lemma {:induction false} PutTwice(fs: Fields, k: string, a: string, b: string)
    ensures Put(Put(fs, k, a), k, b) == Put(fs, k, b)
  {
    if fs != [] && fs[0].key != k {
      PutTwice(fs[1..], k, a, b);
      assert Put(fs, k, a)[1..] == Put(fs[1..], k, a);
    }
  }

  /** Assigning a key the value it already holds changes nothing. */
  lemma {:induction false} PutSame(fs: Fields, k: string)
    requires Get(fs, k).Some?
    ensures Put(fs, k, Get(fs, k).value) == fs
  {
    var f, rest := fs[0], fs[1..];
    assert fs == [f] + rest;
    if f.key != k {
      assert Get(fs, k) == Get(rest, k);
      PutSame(rest, k);
    } else {
      assert Field(k, Get(fs, k).value) == f;
    }
  }

  lemma {:induction false} GetIn(fs: Fields, i: nat)
    requires UniqueKeys(fs) && i < |fs|
    ensures Get(fs, fs[i].key) == Some(fs[i].value)
  {
    if i > 0 {
      GetIn(fs[1..], i - 1);
    }
  }
}

=== FILE: library.dfy ===
/** The constellation library's name handling (`ui/celestialLibrary.js`):
    normalising and formatting names, the set of unlocked constellations,
    the shelf colour of a book, and the fallbacks that fill a book's
    content.  The tale catalogue is a parameter. */
module Library {

  import opened Wrappers
  import opened Text
  import opened Spacing

  // ---------------------------------------------------------------------
  // normalizeConstellationName

  /** `normalizeConstellationName`: the empty (falsy) name stays empty;
      otherwise trim, then turn every whitespace run into one space. */
  function NormalizeName(name: string): string {
    if name == [] then [] else Collapse(Strip(name, JsSpace), JsSpace)
  }

  /** The normalised name is the name's words joined by single spaces. */
  lemma NormalizeNameIsJoinedWords(name: string)
    ensures NormalizeName(name) == Join(Words(name, JsSpace))
  {
    if name != [] {
      StripIsTrimmed(name, JsSpace);
      CollapseTrimmed(Strip(name, JsSpace), JsSpace);
      WordsStrip(name, JsSpace);
    }
  }

  /** A normalised name has no whitespace at either end and exactly one
      plain space between words; it is empty exactly when the name is
      all whitespace. */
  lemma NormalizedNameShape(name: string)
    ensures Trimmed(NormalizeName(name), JsSpace)
    ensures SingleSpaced(NormalizeName(name), JsSpace)
    ensures NormalizeName(name) == [] <==> AllOf(name, JsSpace)
  {
    NormalizeNameIsJoinedWords(name);
    WordsAreWords(name, JsSpace);
    JoinEnds(Words(name, JsSpace), JsSpace);
    JoinSingleSpaced(Words(name, JsSpace), JsSpace);
    WordsEmpty(name, JsSpace);
  }

  /** Normalising twice is normalising once. */
  lemma NormalizeNameIdempotent(name: string)
    ensures NormalizeName(NormalizeName(name)) == NormalizeName(name)
  {
    var ws := Words(name, JsSpace);
    NormalizeNameIsJoinedWords(name);
    WordsAreWords(name, JsSpace);
    WordsOfJoin(ws, JsSpace);
    NormalizeNameIsJoinedWords(Join(ws));
  }

  // ---------------------------------------------------------------------
  // unlockConstellation

  /** Names that are never unlocked: stars outside every constellation. */
  const OutsideChart: string := "星図外"

  /** `unlockConstellation` on the set of unlocked names; saving and
      re-rendering are left out. */
  function Unlock(unlocked: set<string>, name: string): (r: set<string>)
    ensures unlocked <= r
    ensures r - unlocked <= {NormalizeName(name)}
  {
    var n := NormalizeName(name);
    if n == [] || n == OutsideChart || n in unlocked then unlocked else unlocked + {n}
  }

  /** The shelf holds only non-empty normalised names. */
  predicate Shelf(unlocked: set<string>) {
    forall n | n in unlocked :: n != [] && NormalizeName(n) == n
  }

  /** After an unlock the normalised name is on the shelf exactly when it
      was already there or is neither empty nor the outside-the-chart
      marker. */
  lemma UnlockAdds(unlocked: set<string>, name: string)
    ensures NormalizeName(name) in Unlock(unlocked, name) <==>
              NormalizeName(name) in unlocked
              || (NormalizeName(name) != [] && NormalizeName(name) != OutsideChart)
  {
  }

  /** Unlocking keeps the shelf made of normalised names. */
  lemma UnlockKeepsShelf(unlocked: set<string>, name: string)
    requires Shelf(unlocked)
    ensures Shelf(Unlock(unlocked, name))
  {
    NormalizeNameIdempotent(name);
  }

  /** A repeated unlock changes nothing. */
  lemma UnlockIdempotent(unlocked: set<string>, name: string)
    ensures Unlock(Unlock(unlocked, name), name) == Unlock(unlocked, name)
  {
  }

  /** Names that differ only in whitespace unlock the same entry. */
  lemma UnlockIgnoresSpacing(unlocked: set<string>, a: string, b: string)
    requires Words(a, JsSpace) == Words(b, JsSpace)
    ensures Unlock(unlocked, a) == Unlock(unlocked, b)
  {
    NormalizeNameIsJoinedWords(a);
    NormalizeNameIsJoinedWords(b);
  }

  // ---------------------------------------------------------------------
  // formatConstellationCode

  predicate IsLowerOrDigit(c: char) {
    ('a' <= c <= 'z') || ('0' <= c <= '9')
  }

  predicate IsUpper(c: char) {
    'A' <= c <= 'Z'
  }

  /** Where `([a-z0-9])([A-Z])` matches. */
  predicate CamelBoundary(a: char, b: char) {
    IsLowerOrDigit(a) && IsUpper(b)
  }

  /** `replace(/([a-z0-9])([A-Z])/g, '$1 $2')`: the scan resumes after
      each match, so a match consumes both characters. */
  function SplitCamel(s: string): string {
    if |s| < 2 then s
    else if CamelBoundary(s[0], s[1]) then [s[0], ' ', s[1]] + SplitCamel(s[2..])
    else [s[0]] + SplitCamel(s[1..])
  }

  /** Reference: a space inserted at every boundary of `s`. */
  function SpaceBoundaries(s: string): string {
    if |s| < 2 then s
    else [s[0]] + Edge(CamelBoundary(s[0], s[1])) + SpaceBoundaries(s[1..])
  }

  /** The regex misses no boundary: an upper-case letter cannot start a
      match, so resuming after a match skips none. */
  lemma {:induction false} SplitCamelSpacesEveryBoundary(s: string)
    ensures SplitCamel(s) == SpaceBoundaries(s)
  {
    if |s| >= 2 {
      SplitCamelSpacesEveryBoundary(s[1..]);
      if CamelBoundary(s[0], s[1]) {
        SplitCamelSpacesEveryBoundary(s[2..]);
        assert s[1..][1..] == s[2..];
        if |s| == 2 {
          assert SpaceBoundaries(s[1..]) == [s[1]];
        } else {
          assert SpaceBoundaries(s[1..]) == [s[1]] + SpaceBoundaries(s[2..]);
        }
      }
    }
  }

  /** ASCII upper case. */
  function UpperChar(c: char): char {
    if 'a' <= c <= 'z' then (c as int - 32) as char else c
  }

  function UpperAscii(s: string): (r: string)
    ensures |r| == |s|
    ensures forall i | 0 <= i < |s| :: r[i] == UpperChar(s[i])
  {
    if s == [] then [] else [UpperChar(s[0])] + UpperAscii(s[1..])
  }

  /** `formatConstellationCode`: the empty id stays empty; otherwise
      split camel case, turn underscore and whitespace runs into single
      spaces, trim and upper-case. */
  function FormatCode(id: string): string {
    if id == [] then []
    else UpperAscii(Strip(Collapse(SplitCamel(id), SpaceOrUnderscore), JsSpace))
  }

  lemma SpaceIsBlank()
    ensures AllOf(" ", JsSpace) && AllOf([], JsSpace)
  {
  }

  /** Reference: the code is the upper-cased words of the id, cut at
      camel-case boundaries, underscores and whitespace, joined by single
      spaces. */
  lemma FormatCodeIsUpperWords(id: string)
    ensures FormatCode(id) == UpperAscii(Join(Words(SpaceBoundaries(id), SpaceOrUnderscore)))
  {
    if id != [] {
      var s := SplitCamel(id);
      SplitCamelSpacesEveryBoundary(id);
      var ws := Words(s, SpaceOrUnderscore);
      CollapseWords(s, SpaceOrUnderscore);
      WordsAreWords(s, SpaceOrUnderscore);
      JoinEnds(ws, SpaceOrUnderscore);
      SpaceIsBlank();
      StripPadded(Edge(s != [] && In(s[0], SpaceOrUnderscore)), Join(ws),
                  Edge(s != [] && In(s[|s| - 1], SpaceOrUnderscore) && ws != []), JsSpace);
    } else {
      assert SpaceBoundaries(id) == [];
      assert Words([], SpaceOrUnderscore) == [];
    }
  }

  /** The code holds no lower-case ASCII letter and no underscore. */
  lemma FormatCodeShape(id: string)
    ensures forall i | 0 <= i < |FormatCode(id)| ::
              !('a' <= FormatCode(id)[i] <= 'z') && FormatCode(id)[i] != '_'
  {
    var ws := Words(SpaceBoundaries(id), SpaceOrUnderscore);
    FormatCodeIsUpperWords(id);
    WordsAreWords(SpaceBoundaries(id), SpaceOrUnderscore);
    JoinSingleSpaced(ws, SpaceOrUnderscore);
  }

  lemma SpaceBoundariesExample()
    ensures SpaceBoundaries("muOri") == "mu Ori"
  {
    assert SpaceBoundaries("ri") == "ri";
    assert SpaceBoundaries("Ori") == "Ori";
    assert SpaceBoundaries("uOri") == "u Ori";
  }

  lemma UpperExample()
    ensures UpperAscii("mu Ori") == "MU ORI"
  {
  }

  /** The star `muOri` gets the code `MU ORI`. */
  lemma FormatCodeExample()
    ensures FormatCode("muOri") == "MU ORI"
  {
    var ws := ["mu", "Ori"];
    SpaceBoundariesExample();
    assert Join(ws) == "mu Ori";
    assert AreWords(ws, SpaceOrUnderscore);
    WordsOfJoin(ws, SpaceOrUnderscore);
    FormatCodeIsUpperWords("muOri");
    UpperExample();
  }

  // ---------------------------------------------------------------------
  // pickAccentColor

  const Palette: seq<int> := [0xc68f6a, 0x5b3a29, 0x7a4f6d, 0x36505a, 0xa97c50, 0x4a6f62]

  /** `charCodeAt(0)` of one code point: the code point itself inside the
      Basic Multilingual Plane, the high surrogate above it. */
  function CodeUnit(c: char): nat {
    var n := c as int;
    if n < 0x10000 then n else 0xD800 + (n - 0x10000) / 0x400
  }

  /** The sum `Array.from(name).reduce(...)` computes. */
  function CodeSum(s: string): nat {
    if s == [] then 0 else CodeSum(s[..|s| - 1]) + CodeUnit(s[|s| - 1])
  }

  /** `pickAccentColor`; `index` is a book's position on the shelf. */
  function PickAccentColor(name: string, index: nat): (color: int)
    ensures color in Palette
  {
    Palette[(CodeSum(name) + index) % |Palette|]
  }

  lemma {:induction false} CodeSumAppend(a: string, b: string)
    ensures CodeSum(a + b) == CodeSum(a) + CodeSum(b)
    decreases |b|
  {
    if b == [] {
      assert a + b == a;
    } else {
      var init := b[..|b| - 1];
      assert (a + b)[..|a + b| - 1] == a + init;
      CodeSumAppend(a, init);
    }
  }

  /** The colour depends on the name's characters, not their order. */
  lemma AccentColorIgnoresOrder(a: string, b: string, index: nat)
    ensures PickAccentColor(a + b, index) == PickAccentColor(b + a, index)
  {
    CodeSumAppend(a, b);
    CodeSumAppend(b, a);
  }

  /** Six books along the shelf the colours repeat, and neighbouring
      books with the same name never share a colour. */
  lemma AccentColorCycles(name: string, index: nat)
    ensures PickAccentColor(name, index + |Palette|) == PickAccentColor(name, index)
    ensures PickAccentColor(name, index + 1) != PickAccentColor(name, index)
  {
    var h := CodeSum(name) + index;
    assert (h + |Palette|) % |Palette| == h % |Palette|;
    assert (h + 1) % |Palette| != h % |Palette|;
  }

  // ---------------------------------------------------------------------
  // buildConstellationContent

  /** A tale; an absent field is the empty string (or list). */
  datatype Tale = Tale(name: string, season: string, keywords: seq<string>, lede: string,
                       story: string, observation: string, brightStars: string)

  /** An entry of the base constellation data. */
  datatype BaseEntry = BaseEntry(id: string, name: string, description: string)

  /** What a book shows. */
  datatype Content = Content(name: string, season: string, keywords: seq<string>, lede: string,
                             story: string, observation: string, brightStars: string,
                             spineLabel: string, spineCode: string)

  /** `findConstellationTale`, which is not part of this model. */
  type TaleFinder = string -> Option<Tale>

  const FallbackStory: string := "物語の断片はまだ集めているところです。星空で出会ったときの余韻を、そのままここに置いておきましょう。"
  const FallbackObservation: string := "星図を広げ、実際の夜空で形をなぞると新しい発見があります。"
  const FallbackLede: string := "星空で出会った記憶が本棚に収まりました。"

  /** JavaScript `a || b` on strings. */
  function Or(a: string, b: string): string {
    if a != [] then a else b
  }

  /** `CONSTELLATION_DESCRIPTION_MAP`: entries keyed by normalised name,
      a later entry replacing an earlier one with the same key. */
  function DescriptionMap(entries: seq<BaseEntry>): map<string, BaseEntry> {
    if entries == [] then map[]
    else
      var last := entries[|entries| - 1];
      DescriptionMap(entries[..|entries| - 1])[NormalizeName(last.name) := last]
  }

  /** The map holds a key exactly when some entry's normalised name is
      that key. */
  lemma {:induction false} DescriptionMapKeys(entries: seq<BaseEntry>, key: string)
    ensures key in DescriptionMap(entries) <==>
              exists i | 0 <= i < |entries| :: NormalizeName(entries[i].name) == key
    decreases |entries|
  {
    if entries != [] {
      var init := entries[..|entries| - 1];
      var n := |entries| - 1;
      DescriptionMapKeys(init, key);
      if key in DescriptionMap(init) {
        var i :| 0 <= i < |init| && NormalizeName(init[i].name) == key;
        assert entries[i] == init[i];
      }
      if exists i | 0 <= i < |entries| :: NormalizeName(entries[i].name) == key {
        var i :| 0 <= i < |entries| && NormalizeName(entries[i].name) == key;
        if i < n {
          assert entries[i] == init[i];
        }
      }
    }
  }

  /** A key's entry is the last one carrying that normalised name. */
  lemma {:induction false} DescriptionMapLast(entries: seq<BaseEntry>, key: string, i: nat)
    requires i < |entries| && NormalizeName(entries[i].name) == key
    requires forall j | i < j < |entries| :: NormalizeName(entries[j].name) != key
    ensures key in DescriptionMap(entries) && DescriptionMap(entries)[key] == entries[i]
    decreases |entries|
  {
    var n := |entries| - 1;
    if i < n {
      var init := entries[..n];
      assert init[i] == entries[i];
      forall j | i < j < |init| ensures NormalizeName(init[j].name) != key {
        assert init[j] == entries[j];
      }
      DescriptionMapLast(init, key, i);
    }
  }

  /** `buildConstellationContent`: each field falls back from the tale to
      the base entry to a fixed default. */
  function BuildContent(find: TaleFinder, base: map<string, BaseEntry>, name: string): Content {
    var normalized := NormalizeName(name);
    var tale := if find(name).Some? then find(name) else find(normalized);
    var entry := if normalized in base then Some(base[normalized]) else None;
    var t := tale.GetOr(Tale([], [], [], [], [], [], []));
    var b := entry.GetOr(BaseEntry([], [], []));
    var canonical := Or(t.name, Or(b.name, name));
    Content(canonical, t.season, t.keywords, Or(t.lede, Or(b.description, FallbackLede)),
            Or(t.story, FallbackStory), Or(t.observation, FallbackObservation), t.brightStars,
            canonical, FormatCode(Or(b.id, normalized)))
  }

  /** With neither a tale nor a base entry, every field takes its fixed
      default: the name as given, and the code of the normalised name. */
  lemma ContentWithoutSources(find: TaleFinder, base: map<string, BaseEntry>, name: string)
    requires find(name).None? && find(NormalizeName(name)).None? && NormalizeName(name) !in base
    ensures BuildContent(find, base, name)
         == Content(name, [], [], FallbackLede, FallbackStory, FallbackObservation, [],
                    name, FormatCode(NormalizeName(name)))
  {
  }

  /** Without a tale, the base entry supplies name, lede and code. */
  lemma ContentFromBase(find: TaleFinder, base: map<string, BaseEntry>, name: string)
    requires find(name).None? && find(NormalizeName(name)).None?
    requires NormalizeName(name) in base
    requires var b := base[NormalizeName(name)]; b.id != [] && b.name != [] && b.description != []
    ensures var b := base[NormalizeName(name)];
            var c := BuildContent(find, base, name);
            c.name == b.name && c.spineLabel == b.name && c.lede == b.description
            && c.spineCode == FormatCode(b.id) && c.story == FallbackStory
  {
  }

  /** A tale found under the name as given wins over everything else. */
  lemma ContentFromTale(find: TaleFinder, base: map<string, BaseEntry>, name: string)
    requires find(name).Some?
    requires var t := find(name).value; t.name != [] && t.lede != [] && t.story != [] && t.observation != []
    ensures var t, c := find(name).value, BuildContent(find, base, name);
            && c.name == t.name && c.spineLabel == t.name && c.season == t.season
            && c.keywords == t.keywords && c.lede == t.lede && c.story == t.story
            && c.observation == t.observation && c.brightStars == t.brightStars
  {
  }

  /** Without a tale under the name as given, a tale found under the
      normalised name supplies the fields. */
  lemma ContentFromNormalizedTale(find: TaleFinder, base: map<string, BaseEntry>, name: string)
    requires find(name).None? && find(NormalizeName(name)).Some?
    requires var t := find(NormalizeName(name)).value; t.name != [] && t.lede != [] && t.story != [] && t.observation != []
    ensures var t, c := find(NormalizeName(name)).value, BuildContent(find, base, name);
            && c.name == t.name && c.spineLabel == t.name && c.season == t.season
            && c.keywords == t.keywords && c.lede == t.lede && c.story == t.story
            && c.observation == t.observation && c.brightStars == t.brightStars
  {
  }

  /** A book is never nameless unless the name it was built from is empty. */
  lemma ContentNamed(find: TaleFinder, base: map<string, BaseEntry>, name: string)
    requires name != []
    ensures BuildContent(find, base, name).name != []
    ensures BuildContent(find, base, name).spineLabel == BuildContent(find, base, name).name
  {
  }
}

=== FILE: record.dfy ===
/** The record codec of `scripts/update_stars.py`: `_parse_entry` turns one
    brace-delimited record into an ordered field mapping, `_render_entry`
    writes a mapping back in the catalogue's fixed layout. */
module RecordCodec {

  import opened Wrappers
  import opened Text
  import opened OrderedFields

  /** Indentation of a field line inside a rendered record. */
  const FieldIndent: string := "        "
  /** The first and last line of a rendered record. */
  const OpenLine: string := "    {"
  const CloseLine: string := "    }"

  /** One field as a text line: indentation, `key: value`, and a comma
      unless it is the record's last field. */
  function FieldLine(f: Field, comma: bool): string {
    FieldIndent + f.key + ": " + f.value + (if comma then "," else "")
  }

  /** The field lines of `fs` in order, each preceded by a newline. */
  function RenderLines(fs: Fields): string {
    if fs == [] then [] else "\n" + FieldLine(fs[0], |fs| > 1) + RenderLines(fs[1..])
  }

  /** The field lines of `fs` as a list (what the parser sees). */
  function LinesOf(fs: Fields): seq<string> {
    if fs == [] then [] else [FieldLine(fs[0], |fs| > 1)] + LinesOf(fs[1..])
  }

  /** `_render_entry`: the lines `    {`, one per field, `    }`, joined
      with newlines. */
  function RenderEntry(fs: Fields): (r: string)
    ensures StartsWith(r, OpenLine) && EndsWith(r, "\n" + CloseLine)
  {
    var r := OpenLine + RenderLines(fs) + "\n" + CloseLine;
    assert r[..|OpenLine|] == OpenLine;
    assert r[|r| - 6..] == "\n" + CloseLine;
    r
  }

  /** A line the parser rejects: not blank, not a `//` comment, and
      without a colon. */
  predicate BadLine(line: string) {
    var l := Strip(line, PySpace);
    l != [] && !StartsWith(l, "//") && ':' !in l
  }

  /** A stripped line with its one trailing comma, if any, dropped. */
  function Uncomma(l: string): string {
    if EndsWith(l, ",") then l[..|l| - 1] else l
  }

  /** `key, value = line.split(":", 1)` with both halves stripped; a line
      without a colon cannot be unpacked into two halves. */
  function SplitField(body: string): Result<Field> {
    match IndexOf(body, ':')
    case None => Failure(MissingColon(body))
    case Some(c) => Success(Field(Strip(body[..c], PySpace), Strip(body[c + 1..], PySpace)))
  }

  /** One line of `_parse_entry`: strip it; skip it if blank or a comment;
      drop one trailing comma; split at the first colon and strip both
      halves.  A line without a colon is an error. */
  function ParseLine(line: string): (r: Result<Option<Field>>)
    ensures r.Failure? <==> BadLine(line)
  {
    var l := Strip(line, PySpace);
    if l == [] || StartsWith(l, "//") then Success(None)
    else
      UncommaKeepsColon(l);
      match SplitField(Uncomma(l))
      case Failure(e) => Failure(e)
      case Success(f) => Success(Some(f))
  }

  lemma UncommaKeepsColon(l: string)
    ensures ':' in Uncomma(l) <==> ':' in l
  {
    if EndsWith(l, ",") {
      assert l == l[..|l| - 1] + [','];
    }
  }

  /** The loop of `_parse_entry` over the record's lines: each parsed field
      is assigned into the mapping, so a repeated key keeps its first
      position and takes its last value. */
  function ParseLines(lines: seq<string>, acc: Fields): Result<Fields> {
    if lines == [] then Success(acc)
    else
      match ParseLine(lines[0])
      case Failure(e) => Failure(e)
      case Success(p) =>
        ParseLines(lines[1..], if p.Some? then Put(acc, p.value.key, p.value.value) else acc)
  }

  /** The parse fails exactly when some line is neither blank, nor a
      comment, nor holds a colon. */
  predicate HasBadLine(lines: seq<string>) {
    exists i | 0 <= i < |lines| :: BadLine(lines[i])
  }

  lemma {:induction false} ParseLinesFails(lines: seq<string>, acc: Fields)
    ensures ParseLines(lines, acc).Failure? <==> HasBadLine(lines)
  {
    if lines != [] {
      var r := ParseLine(lines[0]);
      if r.Success? {
        var p := r.value;
        ParseLinesFails(lines[1..], if p.Some? then Put(acc, p.value.key, p.value.value) else acc);
        assert forall i | 1 <= i < |lines| :: lines[i] == lines[1..][i - 1];
        if HasBadLine(lines) {
          var i :| 0 <= i < |lines| && BadLine(lines[i]);
          assert i > 0 && BadLine(lines[1..][i - 1]);
        }
      }
    }
  }

  /** The text between the outer braces: `entry.strip()[1:-1]`. */
  function Content(entry: string): string {
    var t := Strip(entry, PySpace);
    if |t| >= 2 then t[1..|t| - 1] else []
  }

  /** `_parse_entry`. */
  function ParseEntry(entry: string): Result<Fields> {
    ParseLines(SplitLines(Content(entry)), [])
  }

  /** A field the layout can carry: key and value are stripped and on one
      line, the key has no colon and does not look like a comment. */
  predicate CanonicalField(f: Field) {
    && Trimmed(f.key, PySpace) && Trimmed(f.value, PySpace)
    && NoneOf(f.key, LineBreak) && NoneOf(f.value, LineBreak)
    && ':' !in f.key
    && !StartsWith(f.key, "//")
  }

  /** A mapping `_render_entry` writes in a form `_parse_entry` reads back:
      canonical fields, distinct keys, and no trailing comma on the last
      value (the parser would take it for the line separator). */
  predicate Renderable(fs: Fields) {
    && UniqueKeys(fs)
    && (forall i | 0 <= i < |fs| :: CanonicalField(fs[i]))
    && (fs != [] ==> !EndsWith(fs[|fs| - 1].value, ","))
  }

  // ---------------------------------------------------------------------
  // What the parser produces

  /** The halves of a field line are canonical once stripped. */
  lemma SplitFieldCanonical(body: string)
    requires NoneOf(body, LineBreak)
    requires body != [] && !In(body[0], PySpace) && !StartsWith(body, "//")
    requires SplitField(body).Success?
    ensures CanonicalField(SplitField(body).value)
  {
    var c := IndexOf(body, ':').value;
    var key := Strip(body[..c], PySpace);
    StripIsTrimmed(body[..c], PySpace);
    StripIsTrimmed(body[c + 1..], PySpace);
    NoneOfSlice(body, 0, c, LineBreak);
    NoneOfSlice(body, c + 1, |body|, LineBreak);
    StripKeepsNone(body[..c], PySpace, LineBreak);
    StripKeepsNone(body[c + 1..], PySpace, LineBreak);
    assert NoneOf(body[..c], Just(':'));
    StripKeepsNone(body[..c], PySpace, Just(':'));
    assert ':' !in key by {
      forall i | 0 <= i < |key| ensures key[i] != ':' {
        assert !In(key[i], Just(':'));
      }
    }
    if |key| >= 2 {
      StripKeepsFront(body[..c], PySpace);
      assert key[..2] == body[..2];
    }
  }

  /** Every field `_parse_entry` reads from one line is canonical. */
  lemma ParsedFieldIsCanonical(line: string)
    requires NoneOf(line, LineBreak)
    requires ParseLine(line).Success? && ParseLine(line).value.Some?
    ensures CanonicalField(ParseLine(line).value.value)
  {
    var l := Strip(line, PySpace);
    var body := Uncomma(l);
    StripIsTrimmed(line, PySpace);
    StripKeepsNone(line, PySpace, LineBreak);
    assert body == l[..|body|];
    NoneOfSlice(l, 0, |body|, LineBreak);
    if |body| >= 2 {
      assert body[..2] == l[..2];
    }
    SplitFieldCanonical(body);
  }

  /** Every field of `Put(fs, k, v)` is a field of `fs` or `(k, v)`. */
  lemma {:induction false} PutFieldsFrom(fs: Fields, k: string, v: string)
    ensures forall i | 0 <= i < |Put(fs, k, v)| ::
              Put(fs, k, v)[i] in fs || Put(fs, k, v)[i] == Field(k, v)
  {
    if fs != [] && fs[0].key != k {
      PutFieldsFrom(fs[1..], k, v);
      var r := Put(fs, k, v);
      forall i | 0 <= i < |r|
        ensures r[i] in fs || r[i] == Field(k, v)
      {
        if i > 0 {
          assert r[i] == Put(fs[1..], k, v)[i - 1];
          assert forall x | x in fs[1..] :: x in fs;
        }
      }
    }
  }

  /** Every mapping `_parse_entry` produces has canonical fields and
      distinct keys. */
  lemma {:induction false} ParseLinesCanonical(lines: seq<string>, acc: Fields)
    requires forall i | 0 <= i < |lines| :: NoneOf(lines[i], LineBreak)
    requires UniqueKeys(acc) && forall i | 0 <= i < |acc| :: CanonicalField(acc[i])
    requires ParseLines(lines, acc).Success?
    ensures UniqueKeys(ParseLines(lines, acc).value)
    ensures forall i | 0 <= i < |ParseLines(lines, acc).value| ::
              CanonicalField(ParseLines(lines, acc).value[i])
  {
    if lines != [] {
      var p := ParseLine(lines[0]).value;
      assert forall i | 1 <= i < |lines| :: lines[1..][i - 1] == lines[i];
      if p.Some? {
        ParsedFieldIsCanonical(lines[0]);
        var acc' := Put(acc, p.value.key, p.value.value);
        PutUnique(acc, p.value.key, p.value.value);
        PutFieldsFrom(acc, p.value.key, p.value.value);
        ParseLinesCanonical(lines[1..], acc');
      } else {
        ParseLinesCanonical(lines[1..], acc);
      }
    }
  }

  // ---------------------------------------------------------------------
  // Round trip

  /** The comma a rendered field line carries, if any. */
  function Comma(comma: bool): string {
    if comma then "," else ""
  }

  /** What a rendered field line strips to once its comma is dropped: with
      an empty value and no comma the trailing blank is stripped too. */
  function FieldBody(f: Field, comma: bool): string {
    if f.value == [] && !comma then f.key + ":" else f.key + ": " + f.value
  }

  /** The whitespace after the last visible character of a field line. */
  function Pad(f: Field, comma: bool): string {
    if f.value == [] && !comma then " " else ""
  }

  lemma FieldLineShape(f: Field, comma: bool)
    ensures FieldLine(f, comma) == FieldIndent + (FieldBody(f, comma) + Comma(comma)) + Pad(f, comma)
  {
  }

  lemma FieldTextTrimmed(f: Field, comma: bool)
    requires CanonicalField(f)
    requires comma || !EndsWith(f.value, ",")
    ensures Trimmed(FieldBody(f, comma) + Comma(comma), PySpace)
    ensures FieldBody(f, comma) + Comma(comma) != []
    ensures !EndsWith(FieldBody(f, comma), ",") || comma
  {
    var key, value := f.key, f.value;
    var body := FieldBody(f, comma);
    var text := body + Comma(comma);
    assert body[|key|] == ':';
    assert text[0] == (if key != [] then key[0] else ':');
    if comma {
      assert text[|text| - 1] == ',';
    } else if value != [] {
      assert text[|text| - 1] == value[|value| - 1];
      assert value[|value| - 1..] == [value[|value| - 1]];
    } else {
      assert text[|text| - 1] == ':';
    }
  }

  lemma FieldTextNotComment(f: Field, comma: bool)
    requires CanonicalField(f)
    ensures !StartsWith(FieldBody(f, comma) + Comma(comma), "//")
  {
    var key := f.key;
    var text := FieldBody(f, comma) + Comma(comma);
    assert text[|key|] == ':';
    if |key| >= 2 {
      assert text[..2] == key[..2];
    }
  }

  lemma StripFieldLine(f: Field, comma: bool)
    requires CanonicalField(f)
    requires comma || !EndsWith(f.value, ",")
    ensures Strip(FieldLine(f, comma), PySpace) == FieldBody(f, comma) + Comma(comma)
  {
    FieldLineShape(f, comma);
    FieldTextTrimmed(f, comma);
    assert AllOf(FieldIndent, PySpace);
    assert AllOf(Pad(f, comma), PySpace);
    StripPadded(FieldIndent, FieldBody(f, comma) + Comma(comma), Pad(f, comma), PySpace);
  }

  lemma UncommaFieldText(f: Field, comma: bool)
    requires CanonicalField(f)
    requires comma || !EndsWith(f.value, ",")
    ensures Uncomma(FieldBody(f, comma) + Comma(comma)) == FieldBody(f, comma)
  {
    FieldTextTrimmed(f, comma);
    var text := FieldBody(f, comma) + Comma(comma);
    if comma {
      assert EndsWith(text, ",");
      assert text[..|text| - 1] == FieldBody(f, comma);
    } else {
      assert text == FieldBody(f, comma);
    }
  }

  lemma IndexOfAfter(key: string, body: string)
    requires ':' !in key && |body| > |key| && body[..|key|] == key && body[|key|] == ':'
    ensures IndexOf(body, ':') == Some(|key|)
  {
    assert body == key + [':'] + body[|key| + 1..];
    assert NoneOf(key, Just(':'));
    FirstIndexAt(key, ':', body[|key| + 1..], Just(':'));
  }

  lemma SplitFieldBody(f: Field, comma: bool)
    requires CanonicalField(f)
    ensures SplitField(FieldBody(f, comma)) == Success(f)
  {
    var key, value := f.key, f.value;
    var body := FieldBody(f, comma);
    assert body[..|key|] == key && body[|key|] == ':';
    IndexOfAfter(key, body);
    StripTrimmed(key, PySpace);
    if value == [] && !comma {
      assert body[|key| + 1..] == [];
    } else {
      assert body[|key| + 1..] == " " + value + [];
      assert AllOf(" ", PySpace);
      StripPadded(" ", value, [], PySpace);
    }
  }

  /** A rendered field line parses back to the field. */
  lemma ParseFieldLine(f: Field, comma: bool)
    requires CanonicalField(f)
    requires comma || !EndsWith(f.value, ",")
    ensures ParseLine(FieldLine(f, comma)) == Success(Some(f))
  {
    StripFieldLine(f, comma);
    FieldTextTrimmed(f, comma);
    FieldTextNotComment(f, comma);
    UncommaFieldText(f, comma);
    SplitFieldBody(f, comma);
  }

  lemma FieldLineNoBreak(f: Field, comma: bool)
    requires CanonicalField(f)
    ensures NoneOf(FieldLine(f, comma), LineBreak)
  {
    var line := FieldLine(f, comma);
    assert line == FieldIndent + f.key + ": " + f.value + Comma(comma);
    forall i | 0 <= i < |line|
      ensures !In(line[i], LineBreak)
    {
      if 8 <= i < 8 + |f.key| {
        assert line[i] == f.key[i - 8];
        assert !In(f.key[i - 8], LineBreak);
      } else if 10 + |f.key| <= i < 10 + |f.key| + |f.value| {
        assert line[i] == f.value[i - 10 - |f.key|];
        assert !In(f.value[i - 10 - |f.key|], LineBreak);
      }
    }
  }

  lemma AppendStep(p: string, l0: string, r: string, t: string)
    ensures p + (['\n'] + l0 + r) + t == p + ['\n'] + (l0 + (r + t))
  {
  }

  lemma SplitLastLine(p: string, tail: string)
    requires NoneOf(p, LineBreak) && NoneOf(tail, LineBreak)
    ensures SplitLines(p + RenderLines([]) + (['\n'] + tail)) == [p] + LinesOf([]) + [tail]
  {
    assert p + RenderLines([]) + (['\n'] + tail) == p + ['\n'] + tail;
    SplitLinesAt(p, '\n', tail);
    SplitLinesNone(tail);
  }

  /** The rendered text, cut at line breaks, gives back the field lines;
      `tail` is the closing line's indentation. */
  lemma {:induction false} SplitRendered(p: string, fs: Fields, tail: string)
    requires NoneOf(p, LineBreak) && NoneOf(tail, LineBreak)
    requires forall i | 0 <= i < |fs| :: CanonicalField(fs[i])
    ensures SplitLines(p + RenderLines(fs) + (['\n'] + tail)) == [p] + LinesOf(fs) + [tail]
    decreases fs
  {
    if fs == [] {
      SplitLastLine(p, tail);
    } else {
      var l0 := FieldLine(fs[0], |fs| > 1);
      var r := RenderLines(fs[1..]);
      FieldLineNoBreak(fs[0], |fs| > 1);
      assert RenderLines(fs) == ['\n'] + l0 + r;
      AppendStep(p, l0, r, ['\n'] + tail);
      SplitLinesAt(p, '\n', l0 + (r + (['\n'] + tail)));
      assert l0 + (r + (['\n'] + tail)) == l0 + r + (['\n'] + tail);
      SplitRendered(l0, fs[1..], tail);
      assert LinesOf(fs) == [l0] + LinesOf(fs[1..]);
    }
  }

  /** Parsing the field lines of fresh, distinct keys appends the fields. */
  lemma {:induction false} ParseLinesOf(fs: Fields, acc: Fields, tail: seq<string>)
    requires forall i | 0 <= i < |fs| :: CanonicalField(fs[i])
    requires UniqueKeys(acc + fs)
    requires fs != [] ==> !EndsWith(fs[|fs| - 1].value, ",")
    ensures ParseLines(LinesOf(fs) + tail, acc) == ParseLines(tail, acc + fs)
  {
    if fs == [] {
      assert acc + fs == acc;
      assert LinesOf(fs) + tail == tail;
    } else {
      var f := fs[0];
      var lines := LinesOf(fs) + tail;
      LinesOfCons(fs, tail);
      ParseFieldLine(f, |fs| > 1);
      ParseLinesField(lines, acc, f);
      FreshAfter(acc, fs);
      PutFresh(acc, f.key, f.value);
      var rest := fs[1..];
      assert (acc + [f]) + rest == acc + fs;
      assert forall i | 0 <= i < |rest| :: rest[i] == fs[i + 1];
      assert rest != [] ==> rest[|rest| - 1] == fs[|fs| - 1];
      ParseLinesOf(rest, acc + [f], tail);
    }
  }

  lemma LinesOfCons(fs: Fields, tail: seq<string>)
    requires fs != []
    ensures (LinesOf(fs) + tail)[0] == FieldLine(fs[0], |fs| > 1)
    ensures (LinesOf(fs) + tail)[1..] == LinesOf(fs[1..]) + tail
  {
    var l0 := FieldLine(fs[0], |fs| > 1);
    assert LinesOf(fs) == [l0] + LinesOf(fs[1..]);
    ConsAppend(l0, LinesOf(fs[1..]), tail);
  }

  lemma ConsAppend<T>(x: T, r: seq<T>, t: seq<T>)
    ensures ([x] + r + t)[0] == x && ([x] + r + t)[1..] == r + t
  {
  }

  lemma ParseLinesField(lines: seq<string>, acc: Fields, f: Field)
    requires lines != [] && ParseLine(lines[0]) == Success(Some(f))
    ensures ParseLines(lines, acc) == ParseLines(lines[1..], Put(acc, f.key, f.value))
  {
  }

  lemma FreshAfter(acc: Fields, fs: Fields)
    requires fs != [] && UniqueKeys(acc + fs)
    ensures fs[0].key !in Keys(acc)
    ensures UniqueKeys(acc + [fs[0]] + fs[1..])
    ensures acc + [fs[0]] + fs[1..] == acc + fs
  {
    var s := acc + fs;
    forall i | 0 <= i < |acc|
      ensures acc[i].key != fs[0].key
    {
      assert s[i] == acc[i] && s[|acc|] == fs[0];
    }
    assert acc + [fs[0]] + fs[1..] == s;
  }

  lemma EntryContent(fs: Fields)
    ensures Content(RenderEntry(fs)) == [] + RenderLines(fs) + (['\n'] + "    ")
  {
    var b := Braced(fs);
    var inner := RenderLines(fs) + "\n    ";
    BracedShape(fs);
    RenderEntryIndented(fs);
    IndentIsBlank();
    assert Trimmed(b, PySpace);
    StripPadded("    ", b, [], PySpace);
    assert "    " + b + [] == RenderEntry(fs);
    assert b[1..|b| - 1] == inner;
  }

  /** Round trip: parsing a rendered record gives back the mapping, keys in
      the same order. */
  lemma RenderThenParse(fs: Fields)
    requires Renderable(fs)
    ensures ParseEntry(RenderEntry(fs)) == Success(fs)
  {
    EntryLines(fs);
    ParseEntryLines(fs);
  }

  /** The lines of a rendered record: the blank rest of the opening line,
      the field lines, the indentation before the closing brace. */
  lemma EntryLines(fs: Fields)
    requires forall i | 0 <= i < |fs| :: CanonicalField(fs[i])
    ensures SplitLines(Content(RenderEntry(fs))) == [[]] + LinesOf(fs) + ["    "]
  {
    IndentIsBlank();
    EntryContent(fs);
    SplitRendered([], fs, "    ");
  }

  /** The closing line's indentation is whitespace without a line break. */
  lemma IndentIsBlank()
    ensures NoneOf("    ", LineBreak) && AllOf("    ", PySpace)
  {
  }

  lemma ParseEntryLines(fs: Fields)
    requires Renderable(fs)
    ensures ParseLines([[]] + LinesOf(fs) + ["    "], []) == Success(fs)
  {
    var blank: string := [];
    var lines := [blank] + LinesOf(fs) + ["    "];
    ConsAppend(blank, LinesOf(fs), ["    "]);
    assert ParseLine(blank) == Success(None);
    ParseLinesSkip(lines, []);
    assert [] + fs == fs;
    ParseLinesOf(fs, [], ["    "]);
    BlankLineSkipped();
    ParseLinesSkip(["    "], fs);
  }

  lemma ParseLinesSkip(lines: seq<string>, acc: Fields)
    requires lines != [] && ParseLine(lines[0]) == Success(None)
    ensures ParseLines(lines, acc) == ParseLines(lines[1..], acc)
  {
  }

  lemma BlankLineSkipped()
    ensures ParseLine("    ") == Success(None)
  {
    assert AllOf("    ", PySpace);
    StripPadded("    ", [], [], PySpace);
    assert "    " + [] + [] == "    ";
  }

  /** Every record `_parse_entry` accepts is written back in a form it
      reads again unchanged, unless its last value ends in a comma. */
  lemma ParseThenRenderStable(entry: string)
    requires ParseEntry(entry).Success?
    requires var fs := ParseEntry(entry).value;
             fs != [] ==> !EndsWith(fs[|fs| - 1].value, ",")
    ensures ParseEntry(RenderEntry(ParseEntry(entry).value)) == ParseEntry(entry)
  {
    SplitLinesNoBreaks(Content(entry));
    ParseLinesCanonical(SplitLines(Content(entry)), []);
    RenderThenParse(ParseEntry(entry).value);
  }

  /** A record holding a line that is neither blank, nor a comment, nor
      has a colon is rejected, and only such a record. */
  lemma ParseRejectsExactlyColonlessLines(entry: string)
    ensures ParseEntry(entry).Failure? <==> HasBadLine(SplitLines(Content(entry)))
  {
    var lines := SplitLines(Content(entry));
    ParseLinesFails(lines, []);
    assert ParseEntry(entry) == ParseLines(lines, []);
  }

  // ---------------------------------------------------------------------
  // The record as the scanner cuts it

  /** A rendered record from its opening brace on: what the scanner
      extracts from a rendered catalogue. */
  function Braced(fs: Fields): string {
    "{" + RenderLines(fs) + "\n" + CloseLine
  }

  lemma RenderEntryIndented(fs: Fields)
    ensures RenderEntry(fs) == "    " + Braced(fs)
  {
  }

  /** The record without its braces: the field lines and the closing
      line's indentation. */
  lemma BracedShape(fs: Fields)
    ensures Braced(fs) == ['{'] + (RenderLines(fs) + "\n    ") + ['}']
  {
  }

  /** The scanner's cut of a rendered record parses back to the mapping. */
  lemma ParseBraced(fs: Fields)
    requires Renderable(fs)
    ensures ParseEntry(Braced(fs)) == Success(fs)
  {
    var b := Braced(fs);
    BracedShape(fs);
    assert Trimmed(b, PySpace);
    IndentIsBlank();
    RenderEntryIndented(fs);
    StripPadded("    ", b, [], PySpace);
    assert "    " + b + [] == RenderEntry(fs);
    StripTrimmed(b, PySpace);
    RenderThenParse(fs);
  }

  predicate NoBraces(s: string) {
    '{' !in s && '}' !in s
  }

  /** Neither key nor value holds a brace. */
  predicate BraceFree(fs: Fields) {
    forall i | 0 <= i < |fs| :: NoBraces(fs[i].key) && NoBraces(fs[i].value)
  }

  lemma {:induction false} RenderLinesNoBraces(fs: Fields)
    requires BraceFree(fs)
    ensures NoBraces(RenderLines(fs))
  {
    if fs != [] {
      var line := FieldLine(fs[0], |fs| > 1);
      assert line == FieldIndent + fs[0].key + ": " + fs[0].value + Comma(|fs| > 1);
      assert NoBraces(line);
      RenderLinesNoBraces(fs[1..]);
      assert RenderLines(fs) == "\n" + line + RenderLines(fs[1..]);
    }
  }
}

=== FILE: scanner.dfy ===
/** The record scanner of `scripts/update_stars.py` (`_extract_entries`):
    splits the body of the star array into brace-delimited record texts by
    counting brace depth, discarding whatever lies between records. */
module Scanner {

  import opened Wrappers

  /** Contribution of one character to the brace depth. */
  function Delta(c: char): int {
    if c == '{' then 1 else if c == '}' then -1 else 0
  }

  /** Net brace depth of `s`: opening braces minus closing braces. */
  function Depth(s: string): int {
    if s == [] then 0 else Delta(s[0]) + Depth(s[1..])
  }

  /** One record as the scanner cuts it: it opens with `{`, closes with `}`,
      is balanced, and its depth stays positive until that final `}`. */
  predicate IsBlock(b: string) {
    && |b| >= 2
    && b[0] == '{'
    && b[|b| - 1] == '}'
    && Depth(b) == 0
    && forall j | 1 <= j < |b| :: Depth(b[..j]) >= 1
  }

  function Shift(o: Option<nat>): (r: Option<nat>)
    ensures r.Some? <==> o.Some?
    ensures r.Some? ==> r.value == o.value + 1
  {
    if o.Some? then Some(o.value + 1) else None
  }

  /** Reading `t` at brace depth `depth`, the index of the `}` that brings
      the depth back to 0, if there is one. */
  function Close(t: string, depth: nat): (r: Option<nat>)
    requires depth >= 1
    ensures r.Some? ==> r.value < |t| && t[r.value] == '}'
    decreases |t|
  {
    if t == [] then None
    else if t[0] == '{' then Shift(Close(t[1..], depth + 1))
    else if t[0] == '}' then
      if depth == 1 then Some(0) else Shift(Close(t[1..], depth - 1))
    else Shift(Close(t[1..], depth))
  }

  /** The records of `s`, in document order.  A `{` outside any record
      opens one; the record runs to the `}` that closes it; characters
      outside records, stray `}` included, are skipped.  An opening brace
      that is never closed ends the scan: that tail yields no record. */
  function Scan(s: string): seq<string>
    decreases |s|
  {
    if s == [] then []
    else if s[0] != '{' then Scan(s[1..])
    else
      match Close(s[1..], 1)
      case None => []
      case Some(k) => [s[..k + 2]] + Scan(s[k + 2..])
  }

  /** Every piece the scanner returns is a balanced record. */
  lemma {:induction false} ScanYieldsBlocks(s: string)
    ensures forall k | 0 <= k < |Scan(s)| :: IsBlock(Scan(s)[k])
    decreases |s|
  {
    if s != [] {
      if s[0] != '{' {
        ScanYieldsBlocks(s[1..]);
      } else if Close(s[1..], 1).Some? {
        var k := Close(s[1..], 1).value;
        CloseIsBlock(s, k);
        ScanYieldsBlocks(s[k + 2..]);
        var r := Scan(s);
        assert r == [s[..k + 2]] + Scan(s[k + 2..]);
        assert forall j | 1 <= j < |r| :: r[j] == Scan(s[k + 2..])[j - 1];
      }
    }
  }

  lemma DepthCons(c: char, u: string)
    ensures Depth([c] + u) == Delta(c) + Depth(u)
  {
    assert ([c] + u)[1..] == u;
  }

  lemma DepthAppend(a: string, b: string)
    ensures Depth(a + b) == Depth(a) + Depth(b)
  {
    if a != [] {
      assert (a + b)[0] == a[0];
      assert (a + b)[1..] == a[1..] + b;
      DepthAppend(a[1..], b);
    } else {
      assert a + b == b;
    }
  }

  /** What `Close` finds: the first prefix of `t` whose depth cancels `depth`. */
  lemma {:induction false} CloseSound(t: string, depth: nat, k: nat)
    requires depth >= 1 && Close(t, depth) == Some(k)
    ensures k < |t|
    ensures depth + Depth(t[..k + 1]) == 0
    ensures forall j | 0 <= j <= k :: depth + Depth(t[..j]) >= 1
  {
    var u := t[1..];
    var d' := depth + Delta(t[0]);
    assert t[..1] == [t[0]] + u[..0];
    if t[0] == '}' && depth == 1 {
      assert k == 0;
    } else {
      assert Close(u, d') == Some(k - 1);
      CloseSound(u, d', k - 1);
      forall j | 1 <= j <= k + 1
        ensures Depth(t[..j]) == Delta(t[0]) + Depth(u[..j - 1])
      {
        assert t[..j] == [t[0]] + u[..j - 1];
        DepthCons(t[0], u[..j - 1]);
      }
    }
  }

  /** Conversely, the first cancelling prefix is what `Close` reports. */
  lemma {:induction false} CloseComplete(t: string, depth: nat, k: nat)
    requires depth >= 1 && k < |t|
    requires depth + Depth(t[..k + 1]) == 0
    requires forall j | 0 <= j <= k :: depth + Depth(t[..j]) >= 1
    ensures Close(t, depth) == Some(k)
  {
    var u := t[1..];
    var d := depth + Delta(t[0]);
    assert t[..1] == [t[0]];
    DepthCons(t[0], []);
    assert [t[0]] + [] == [t[0]];
    if k == 0 {
      assert d == 0;
    } else {
      assert depth + Depth(t[..1]) >= 1;
      forall j | 1 <= j <= k + 1
        ensures Depth(t[..j]) == Delta(t[0]) + Depth(u[..j - 1])
      {
        assert t[..j] == [t[0]] + u[..j - 1];
        DepthCons(t[0], u[..j - 1]);
      }
      forall j | 0 <= j <= k - 1
        ensures d + Depth(u[..j]) >= 1
      {
        assert depth + Depth(t[..j + 1]) >= 1;
      }
      CloseComplete(u, d, k - 1);
    }
  }

  lemma CloseIsBlock(s: string, k: nat)
    requires s != [] && s[0] == '{' && Close(s[1..], 1) == Some(k)
    ensures k + 2 <= |s| && IsBlock(s[..k + 2])
  {
    var t := s[1..];
    CloseSound(t, 1, k);
    var b := s[..k + 2];
    assert b == [s[0]] + t[..k + 1];
    DepthCons('{', t[..k + 1]);
    forall j | 1 <= j < |b|
      ensures Depth(b[..j]) >= 1
    {
      assert b[..j] == ['{'] + t[..j - 1];
      DepthCons('{', t[..j - 1]);
    }
  }

  /** Text without an opening brace before a record is discarded, stray
      closing braces included. */
  lemma {:induction false} ScanSkipsGap(gap: string, rest: string)
    requires '{' !in gap
    ensures Scan(gap + rest) == Scan(rest)
  {
    if gap != [] {
      assert (gap + rest)[0] == gap[0];
      assert (gap + rest)[1..] == gap[1..] + rest;
      assert forall c | c in gap[1..] :: c in gap;
      ScanSkipsGap(gap[1..], rest);
    } else {
      assert gap + rest == rest;
    }
  }

  /** A record at the front is returned whole, nested braces included, and
      scanning resumes right after it. */
  lemma ScanTakesBlock(b: string, rest: string)
    requires IsBlock(b)
    ensures Scan(b + rest) == [b] + Scan(rest)
  {
    var s := b + rest;
    var t := s[1..];
    var k := |b| - 2;
    assert t[..k + 1] == b[1..];
    assert b == ['{'] + b[1..];
    DepthCons('{', b[1..]);
    forall j | 0 <= j <= k
      ensures 1 + Depth(t[..j]) >= 1
    {
      assert b[..j + 1] == ['{'] + t[..j];
      DepthCons('{', t[..j]);
    }
    CloseComplete(t, 1, k);
    assert s[..k + 2] == b;
    assert s[k + 2..] == rest;
  }

  lemma {:induction false} CloseNeverWithoutClosingBrace(t: string, depth: nat)
    requires depth >= 1 && '}' !in t
    ensures Close(t, depth) == None
  {
    if t != [] {
      assert t[0] != '}';
      assert forall c | c in t[1..] :: c in t;
      CloseNeverWithoutClosingBrace(t[1..], depth + Delta(t[0]));
    }
  }

  /** An opening brace that is never closed is dropped silently, together
      with everything after it; it is not an error. */
  lemma UnterminatedTailDropped(gap: string, t: string)
    requires '{' !in gap && '}' !in t
    ensures Scan(gap + ['{'] + t) == []
  {
    assert gap + ['{'] + t == gap + (['{'] + t);
    ScanSkipsGap(gap, ['{'] + t);
    assert (['{'] + t)[1..] == t;
    CloseNeverWithoutClosingBrace(t, 1);
  }

  lemma CloseStep(t: string, depth: nat)
    requires depth >= 1 && t != [] && !(t[0] == '}' && depth == 1)
    ensures depth + Delta(t[0]) >= 1
    ensures Close(t, depth) == Shift(Close(t[1..], depth + Delta(t[0])))
  {
  }

  lemma ScanStep(s: string)
    requires s != [] && s[0] != '{'
    ensures Scan(s) == Scan(s[1..])
  {
  }

  lemma ScanRecord(s: string, k: nat)
    requires s != [] && s[0] == '{' && Close(s[1..], 1) == Some(k)
    ensures k + 2 <= |s| && Scan(s) == [s[..k + 2]] + Scan(s[k + 2..])
  {
    assert k < |s[1..]|;
  }

  lemma ScanUnclosed(s: string)
    requires s != [] && s[0] == '{' && Close(s[1..], 1) == None
    ensures Scan(s) == []
  {
  }

  lemma AdvanceClose(body: string, start: nat, i: nat, depth: nat)
    requires start < i < |body| && depth >= 1 && !(body[i] == '}' && depth == 1)
    requires Close(body[start + 1..], 1) == Offset(Close(body[i..], depth), i - start - 1)
    ensures depth + Delta(body[i]) >= 1
    ensures Close(body[start + 1..], 1)
         == Offset(Close(body[i + 1..], depth + Delta(body[i])), i - start)
  {
    var t := body[i..];
    assert t[0] == body[i] && t[1..] == body[i + 1..];
    CloseStep(t, depth);
    OffsetShift(Close(t[1..], depth + Delta(t[0])), i - start - 1);
  }

  lemma OffsetShift(o: Option<nat>, n: nat)
    ensures Offset(Shift(o), n) == Offset(o, n + 1)
  {
  }

  lemma ClosedAt(body: string, start: nat, i: nat)
    requires start < i < |body| && body[i] == '}'
    requires Close(body[start + 1..], 1) == Offset(Close(body[i..], 1), i - start - 1)
    ensures Close(body[start + 1..], 1) == Some(i - start - 1)
  {
  }

  /** The inner loop of `_extract_entries`: from the `{` at `start`, count
      depth until a `}` brings it back to 0; report that brace's index.
      The first iteration, which only counts the opening brace, is unrolled. */
  method MatchingBrace(body: string, start: nat) returns (close: Option<nat>)
    requires start < |body| && body[start] == '{'
    ensures close == Offset(Close(body[start + 1..], 1), start + 1)
  {
    var i := start + 1;
    var depth := 1;
    while i < |body|
      invariant start < i <= |body| && depth >= 1
      invariant Close(body[start + 1..], 1) == Offset(Close(body[i..], depth), i - start - 1)
      decreases |body| - i
    {
      if body[i] == '}' && depth == 1 {
        ClosedAt(body, start, i);
        return Some(i);
      }
      AdvanceClose(body, start, i, depth);
      depth := depth + Delta(body[i]);
      i := i + 1;
    }
    assert body[i..] == [];
    return None;
  }

  /** `_extract_entries` as written: scan for a `{`, walk to its matching
      `}`, keep the text between them inclusive, continue after it. */
  method ExtractEntries(body: string) returns (entries: seq<string>)
    ensures entries == Scan(body)
    ensures forall k | 0 <= k < |entries| :: IsBlock(entries[k])
  {
    entries := [];
    var i := 0;
    while i < |body|
      invariant 0 <= i <= |body|
      invariant entries + Scan(body[i..]) == Scan(body)
      decreases |body| - i
    {
      if body[i] == '{' {
        var close := MatchingBrace(body, i);
        if close.None? {
          // the record opened at `i` is never closed: nothing more to find
          ScanAtUnclosed(body, i);
          i := |body|;
        } else {
          ScanAtRecord(body, i, close.value);
          assert entries + Scan(body[i..])
              == (entries + [body[i..close.value + 1]]) + Scan(body[close.value + 1..]);
          entries := entries + [body[i..close.value + 1]];
          i := close.value + 1;
        }
      } else {
        ScanAtStep(body, i);
        i := i + 1;
      }
    }
    assert body[i..] == [];
    ScanYieldsBlocks(body);
  }

  lemma ScanAtStep(body: string, i: nat)
    requires i < |body| && body[i] != '{'
    ensures Scan(body[i..]) == Scan(body[i + 1..])
  {
    ScanStep(body[i..]);
    assert body[i..][1..] == body[i + 1..];
  }

  lemma ScanAtUnclosed(body: string, i: nat)
    requires i < |body| && body[i] == '{' && Offset(Close(body[i + 1..], 1), i + 1).None?
    ensures Scan(body[i..]) == []
  {
    assert body[i..][1..] == body[i + 1..];
    ScanUnclosed(body[i..]);
  }

  lemma ScanAtRecord(body: string, i: nat, c: nat)
    requires i < |body| && body[i] == '{' && Offset(Close(body[i + 1..], 1), i + 1) == Some(c)
    ensures i < c < |body|
    ensures Scan(body[i..]) == [body[i..c + 1]] + Scan(body[c + 1..])
  {
    var k := c - i - 1;
    assert body[i..][1..] == body[i + 1..];
    ScanRecord(body[i..], k);
    assert body[i..][..k + 2] == body[i..c + 1];
    assert body[i..][k + 2..] == body[c + 1..];
  }

  function Offset(o: Option<nat>, n: nat): (r: Option<nat>)
    ensures r.Some? <==> o.Some?
    ensures r.Some? ==> r.value == o.value + n
  {
    if o.Some? then Some(o.value + n) else None
  }

  /** Brace-free text has depth 0. */
  lemma {:induction false} DepthNoBraces(s: string)
    requires '{' !in s && '}' !in s
    ensures Depth(s) == 0
  {
    if s != [] {
      assert s[0] != '{' && s[0] != '}';
      assert forall c | c in s[1..] :: c in s;
      DepthNoBraces(s[1..]);
    }
  }

  /** Brace-free text between a pair of braces is one record. */
  lemma BracedIsBlock(inner: string)
    requires '{' !in inner && '}' !in inner
    ensures IsBlock(['{'] + inner + ['}'])
  {
    var b := ['{'] + inner + ['}'];
    DepthNoBraces(inner);
    assert b == ['{'] + (inner + ['}']);
    DepthCons('{', inner + ['}']);
    DepthAppend(inner, ['}']);
    DepthCons('}', []);
    assert ['}'] + [] == ['}'];
    forall j | 1 <= j < |b|
      ensures Depth(b[..j]) >= 1
    {
      assert b[..j] == ['{'] + inner[..j - 1];
      assert forall c | c in inner[..j - 1] :: c in inner;
      DepthNoBraces(inner[..j - 1]);
      DepthCons('{', inner[..j - 1]);
    }
  }
}

=== FILE: settings.dfy ===
/** Default settings and the surface-type alias rule of `core/settings.js`. */
module Settings {

  /** An observer location. */
  datatype Location = Location(name: string, nameEn: string, lat: real, lon: real, icon: string,
                               surfaceType: string)

  /** `DEFAULT_OBSERVER_LOCATION`: Tokyo, on grass. */
  const DefaultObserverLocation: Location :=
    Location("東京", "Tokyo", 35.6895, 139.6917, "🗼", "grass")

  /** `normalizeSurfaceType`: a missing or empty type is water, the old
      name `land` is desert, anything else is kept.  The empty string
      stands for every falsy argument. */
  function NormalizeSurfaceType(surfaceType: string): (r: string)
    ensures r != [] && r != "land"
    ensures surfaceType != [] && surfaceType != "land" ==> r == surfaceType
  {
    if surfaceType == [] then "water"
    else if surfaceType == "land" then "desert"
    else surfaceType
  }

  /** Normalising a normalised type changes nothing. */
  lemma NormalizeSurfaceTypeIdempotent(surfaceType: string)
    ensures NormalizeSurfaceType(NormalizeSurfaceType(surfaceType)) == NormalizeSurfaceType(surfaceType)
  {
  }

  /** Exactly the empty type and `water` itself normalise to `water`, and
      exactly `land` and `desert` to `desert`. */
  lemma NormalizeSurfaceTypeAliases(surfaceType: string)
    ensures NormalizeSurfaceType(surfaceType) == "water" <==> surfaceType == [] || surfaceType == "water"
    ensures NormalizeSurfaceType(surfaceType) == "desert" <==> surfaceType == "land" || surfaceType == "desert"
  {
  }

  /** The planetarium's settings record. */
  datatype PlanetariumSettings = PlanetariumSettings(
    showBackgroundStars: bool, showMilkyWay: bool, showConstellations: bool,
    showShootingStars: bool, showSun: bool, showMoon: bool, showPlanets: bool,
    showAurora: bool, showHourCircles: bool, showDeclinationCircles: bool,
    showCelestialEquator: bool, showEcliptic: bool, showGalacticEquator: bool,
    showLunarOrbit: bool, showCardinalDirections: bool, showStarTrails: bool,
    autoRotate: bool, playMusic: bool, showLensFlare: bool, surfaceType: string,
    showCometTail: bool, cometTailTint: string, cometTailIntensity: int,
    meteorShowerIntensity: int, playEnvSound: bool)

  /** `createDefaultSettings`. */
  function DefaultSettings(): (s: PlanetariumSettings)
    ensures s.surfaceType == DefaultObserverLocation.surfaceType == "grass"
    ensures !s.showSun && s.meteorShowerIntensity == 0 && s.cometTailIntensity == 1
  {
    PlanetariumSettings(
      true, true, true,
      true, false, true, true,
      true, false, false,
      false, false, false,
      false, false, false,
      false, true, true, NormalizeSurfaceType(DefaultObserverLocation.surfaceType),
      false, "#b7f0ff", 1,
      0, true)
  }

  /** The defaults show the sky itself and hide every guide line. */
  lemma DefaultsShowSkyHideGuides()
    ensures var s := DefaultSettings();
            && s.showBackgroundStars && s.showMilkyWay && s.showConstellations && s.showMoon
            && s.showPlanets
            && !s.showHourCircles && !s.showDeclinationCircles && !s.showCelestialEquator
            && !s.showEcliptic && !s.showGalacticEquator && !s.showLunarOrbit
            && !s.showCardinalDirections && !s.showStarTrails
  {
  }
}

=== FILE: spacing.dfy ===
/** Runs of separator characters: collapsing each run to one space (the
    JavaScript `replace(/[…]+/g, ' ')` idiom) and the word list such runs
    separate.  `Join(Words(s, k))` is the reference the collapsing
    operations are proved against. */
module Spacing {

  import opened Text

  /** `s.replace(/[k]+/g, ' ')`: every maximal run of class-`k`
      characters becomes a single space; everything else is kept. */
  function Collapse(s: string, k: CharClass): string
    decreases |s|
  {
    if s == [] then []
    else if In(s[0], k) then " " + Collapse(StripStart(s[1..], k), k)
    else [s[0]] + Collapse(s[1..], k)
  }

  /** `words.join(' ')`. */
  function Join(ws: seq<string>): string {
    if ws == [] then []
    else if |ws| == 1 then ws[0]
    else ws[0] + " " + Join(ws[1..])
  }

  /** Every word is non-empty and free of class-`k` characters. */
  predicate AreWords(ws: seq<string>, k: CharClass) {
    forall i | 0 <= i < |ws| :: ws[i] != [] && NoneOf(ws[i], k)
  }

  /** A single space when `b` holds. */
  function Edge(b: bool): string {
    if b then " " else []
  }

  /** Each class-`k` character is a plain space between two other
      characters, and the next character is not of class `k`. */
  predicate SingleSpaced(s: string, k: CharClass) {
    forall i | 0 <= i < |s| && In(s[i], k) :: s[i] == ' ' && 0 < i < |s| - 1 && !In(s[i + 1], k)
  }

  // ---------------------------------------------------------------------
  // Leading runs

  lemma {:induction false} StripStartAll(pre: string, s: string, k: CharClass)
    requires AllOf(pre, k)
    ensures StripStart(pre + s, k) == StripStart(s, k)
    decreases |pre|
  {
    if pre != [] {
      assert (pre + s)[0] == pre[0] && (pre + s)[1..] == pre[1..] + s;
      StripStartAll(pre[1..], s, k);
    } else {
      assert pre + s == s;
    }
  }

  lemma {:induction false} StripStartEmpty(s: string, k: CharClass)
    requires StripStart(s, k) == []
    ensures AllOf(s, k)
    decreases |s|
  {
    if s != [] {
      StripStartEmpty(s[1..], k);
      assert forall i | 1 <= i < |s| :: s[i] == s[1..][i - 1];
    }
  }

  /** A string whose last character is no separator keeps that character
      when its leading run is removed. */
  lemma StripStartKeepsLast(s: string, k: CharClass)
    requires s != [] && !In(s[|s| - 1], k)
    ensures StripStart(s, k) != []
    ensures StripStart(s, k)[|StripStart(s, k)| - 1] == s[|s| - 1]
  {
    StripStartSuffix(s, k);
    if StripStart(s, k) == [] {
      StripStartEmpty(s, k);
    }
  }

  lemma StripStartTwice(s: string, k: CharClass)
    ensures StripStart(StripStart(s, k), k) == StripStart(s, k)
  {
    StripStartSuffix(s, k);
  }

  // ---------------------------------------------------------------------
  // Words

  lemma WordsStripStart(s: string, k: CharClass)
    ensures Words(StripStart(s, k), k) == Words(s, k)
  {
    StripStartTwice(s, k);
  }

  /** Leading separators do not change the words. */
  lemma WordsSkip(pre: string, s: string, k: CharClass)
    requires AllOf(pre, k)
    ensures Words(pre + s, k) == Words(s, k)
  {
    StripStartAll(pre, s, k);
  }

  lemma WordsEmpty(s: string, k: CharClass)
    ensures Words(s, k) == [] <==> AllOf(s, k)
  {
    if StripStart(s, k) == [] {
      StripStartEmpty(s, k);
    }
    if AllOf(s, k) {
      StripStartPast(s, [], k);
      assert s + [] == s;
    }
  }

  /** A word followed by nothing or by a separator is the first word. */
  lemma WordsPrefixWord(w: string, rest: string, k: CharClass)
    requires w != [] && NoneOf(w, k) && (rest == [] || In(rest[0], k))
    ensures Words(w + rest, k) == [w] + Words(rest, k)
  {
    var s := w + rest;
    assert s[0] == w[0];
    assert StripStart(s, k) == s;
    if rest == [] {
      assert s == w;
      FirstIndexNone(w, k);
    } else {
      assert s == w + [rest[0]] + rest[1..];
      FirstIndexAt(w, rest[0], rest[1..], k);
    }
    assert s[..|w|] == w;
    assert s[|w|..] == rest;
  }

  lemma {:induction false} WordsPadded(a: string, b: string, k: CharClass)
    requires AllOf(b, k)
    ensures Words(a + b, k) == Words(a, k)
    decreases |a|
  {
    if a == [] {
      assert a + b == b;
      WordsEmpty(b, k);
    } else if In(a[0], k) {
      assert a + b == a[..1] + (a[1..] + b);
      assert a == a[..1] + a[1..];
      WordsSkip(a[..1], a[1..] + b, k);
      WordsSkip(a[..1], a[1..], k);
      WordsPadded(a[1..], b, k);
    } else {
      var j := FirstIndex(a, k);
      var w, rest := a[..j], a[j..];
      assert a == w + rest;
      assert a + b == w + (rest + b);
      WordsPrefixWord(w, rest, k);
      WordsPrefixWord(w, rest + b, k);
      WordsPadded(rest, b, k);
    }
  }

  lemma {:induction false} WordsStripEnd(s: string, k: CharClass)
    ensures Words(StripEnd(s, k), k) == Words(s, k)
    decreases |s|
  {
    if s != [] && In(s[|s| - 1], k) {
      var init := s[..|s| - 1];
      WordsStripEnd(init, k);
      assert s == init + [s[|s| - 1]];
      WordsPadded(init, [s[|s| - 1]], k);
    }
  }

  /** Trimming separators at both ends does not change the words. */
  lemma WordsStrip(s: string, k: CharClass)
    ensures Words(Strip(s, k), k) == Words(s, k)
  {
    WordsStripEnd(StripStart(s, k), k);
    WordsStripStart(s, k);
  }

  // ---------------------------------------------------------------------
  // Joining

  lemma JoinCons(w: string, ws: seq<string>)
    requires ws != []
    ensures Join([w] + ws) == w + " " + Join(ws)
  {
    assert ([w] + ws)[1..] == ws;
  }

  /** A joined word list is empty exactly when the list is, and neither
      of its ends is a separator. */
  lemma {:induction false} JoinEnds(ws: seq<string>, k: CharClass)
    requires AreWords(ws, k)
    ensures ws == [] <==> Join(ws) == []
    ensures Trimmed(Join(ws), k)
    ensures ws != [] ==> Join(ws)[0] == ws[0][0]
  {
    if |ws| > 1 {
      JoinEnds(ws[1..], k);
      var j := Join(ws[1..]);
      assert Join(ws) == ws[0] + " " + j;
      assert Join(ws)[|Join(ws)| - 1] == j[|j| - 1];
    }
  }

  /** A word followed by a separating space splits off as the first word. */
  lemma WordsStep(w: string, j: string, k: CharClass)
    requires w != [] && NoneOf(w, k) && In(' ', k)
    ensures Words(w + " " + j, k) == [w] + Words(j, k)
  {
    assert w + " " + j == w + ([' '] + j);
    WordsPrefixWord(w, [' '] + j, k);
    WordsSkip([' '], j, k);
  }

  /** Splitting a joined word list gives the list back, when the joining
      space is itself a separator. */
  lemma {:induction false} WordsOfJoin(ws: seq<string>, k: CharClass)
    requires AreWords(ws, k) && In(' ', k)
    ensures Words(Join(ws), k) == ws
  {
    if ws == [] {
    } else if |ws| == 1 {
      WordsOfWord(ws[0], k);
    } else {
      var w, rest := ws[0], ws[1..];
      assert AreWords(rest, k) by {
        forall i | 0 <= i < |rest| ensures rest[i] != [] && NoneOf(rest[i], k) {
          assert rest[i] == ws[i + 1];
        }
      }
      assert Join(ws) == w + " " + Join(rest);
      WordsStep(w, Join(rest), k);
      WordsOfJoin(rest, k);
      assert ws == [w] + rest;
    }
  }

  /** Joined words are single-spaced. */
  lemma {:induction false} JoinSingleSpaced(ws: seq<string>, k: CharClass)
    requires AreWords(ws, k) && In(' ', k)
    ensures SingleSpaced(Join(ws), k)
  {
    if |ws| == 1 {
    } else if |ws| > 1 {
      var w, rest := ws[0], ws[1..];
      assert AreWords(rest, k) by {
        forall i | 0 <= i < |rest| ensures rest[i] != [] && NoneOf(rest[i], k) {
          assert rest[i] == ws[i + 1];
        }
      }
      var j := Join(rest);
      JoinEnds(rest, k);
      JoinSingleSpaced(rest, k);
      var s := Join(ws);
      assert s == w + " " + j;
      forall i | 0 <= i < |s| && In(s[i], k)
        ensures s[i] == ' ' && 0 < i < |s| - 1 && !In(s[i + 1], k)
      {
        if i > |w| {
          assert s[i] == j[i - |w| - 1];
          if i < |s| - 1 {
            assert s[i + 1] == j[i - |w|];
          }
        }
      }
    }
  }

  // ---------------------------------------------------------------------
  // Collapsing runs

  lemma {:induction false} CollapseNone(a: string, b: string, k: CharClass)
    requires NoneOf(a, k)
    ensures Collapse(a + b, k) == a + Collapse(b, k)
    decreases |a|
  {
    if a != [] {
      assert (a + b)[0] == a[0] && (a + b)[1..] == a[1..] + b;
      assert !In(a[0], k);
      assert NoneOf(a[1..], k) by {
        forall i | 0 <= i < |a| - 1 ensures !In(a[1..][i], k) {
          assert a[1..][i] == a[i + 1];
        }
      }
      CollapseNone(a[1..], b, k);
      assert a == [a[0]] + a[1..];
    } else {
      assert a + b == b;
    }
  }

  /** The first word of text that starts with one. */
  lemma WordsFront(s: string, k: CharClass)
    requires s != [] && !In(s[0], k)
    ensures 0 < FirstIndex(s, k)
    ensures Words(s, k) == [s[..FirstIndex(s, k)]] + Words(s[FirstIndex(s, k)..], k)
  {
    assert StripStart(s, k) == s;
  }

  /** Text that starts with a run: one space, then the rest after the run. */
  lemma RunStep(r: string, k: CharClass)
    requires r != [] && In(r[0], k)
    ensures StripStart(r, k) == StripStart(r[1..], k)
    ensures Collapse(r, k) == " " + Collapse(StripStart(r, k), k)
    ensures Words(r, k) == Words(StripStart(r, k), k)
  {
    WordsStripStart(r, k);
  }

  /** From a first character outside the class: the words joined by
      single spaces, and one more space if the text ends in a run. */
  lemma {:induction false} CollapseFromWord(s: string, k: CharClass)
    requires s == [] || !In(s[0], k)
    ensures Collapse(s, k) == Join(Words(s, k)) + Edge(s != [] && In(s[|s| - 1], k))
    decreases |s|, 1
  {
    if s != [] {
      var i := FirstIndex(s, k);
      WordsFront(s, k);
      assert s == s[..i] + s[i..];
      if i == |s| {
        CollapseNone(s[..i], s[i..], k);
        assert s[..i] == s;
        assert Words(s[i..], k) == [];
      } else {
        var r := s[i..];
        CollapseNone(s[..i], r, k);
        CollapseRun(r, k);
        WordsEmpty(r, k);
        assert s[|s| - 1] == r[|r| - 1];
        WordThenRun(s[..i], Words(r, k), In(r[|r| - 1], k));
      }
    }
  }

  /** The step from a word to the run after it, as text algebra. */
  lemma WordThenRun(w: string, ws: seq<string>, lastIn: bool)
    requires ws == [] ==> lastIn
    ensures w + (" " + Join(ws) + Edge(lastIn && ws != [])) == Join([w] + ws) + Edge(lastIn)
  {
    if ws == [] {
      assert Join([w] + ws) == w;
    } else {
      JoinCons(w, ws);
    }
  }

  /** From a first character inside the class: one space for the run,
      then as from a word. */
  lemma {:induction false} CollapseRun(r: string, k: CharClass)
    requires r != [] && In(r[0], k)
    ensures Collapse(r, k) == " " + Join(Words(r, k)) + Edge(In(r[|r| - 1], k) && Words(r, k) != [])
    decreases |r|, 0
  {
    var u := StripStart(r, k);
    RunStep(r, k);
    StripStartSuffix(r, k);
    CollapseFromWord(u, k);
    if u != [] {
      WordsEmpty(u, k);
      assert u[|u| - 1] == r[|r| - 1];
    } else {
      assert Words(u, k) == [];
    }
  }

  /** `Collapse` in terms of words: a space for a leading run, the words
      joined by single spaces, and a space for a trailing run after the
      last word. */
  lemma CollapseWords(s: string, k: CharClass)
    ensures Collapse(s, k) == Edge(s != [] && In(s[0], k)) + Join(Words(s, k))
                              + Edge(s != [] && In(s[|s| - 1], k) && Words(s, k) != [])
  {
    if s == [] || !In(s[0], k) {
      CollapseFromWord(s, k);
      if s != [] {
        WordsEmpty(s, k);
      }
    } else {
      CollapseRun(s, k);
    }
  }

  /** On text already trimmed of separators, collapsing is joining the
      words. */
  lemma CollapseTrimmed(s: string, k: CharClass)
    requires Trimmed(s, k)
    ensures Collapse(s, k) == Join(Words(s, k))
  {
    CollapseWords(s, k);
  }
}

=== FILE: startrail.dfy ===
/** The star-trail recorder of `systems/starTrailSystem.js`
    (`createStarTrailSystem`).  Each star owns a list of line segments;
    the active one is a fixed buffer of 320 points of which the first
    `count` are drawn, and once it is full every new point pushes out the
    oldest.  The sky projection (`convertRADecToVector`) is a parameter. */
module StarTrails {

  import opened Wrappers

  /** `maxPoints`: the capacity of a segment. */
  const MaxPoints: nat := 320

  /** `minMoveSq`: a sample closer than this (squared) to the last one is
      dropped. */
  const MinMoveSq: real := 1.0

  /** `sampleInterval`: seconds between samples. */
  const SampleInterval: real := 0.2

  datatype Point = Point(x: real, y: real, z: real)

  function DistanceSquared(a: Point, b: Point): real {
    (a.x - b.x) * (a.x - b.x) + (a.y - b.y) * (a.y - b.y) + (a.z - b.z) * (a.z - b.z)
  }

  /** A star as the recorder sees it: its coordinates, absent when they
      are not numbers. */
  datatype Star = Star(ra: Option<real>, dec: Option<real>)

  /** One line: its position buffer and the number of points drawn. */
  datatype Segment = Segment(buffer: seq<Point>, count: nat)

  predicate WellFormed(seg: Segment) {
    |seg.buffer| == MaxPoints && seg.count <= MaxPoints
  }

  /** The points the line shows, oldest first (`setDrawRange(0, count)`). */
  function Drawn(seg: Segment): seq<Point>
    requires WellFormed(seg)
  {
    seg.buffer[..seg.count]
  }

  /** `startSegment`'s fresh line: a zeroed buffer, nothing drawn. */
  const EmptySegment: Segment := Segment(Zeros(MaxPoints), 0)

  /** `n` points at the origin (a zero-filled `Float32Array`). */
  function Zeros(n: nat): (r: seq<Point>)
    ensures |r| == n
  {
    if n == 0 then [] else Zeros(n - 1) + [Point(0.0, 0.0, 0.0)]
  }

  /** The sliding window a point is recorded into: appended while there
      is room, otherwise appended after dropping the oldest. */
  function Window(drawn: seq<Point>, p: Point): seq<Point> {
    if |drawn| < MaxPoints then drawn + [p] else drawn[1..] + [p]
  }

  /** The buffer effect of `addTrailPoint`: the next free slot, or
      `copyWithin(0, 3, maxPoints * 3)` followed by a write to the last
      slot. */
  function PushPoint(seg: Segment, p: Point): (r: Segment)
    requires WellFormed(seg)
    ensures WellFormed(r) && r.count > 0
  {
    if seg.count < MaxPoints then Segment(seg.buffer[seg.count := p], seg.count + 1)
    else Segment(seg.buffer[1..] + [p], MaxPoints)
  }

  /** The buffer update as the source performs it, slot by slot over one
      buffer. */
  method AddPoint(buffer: seq<Point>, count: nat, p: Point) returns (out: seq<Point>, newCount: nat)
    requires WellFormed(Segment(buffer, count))
    ensures Segment(out, newCount) == PushPoint(Segment(buffer, count), p)
  {
    if count < MaxPoints {
      out := buffer[count := p];
      newCount := count + 1;
    } else {
      out := buffer;
      var i := 0;
      while i < MaxPoints - 1
        invariant 0 <= i <= MaxPoints - 1
        invariant |out| == MaxPoints
        invariant forall k | 0 <= k < i :: out[k] == buffer[k + 1]
        invariant forall k | i <= k < MaxPoints :: out[k] == buffer[k]
      {
        out := out[i := buffer[i + 1]];
        i := i + 1;
      }
      out := out[MaxPoints - 1 := p];
      newCount := MaxPoints;
    }
  }

  /** Recording a point shows the window: the new point last, the older
      points in their order, at most 320 of them. */
  lemma PushPointWindow(seg: Segment, p: Point)
    requires WellFormed(seg)
    ensures Drawn(PushPoint(seg, p)) == Window(Drawn(seg), p)
    ensures |Drawn(PushPoint(seg, p))| <= MaxPoints
    ensures Drawn(PushPoint(seg, p))[|Drawn(PushPoint(seg, p))| - 1] == p
  {
    if seg.count == MaxPoints {
      assert Drawn(seg) == seg.buffer;
    }
  }

  /** Records each point in turn. */
  function PushAll(seg: Segment, ps: seq<Point>): (r: Segment)
    requires WellFormed(seg)
    ensures WellFormed(r)
  {
    if ps == [] then seg else PushPoint(PushAll(seg, ps[..|ps| - 1]), ps[|ps| - 1])
  }

  /** The latest `MaxPoints` points of `ps`, oldest first. */
  function Latest(ps: seq<Point>): (r: seq<Point>)
    ensures |r| <= MaxPoints
  {
    if |ps| <= MaxPoints then ps else ps[|ps| - MaxPoints..]
  }

  /** One more point slides the latest points along by one. */
  lemma LatestStep(ps: seq<Point>)
    requires ps != []
    ensures Latest(ps) == Window(Latest(ps[..|ps| - 1]), ps[|ps| - 1])
  {
    var init, p := ps[..|ps| - 1], ps[|ps| - 1];
    if |ps| <= MaxPoints {
      assert ps == init + [p];
    } else if |init| == MaxPoints {
      assert init[1..] + [p] == ps[|ps| - MaxPoints..];
    } else {
      assert init[|init| - MaxPoints..][1..] + [p] == ps[|ps| - MaxPoints..];
    }
  }

  /** A segment that records a run of points from empty shows exactly the
      latest 320 of them, oldest first. */
  lemma {:induction false} SlidingWindow(ps: seq<Point>)
    ensures Drawn(PushAll(EmptySegment, ps)) == Latest(ps)
  {
    if ps != [] {
      var init := ps[..|ps| - 1];
      SlidingWindow(init);
      PushPointWindow(PushAll(EmptySegment, init), ps[|ps| - 1]);
      LatestStep(ps);
    }
  }

  /** A star's trail: its segments (the active one, if any, is the last),
      the last recorded position and whether the star was last seen. */
  datatype Entry = Entry(star: Star, segments: seq<Segment>, active: bool, lastPos: Option<Point>,
                         lastVisible: bool)

  /** Every buffer has the full capacity, an active segment exists, and
      a last position is kept only while a segment is active. */
  predicate EntryValid(e: Entry) {
    && (forall i | 0 <= i < |e.segments| :: WellFormed(e.segments[i]))
    && (e.active ==> e.segments != [])
    && (e.lastPos.Some? ==> e.active)
  }

  function NewEntry(star: Star): Entry {
    Entry(star, [], false, None, false)
  }

  /** `disposeEntry`: every segment removed, nothing active or
      remembered. */
  function DisposeEntry(e: Entry): (r: Entry)
    ensures EntryValid(r) && r.star == e.star
    ensures r.segments == [] && !r.active && r.lastPos.None? && !r.lastVisible
  {
    e.(segments := [], active := false, lastPos := None, lastVisible := false)
  }

  /** `startSegment`: a new empty line becomes the active one. */
  function StartSegment(e: Entry): (r: Entry)
    requires EntryValid(e)
    ensures EntryValid(r) && r.active
  {
    Entry(e.star, e.segments + [EmptySegment], true, e.lastPos, e.lastVisible)
  }

  /** The active (last) segment. */
  function Active(e: Entry): Segment
    requires EntryValid(e) && e.active
  {
    e.segments[|e.segments| - 1]
  }

  /** The entry with a segment active: as it is, or with a new one. */
  function Opened(e: Entry): (r: Entry)
    requires EntryValid(e)
    ensures EntryValid(r) && r.active
  {
    if e.active then e else StartSegment(e)
  }

  /** Records `p` into the active segment. */
  function RecordInActive(e: Entry, p: Point): (r: Entry)
    requires EntryValid(e) && e.active
    ensures EntryValid(r) && r.active
  {
    e.(segments := e.segments[|e.segments| - 1 := PushPoint(Active(e), p)])
  }

  /** `addTrailPoint`: opens a segment if none is active, then records
      the point into the active one. */
  function AddTrailPoint(e: Entry, p: Point): (r: Entry)
    requires EntryValid(e)
    ensures EntryValid(r) && r.active
  {
    RecordInActive(Opened(e), p)
  }

  /** `addTrailPoint` puts the point last in the active segment's window:
      the segment that was active when there was one, otherwise a new one
      appended, which then holds just the point.  Every earlier segment
      and the last position stay as they were. */
  lemma AddTrailPointRecords(e: Entry, p: Point)
    requires EntryValid(e)
    ensures var r := AddTrailPoint(e, p);
            && Drawn(Active(r)) == Window(if e.active then Drawn(Active(e)) else [], p)
            && |r.segments| == |e.segments| + (if e.active then 0 else 1)
            && (forall i | 0 <= i < |r.segments| - 1 :: r.segments[i] == e.segments[i])
            && r.lastPos == e.lastPos && r.star == e.star
  {
    var o := Opened(e);
    PushPointWindow(Active(o), p);
    if !e.active {
      assert Drawn(Active(o)) == [];
    }
  }

  /** A visible sample for an entry with an active segment. */
  function SampleVisible(e: Entry, p: Point): (r: Entry)
    requires EntryValid(e) && e.active
    ensures EntryValid(r)
  {
    if e.lastPos.Some? && DistanceSquared(e.lastPos.value, p) < MinMoveSq then e
    else AddTrailPoint(e, p).(lastPos := Some(p), lastVisible := true)
  }

  /** One entry's sample inside `updateTrails`, with `position` the
      projection of its star (absent below the horizon). */
  function Sample(e: Entry, position: Option<Point>): (r: Entry)
    requires EntryValid(e)
    ensures EntryValid(r)
  {
    match position
    case None => e.(active := false, lastPos := None, lastVisible := false)
    case Some(p) => SampleVisible(Opened(e), p)
  }

  /** A recorded sample lands in the active segment's window; every
      earlier segment stays as it was. */
  lemma SampleRecords(e: Entry, p: Point)
    requires EntryValid(e)
    requires e.lastPos.None? || DistanceSquared(e.lastPos.value, p) >= MinMoveSq
    ensures var r := Sample(e, Some(p));
            && r.active && r.lastPos == Some(p) && r.lastVisible
            && Drawn(Active(r)) == Window(if e.active then Drawn(Active(e)) else [], p)
            && |r.segments| == |e.segments| + (if e.active then 0 else 1)
            && (forall i | 0 <= i < |e.segments| - (if e.active then 1 else 0) :: r.segments[i] == e.segments[i])
  {
    PushPointWindow(Active(Opened(e)), p);
    if !e.active {
      assert Drawn(EmptySegment) == [];
    }
  }

  /** A sample too close to the last one changes nothing. */
  lemma SampleTooClose(e: Entry, p: Point)
    requires EntryValid(e) && e.lastPos.Some? && DistanceSquared(e.lastPos.value, p) < MinMoveSq
    ensures Sample(e, Some(p)) == e
  {
  }

  /** Below the horizon the trail is cut: the next visible sample opens a
      new segment holding just that point, after the kept old ones. */
  lemma HorizonCutsTrail(e: Entry, p: Point)
    requires EntryValid(e)
    ensures var hidden := Sample(e, None);
            var r := Sample(hidden, Some(p));
            && !hidden.active && hidden.lastPos.None? && hidden.segments == e.segments
            && |r.segments| == |e.segments| + 1
            && r.segments[..|e.segments|] == e.segments
            && Drawn(Active(r)) == [p]
  {
    var hidden := Sample(e, None);
    SampleRecords(hidden, p);
    var r := Sample(hidden, Some(p));
    assert r.segments[..|e.segments|] == e.segments;
  }

  /** The recorder: one entry per catalogue star, the on/off switch (also
      the group's visibility) and the time since the last sample. */
  datatype Trails = Trails(entries: seq<Entry>, enabled: bool, visible: bool, accumulator: real)

  predicate Valid(t: Trails) {
    forall i | 0 <= i < |t.entries| :: EntryValid(t.entries[i])
  }

  /** The system as created: disabled, hidden, nothing recorded. */
  function Create(stars: seq<Star>): (t: Trails)
    ensures Valid(t) && |t.entries| == |stars|
    ensures forall i | 0 <= i < |stars| ::
              && t.entries[i].star == stars[i] && t.entries[i].segments == []
              && !t.entries[i].active && t.entries[i].lastPos.None? && !t.entries[i].lastVisible
    ensures !t.enabled && !t.visible && t.accumulator == 0.0
  {
    Trails(seq(|stars|, i requires 0 <= i < |stars| => NewEntry(stars[i])), false, false, 0.0)
  }

  /** Samples every entry once. */
  function SampleAll(entries: seq<Entry>, project: Star -> Option<Point>): (r: seq<Entry>)
    requires forall i | 0 <= i < |entries| :: EntryValid(entries[i])
    ensures |r| == |entries|
    ensures forall i | 0 <= i < |r| :: r[i] == Sample(entries[i], project(entries[i].star)) && EntryValid(r[i])
  {
    seq(|entries|, i requires 0 <= i < |entries| => Sample(entries[i], project(entries[i].star)))
  }

  /** `updateTrails(delta)`. */
  function UpdateTrails(t: Trails, delta: real, project: Star -> Option<Point>): (r: Trails)
    requires Valid(t)
    ensures Valid(r) && |r.entries| == |t.entries|
  {
    if !t.enabled then t
    else if t.accumulator + delta < SampleInterval then t.(accumulator := t.accumulator + delta)
    else t.(accumulator := 0.0, entries := SampleAll(t.entries, project))
  }

  /** Disabled trails ignore time; enabled ones only gather it until 0.2 s
      have passed, then sample every star once and start gathering again. */
  lemma UpdateTrailsSamples(t: Trails, delta: real, project: Star -> Option<Point>)
    requires Valid(t)
    ensures var r := UpdateTrails(t, delta, project);
            && (!t.enabled ==> r == t)
            && (t.enabled && t.accumulator + delta < SampleInterval ==>
                  r.entries == t.entries && r.accumulator == t.accumulator + delta)
            && (t.enabled && t.accumulator + delta >= SampleInterval ==>
                  r.accumulator == 0.0
                  && forall i | 0 <= i < |t.entries| :: r.entries[i] == Sample(t.entries[i], project(t.entries[i].star)))
            && r.enabled == t.enabled && r.visible == t.visible
  {
  }

  /** `resetAllTrails`. */
  function ResetAllTrails(entries: seq<Entry>): (r: seq<Entry>)
    ensures |r| == |entries|
  {
    seq(|entries|, i requires 0 <= i < |entries| => DisposeEntry(entries[i]))
  }

  /** `setEnabled(next)`. */
  function SetEnabled(t: Trails, next: bool): Trails {
    if t.enabled == next then t
    else Trails(ResetAllTrails(t.entries), next, next, 0.0)
  }

  /** Switching to the current state is a no-op; a real switch shows or
      hides the trails, erases every trail and restarts the sample clock. */
  lemma SetEnabledEffect(t: Trails, next: bool)
    ensures var r := SetEnabled(t, next);
            && (t.enabled == next ==> r == t)
            && (t.enabled != next ==>
                  && r.enabled == next && r.visible == next && r.accumulator == 0.0 && Valid(r)
                  && |r.entries| == |t.entries|
                  && forall i | 0 <= i < |r.entries| ::
                       r.entries[i].star == t.entries[i].star && r.entries[i].segments == []
                       && !r.entries[i].active && r.entries[i].lastPos.None?)
  {
  }

  /** Disposing twice is disposing once. */
  lemma DisposeEntryIdempotent(e: Entry)
    ensures DisposeEntry(DisposeEntry(e)) == DisposeEntry(e)
  {
  }
}

=== FILE: surfaces.dfy ===
/** Ground-surface selection (`systems/surfaceSystem.js`) and the
    settings hook that applies a surface type
    (`core/planetariumSettings.js`, `applySurfaceType`).  Scene objects
    are reduced to what the selection logic reads: a surface's type, its
    meshes, and whether it offers `setActive` and `update`. */
module Surfaces {

  import opened Wrappers
  import opened Settings

  /** A surface object; `token` stands for object identity. */
  datatype Surface = Surface(token: nat, kind: string, meshes: seq<nat>, canActivate: bool,
                             canUpdate: bool)

  /** A mesh of the surface group: `id` stands for the mesh object, so a
      mesh is in the group at most once, with its visibility. */
  datatype Mesh = Mesh(id: nat, visible: bool)

  /** The system's state: the registered surfaces in the map's insertion
      order, the active surface, and the meshes of the group. */
  datatype System = System(surfaces: seq<Surface>, active: Option<Surface>, group: seq<Mesh>)

  /** One `surface.setActive(active)` call. */
  datatype Activation = Activation(surface: Surface, active: bool)

  predicate UniqueKinds(ss: seq<Surface>) {
    forall i, j | 0 <= i < j < |ss| :: ss[i].kind != ss[j].kind
  }

  function Kinds(ss: seq<Surface>): seq<string> {
    if ss == [] then [] else [ss[0].kind] + Kinds(ss[1..])
  }

  /** `surfaces.get(kind)`. */
  function Lookup(ss: seq<Surface>, kind: string): (r: Option<Surface>)
    ensures r.Some? ==> r.value in ss && r.value.kind == kind
    ensures r.None? <==> forall i | 0 <= i < |ss| :: ss[i].kind != kind
  {
    if ss == [] then None
    else if ss[0].kind == kind then Some(ss[0])
    else Lookup(ss[1..], kind)
  }

  /** `surfaces.set(s.kind, s)`: an existing key keeps its place and takes
      the new value; a new key goes last. */
  function SetEntry(ss: seq<Surface>, s: Surface): seq<Surface> {
    if ss == [] then [s]
    else if ss[0].kind == s.kind then [s] + ss[1..]
    else [ss[0]] + SetEntry(ss[1..], s)
  }

  /** The meshes as registration leaves them: hidden. */
  function Hidden(meshes: seq<nat>): (r: seq<Mesh>)
    ensures |r| == |meshes|
    ensures forall i | 0 <= i < |r| :: r[i] == Mesh(meshes[i], false)
  {
    if meshes == [] then [] else [Mesh(meshes[0], false)] + Hidden(meshes[1..])
  }

  /** The group without the mesh `id`. */
  function Without(group: seq<Mesh>, id: nat): (r: seq<Mesh>)
    ensures |r| <= |group|
    ensures forall m | m in r :: m in group && m.id != id
  {
    if group == [] then []
    else (if group[0].id == id then [] else [group[0]]) + Without(group[1..], id)
  }

  /** `mesh.visible = false; group.add(mesh)`.  Three.js first takes a
      mesh out of its parent, so a mesh already in the group moves to the
      end instead of being listed twice. */
  function AddHidden(group: seq<Mesh>, id: nat): seq<Mesh> {
    Without(group, id) + [Mesh(id, false)]
  }

  /** `meshes.forEach(...)`: each mesh hidden and added in turn. */
  function AddAllHidden(group: seq<Mesh>, ids: seq<nat>): seq<Mesh>
    decreases |ids|
  {
    if ids == [] then group else AddAllHidden(AddHidden(group, ids[0]), ids[1..])
  }

  /** `registerSurface`: a surface without a type or without meshes is
      ignored. */
  function RegisterSurface(sys: System, s: Surface): System {
    if s.kind == [] || s.meshes == [] then sys
    else sys.(surfaces := SetEntry(sys.surfaces, s), group := AddAllHidden(sys.group, s.meshes))
  }

  // ---------------------------------------------------------------------
  // The group after registration

  /** No mesh is listed twice. */
  predicate DistinctMeshes(group: seq<Mesh>) {
    forall i, j | 0 <= i < j < |group| :: group[i].id != group[j].id
  }

  /** The meshes of the group that none of `ids` names, in order. */
  function Others(group: seq<Mesh>, ids: seq<nat>): (r: seq<Mesh>)
    ensures forall m | m in r :: m in group && m.id !in ids
  {
    if group == [] then []
    else (if group[0].id in ids then [] else [group[0]]) + Others(group[1..], ids)
  }

  lemma {:induction false} OthersAppend(a: seq<Mesh>, b: seq<Mesh>, ids: seq<nat>)
    ensures Others(a + b, ids) == Others(a, ids) + Others(b, ids)
  {
    if a != [] {
      assert (a + b)[1..] == a[1..] + b;
      OthersAppend(a[1..], b, ids);
    } else {
      assert a + b == b;
    }
  }

  lemma {:induction false} OthersWithout(group: seq<Mesh>, x: nat, ids: seq<nat>)
    ensures Others(Without(group, x), ids) == Others(group, [x] + ids)
  {
    if group != [] {
      OthersWithout(group[1..], x, ids);
      var h := if group[0].id == x then [] else [group[0]];
      OthersAppend(h, Without(group[1..], x), ids);
      if h != [] {
        assert h[1..] == [];
      }
    }
  }

  lemma {:induction false} OthersNone(group: seq<Mesh>, ids: seq<nat>)
    requires forall i | 0 <= i < |group| :: group[i].id !in ids
    ensures Others(group, ids) == group
  {
    if group != [] {
      OthersNone(group[1..], ids);
    }
  }

  lemma {:induction false} WithoutDistinct(group: seq<Mesh>, x: nat)
    requires DistinctMeshes(group)
    ensures DistinctMeshes(Without(group, x))
  {
    if group != [] {
      WithoutDistinct(group[1..], x);
      var rest := Without(group[1..], x);
      if group[0].id != x {
        assert group[0] !in rest;
        forall m | m in rest ensures m.id != group[0].id {
          var k :| 0 <= k < |group[1..]| && group[1..][k] == m;
          assert group[k + 1] == m;
        }
        assert forall j | 0 <= j < |rest| :: rest[j] in rest;
      }
    }
  }

  lemma WithoutAbsent(group: seq<Mesh>, x: nat)
    requires forall i | 0 <= i < |group| :: group[i].id != x
    ensures Without(group, x) == group
  {
  }

  /** Adding hidden meshes keeps the other meshes first, in their order,
      and puts every added mesh after them, hidden. */
  lemma {:induction false} AddAllHiddenOrder(group: seq<Mesh>, ids: seq<nat>)
    ensures var r := AddAllHidden(group, ids);
            var n := |Others(group, ids)|;
            && n <= |r| && r[..n] == Others(group, ids)
            && (forall i | n <= i < |r| :: r[i].id in ids && !r[i].visible)
    decreases |ids|
  {
    if ids == [] {
      OthersNone(group, ids);
    } else {
      var x, rest := ids[0], ids[1..];
      var g := AddHidden(group, x);
      assert ids == [x] + rest;
      AddAllHiddenOrder(g, rest);
      OthersAppend(Without(group, x), [Mesh(x, false)], rest);
      OthersWithout(group, x, rest);
      var r := AddAllHidden(group, ids);
      var o := Others(group, ids);
      var og := Others(g, rest);
      assert og == o + Others([Mesh(x, false)], rest);
      assert r[..|o|] == og[..|o|];
      forall i | |o| <= i < |r|
        ensures r[i].id in ids && !r[i].visible
      {
        if i < |og| {
          assert r[i] == og[i] == Others([Mesh(x, false)], rest)[i - |o|];
        } else {
          assert r[i].id in rest;
        }
      }
    }
  }

  /** Every added mesh ends up in the group, hidden. */
  lemma {:induction false} AddAllHiddenHas(group: seq<Mesh>, ids: seq<nat>)
    ensures forall x | x in ids :: Mesh(x, false) in AddAllHidden(group, ids)
    decreases |ids|
  {
    if ids != [] {
      var x, rest := ids[0], ids[1..];
      var g := AddHidden(group, x);
      assert ids == [x] + rest;
      AddAllHiddenHas(g, rest);
      if x !in rest {
        AddAllHiddenOrder(g, rest);
        OthersAppend(Without(group, x), [Mesh(x, false)], rest);
        var og := Others(g, rest);
        assert Mesh(x, false) in og;
        var r := AddAllHidden(g, rest);
        assert og == r[..|og|];
      }
    }
  }

  /** A group without repeated meshes stays so. */
  lemma {:induction false} AddAllHiddenDistinct(group: seq<Mesh>, ids: seq<nat>)
    requires DistinctMeshes(group)
    ensures DistinctMeshes(AddAllHidden(group, ids))
    decreases |ids|
  {
    if ids != [] {
      var x := ids[0];
      WithoutDistinct(group, x);
      var w := Without(group, x);
      assert forall j | 0 <= j < |w| :: w[j] in w;
      AddAllHiddenDistinct(AddHidden(group, x), ids[1..]);
    }
  }

  /** No id is named twice. */
  predicate DistinctIds(ids: seq<nat>) {
    forall i, j | 0 <= i < j < |ids| :: ids[i] != ids[j]
  }

  lemma DistinctIdsTail(ids: seq<nat>)
    requires DistinctIds(ids) && ids != []
    ensures ids[0] !in ids[1..] && DistinctIds(ids[1..])
  {
    var rest := ids[1..];
    forall j | 0 <= j < |rest| ensures rest[j] != ids[0] {
      assert rest[j] == ids[j + 1];
    }
  }

  lemma FreshAfterAdd(group: seq<Mesh>, ids: seq<nat>)
    requires ids != [] && ids[0] !in ids[1..]
    requires forall i | 0 <= i < |group| :: group[i].id !in ids
    ensures var g := group + [Mesh(ids[0], false)];
            forall i | 0 <= i < |g| :: g[i].id !in ids[1..]
  {
    var g := group + [Mesh(ids[0], false)];
    forall i | 0 <= i < |g| ensures g[i].id !in ids[1..] {
      if i < |group| {
        assert group[i].id !in ids;
        assert forall m | m in ids[1..] :: m in ids;
      }
    }
  }

  /** With meshes new to the group and each named once, registration
      appends exactly them, in order and hidden. */
  lemma {:induction false} AddAllHiddenFresh(group: seq<Mesh>, ids: seq<nat>)
    requires DistinctIds(ids)
    requires forall i | 0 <= i < |group| :: group[i].id !in ids
    ensures AddAllHidden(group, ids) == group + Hidden(ids)
    decreases |ids|
  {
    if ids != [] {
      var x, rest := ids[0], ids[1..];
      DistinctIdsTail(ids);
      WithoutAbsent(group, x);
      var g := group + [Mesh(x, false)];
      assert AddHidden(group, x) == g;
      FreshAfterAdd(group, ids);
      AddAllHiddenFresh(g, rest);
      assert Hidden(ids) == [Mesh(x, false)] + Hidden(rest);
      assert group + Hidden(ids) == g + Hidden(rest);
    }
  }

  /** The lookup key `setSurfaceType` uses: a missing argument is water,
      and `land` is desert. */
  function RequestedKind(surfaceType: Option<string>): string {
    var t := surfaceType.GetOr("water");
    if t == "land" then "desert" else t
  }

  /** The surface to activate: the one of the requested type, else the
      first registered, else none. */
  function Choose(ss: seq<Surface>, kind: string): Option<Surface> {
    match Lookup(ss, kind)
    case Some(s) => Some(s)
    case None => if ss == [] then None else Some(ss[0])
  }

  /** The `setActive?.(surface === active)` calls, in map order. */
  function Activations(ss: seq<Surface>, active: Option<Surface>): (r: seq<Activation>)
    ensures |r| <= |ss|
  {
    if ss == [] then []
    else
      var rest := Activations(ss[1..], active);
      if ss[0].canActivate then [Activation(ss[0], active == Some(ss[0]))] + rest else rest
  }

  /** `setSurfaceType` as written: the new state and the `setActive` calls
      made; it returns nothing to its caller. */
  function SetSurfaceType(sys: System, surfaceType: Option<string>): (System, seq<Activation>) {
    var next := Choose(sys.surfaces, RequestedKind(surfaceType));
    (sys.(active := next), Activations(sys.surfaces, next))
  }

  /** `update(time)`: the surface whose `update` is called, if any. */
  function Update(sys: System): Option<Surface> {
    if sys.active.Some? && sys.active.value.canUpdate then sys.active else None
  }

  /** The surfaces registered at start-up, in order, and the initial
      selection from the settings (`settings.surfaceType ?? 'water'`). */
  function Create(water: Surface, desert: Surface, ice: Surface, surfaceType: Option<string>): System {
    var empty := System([], None, []);
    var sys := RegisterSurface(RegisterSurface(RegisterSurface(empty, water), desert), ice);
    SetSurfaceType(sys, surfaceType).0
  }

  // ---------------------------------------------------------------------
  // Registration

  /** After `surfaces.set` the new surface is the entry for its type and
      every other type reads what it read before. */
  lemma {:induction false} SetEntryLookup(ss: seq<Surface>, s: Surface)
    ensures Lookup(SetEntry(ss, s), s.kind) == Some(s)
    ensures forall k | k != s.kind :: Lookup(SetEntry(ss, s), k) == Lookup(ss, k)
  {
    if ss != [] && ss[0].kind != s.kind {
      var rest := ss[1..];
      SetEntryLookup(rest, s);
      var r := SetEntry(ss, s);
      assert r[0] == ss[0] && r[1..] == SetEntry(rest, s);
    }
  }

  /** An existing type keeps its place; a new type goes last. */
  lemma {:induction false} SetEntryKinds(ss: seq<Surface>, s: Surface)
    ensures Lookup(ss, s.kind).Some? ==> Kinds(SetEntry(ss, s)) == Kinds(ss)
    ensures Lookup(ss, s.kind).None? ==> Kinds(SetEntry(ss, s)) == Kinds(ss) + [s.kind]
  {
    if ss != [] {
      var rest := ss[1..];
      var r := SetEntry(ss, s);
      if ss[0].kind == s.kind {
        assert r == [s] + rest && r[1..] == rest;
      } else {
        SetEntryKinds(rest, s);
        assert r[1..] == SetEntry(rest, s);
        assert Lookup(ss, s.kind) == Lookup(rest, s.kind);
      }
    }
  }

  /** `surfaces.set` keeps one entry per type. */
  lemma {:induction false} SetEntryUnique(ss: seq<Surface>, s: Surface)
    requires UniqueKinds(ss)
    ensures UniqueKinds(SetEntry(ss, s))
  {
    if ss != [] {
      var rest := ss[1..];
      assert UniqueKinds(rest) by {
        forall i, j | 0 <= i < j < |rest| ensures rest[i].kind != rest[j].kind {
          assert rest[i] == ss[i + 1] && rest[j] == ss[j + 1];
        }
      }
      if ss[0].kind == s.kind {
        var r := SetEntry(ss, s);
        assert r == [s] + rest;
        forall i, j | 0 <= i < j < |r| ensures r[i].kind != r[j].kind {
          assert r[j] == ss[j];
          if i > 0 {
            assert r[i] == ss[i];
          }
        }
      } else {
        SetEntryUnique(rest, s);
        SetEntryKinds(rest, s);
        KindsMember(SetEntry(rest, s), ss[0].kind);
        KindsMember(rest, ss[0].kind);
        assert ss[0].kind !in Kinds(rest) by {
          forall i | 0 <= i < |rest| ensures rest[i].kind != ss[0].kind {
            assert rest[i] == ss[i + 1];
          }
        }
        UniqueCons(ss[0], SetEntry(rest, s));
      }
    }
  }

  lemma {:induction false} KindsMember(ss: seq<Surface>, k: string)
    ensures k in Kinds(ss) <==> exists i | 0 <= i < |ss| :: ss[i].kind == k
    ensures |Kinds(ss)| == |ss|
  {
    if ss != [] {
      KindsMember(ss[1..], k);
      if exists i | 0 <= i < |ss[1..]| :: ss[1..][i].kind == k {
        var i :| 0 <= i < |ss[1..]| && ss[1..][i].kind == k;
        assert ss[i + 1].kind == k;
      }
      if exists i | 0 <= i < |ss| :: ss[i].kind == k {
        var i :| 0 <= i < |ss| && ss[i].kind == k;
        if i > 0 {
          assert ss[1..][i - 1].kind == k;
        }
      }
    }
  }

  lemma UniqueCons(s: Surface, ss: seq<Surface>)
    requires UniqueKinds(ss) && s.kind !in Kinds(ss)
    ensures UniqueKinds([s] + ss)
  {
    KindsMember(ss, s.kind);
    var r := [s] + ss;
    forall i, j | 0 <= i < j < |r| ensures r[i].kind != r[j].kind {
      assert r[j] == ss[j - 1];
      if i > 0 {
        assert r[i] == ss[i - 1];
      }
    }
  }

  /** Registering a surface with a type and meshes makes it the entry for
      its type, keeps one entry per type, leaves every other type's entry
      alone, keeps an existing type in its place and appends a new one,
      and adds its meshes to the group, hidden: a mesh already there moves
      after the others, so no mesh is listed twice. */
  lemma RegisterSurfaceEffect(sys: System, s: Surface)
    requires UniqueKinds(sys.surfaces) && s.kind != [] && s.meshes != []
    ensures var r := RegisterSurface(sys, s);
            && UniqueKinds(r.surfaces)
            && Lookup(r.surfaces, s.kind) == Some(s)
            && (forall k | k != s.kind :: Lookup(r.surfaces, k) == Lookup(sys.surfaces, k))
            && (Lookup(sys.surfaces, s.kind).Some? ==> Kinds(r.surfaces) == Kinds(sys.surfaces))
            && (Lookup(sys.surfaces, s.kind).None? ==> Kinds(r.surfaces) == Kinds(sys.surfaces) + [s.kind])
            && r.active == sys.active
    ensures var r := RegisterSurface(sys, s);
            var n := |Others(sys.group, s.meshes)|;
            && n <= |r.group| && r.group[..n] == Others(sys.group, s.meshes)
            && (forall i | n <= i < |r.group| :: r.group[i].id in s.meshes && !r.group[i].visible)
            && (forall x | x in s.meshes :: Mesh(x, false) in r.group)
            && (DistinctMeshes(sys.group) ==> DistinctMeshes(r.group))
    ensures DistinctIds(s.meshes)
            && (forall i | 0 <= i < |sys.group| :: sys.group[i].id !in s.meshes) ==>
              RegisterSurface(sys, s).group == sys.group + Hidden(s.meshes)
  {
    AddAllHiddenOrder(sys.group, s.meshes);
    AddAllHiddenHas(sys.group, s.meshes);
    if DistinctMeshes(sys.group) {
      AddAllHiddenDistinct(sys.group, s.meshes);
    }
    if DistinctIds(s.meshes)
       && (forall i | 0 <= i < |sys.group| :: sys.group[i].id !in s.meshes) {
      AddAllHiddenFresh(sys.group, s.meshes);
    }
    SetEntryLookup(sys.surfaces, s);
    SetEntryKinds(sys.surfaces, s);
    SetEntryUnique(sys.surfaces, s);
  }

  /** A surface without a type or meshes leaves the system as it was. */
  lemma RegisterSurfaceIgnores(sys: System, s: Surface)
    requires s.kind == [] || s.meshes == []
    ensures RegisterSurface(sys, s) == sys
  {
  }

  // ---------------------------------------------------------------------
  // Selection

  /** The surface chosen: `land` means desert, a registered type is
      chosen itself, an unknown one falls back to the first registered
      surface, and with nothing registered nothing is active. */
  lemma SetSurfaceTypeChoice(sys: System, surfaceType: Option<string>)
    ensures var next := SetSurfaceType(sys, surfaceType).0.active;
            var want := RequestedKind(surfaceType);
            && (surfaceType == Some("land") ==> want == "desert")
            && (surfaceType.None? ==> want == "water")
            && (Lookup(sys.surfaces, want).Some? ==> next == Lookup(sys.surfaces, want))
            && (Lookup(sys.surfaces, want).None? && sys.surfaces != [] ==> next == Some(sys.surfaces[0]))
            && (sys.surfaces == [] ==> next.None?)
            && (next.Some? ==> next.value in sys.surfaces)
  {
  }

  /** Every call goes to a registered surface that offers `setActive`
      and says whether it is the active one; every such surface gets a
      call; and there are no more calls than surfaces. */
  lemma {:induction false} ActivationsExact(ss: seq<Surface>, active: Option<Surface>)
    ensures |Activations(ss, active)| <= |ss|
    ensures forall i | 0 <= i < |Activations(ss, active)| ::
              var a := Activations(ss, active)[i];
              a.surface in ss && a.surface.canActivate && (a.active <==> active == Some(a.surface))
    ensures forall s | s in ss && s.canActivate :: exists i | 0 <= i < |Activations(ss, active)| ::
              Activations(ss, active)[i].surface == s
  {
    if ss != [] {
      var rest := Activations(ss[1..], active);
      ActivationsExact(ss[1..], active);
      var r := Activations(ss, active);
      if ss[0].canActivate {
        assert r == [Activation(ss[0], active == Some(ss[0]))] + rest;
        forall s | s in ss && s.canActivate
          ensures exists i | 0 <= i < |r| :: r[i].surface == s
        {
          if s == ss[0] {
            assert r[0].surface == s;
          } else {
            assert s in ss[1..];
            var i :| 0 <= i < |rest| && rest[i].surface == s;
            assert r[i + 1] == rest[i];
          }
        }
        forall i | 0 <= i < |r|
          ensures r[i].surface in ss && r[i].surface.canActivate
                  && (r[i].active <==> active == Some(r[i].surface))
        {
          if i > 0 {
            assert r[i] == rest[i - 1];
          }
        }
      } else {
        forall s | s in ss && s.canActivate
          ensures exists i | 0 <= i < |r| :: r[i].surface == s
        {
          assert s in ss[1..];
        }
      }
    }
  }

  /** After `setSurfaceType` exactly the active surface is told it is
      active: every call for another surface says `false`. */
  lemma SetSurfaceTypeActivatesOne(sys: System, surfaceType: Option<string>)
    ensures var (after, calls) := SetSurfaceType(sys, surfaceType);
            && (forall i | 0 <= i < |calls| :: calls[i].active <==> after.active == Some(calls[i].surface))
            && (forall s | s in sys.surfaces && s.canActivate ::
                  exists i | 0 <= i < |calls| :: calls[i].surface == s)
  {
    var next := Choose(sys.surfaces, RequestedKind(surfaceType));
    ActivationsExact(sys.surfaces, next);
    assert SetSurfaceType(sys, surfaceType) == (sys.(active := next), Activations(sys.surfaces, next));
  }

  /** `update` reaches the active surface and nothing else; with nothing
      active it does nothing. */
  lemma UpdateForwardsToActive(sys: System)
    ensures Update(sys).Some? ==> Update(sys) == sys.active
    ensures sys.active.None? ==> Update(sys).None?
    ensures sys.active.Some? && sys.active.value.canUpdate ==> Update(sys) == sys.active
  {
  }

  /** At start-up with the default settings (`grass`, which no surface
      provides) the water surface, registered first, is active. */
  lemma DefaultStartsOnWater(water: Surface, desert: Surface, ice: Surface)
    requires water.kind == "water" && desert.kind == "desert" && ice.kind == "ice"
    requires water.meshes != [] && desert.meshes != [] && ice.meshes != []
    ensures Create(water, desert, ice, Some(DefaultSettings().surfaceType)).active == Some(water)
  {
    var empty := System([], None, []);
    var s1 := RegisterSurface(empty, water);
    var s2 := RegisterSurface(s1, desert);
    var s3 := RegisterSurface(s2, ice);
    assert s1.surfaces == [water];
    assert water.kind != desert.kind && water.kind != ice.kind && desert.kind != ice.kind;
    assert s2.surfaces == [water] + SetEntry([water][1..], desert);
    assert [water][1..] == [];
    assert s2.surfaces == [water, desert];
    assert s3.surfaces == [water] + SetEntry([desert], ice);
    assert SetEntry([desert], ice) == [desert, ice];
    assert Lookup(s3.surfaces, "grass").None?;
  }

  // ---------------------------------------------------------------------
  // Recording the applied type in the settings

  /** `applySurfaceType` as written.  With a surface system present the
      applied value is `setSurfaceType`'s return value, which is
      `undefined`, so nothing is recorded and `None` comes back. */
  function ApplySurfaceTypeAsWritten(settings: PlanetariumSettings, sys: Option<System>, surfaceType: string)
    : (PlanetariumSettings, Option<System>, Option<string>)
  {
    var normalized := NormalizeSurfaceType(surfaceType);
    var (nextSys, applied) :=
      if sys.Some? then (Some(SetSurfaceType(sys.value, Some(normalized)).0), None)
      else (None, Some(normalized));
    var nextSettings := if applied.Some? then settings.(surfaceType := applied.value) else settings;
    (nextSettings, nextSys, applied)
  }

  /** With a surface system the settings never learn the new surface:
      the system switches, the settings keep their old type. */
  lemma AppliedTypeNeverRecorded(settings: PlanetariumSettings, sys: System, surfaceType: string)
    ensures var (s, next, applied) := ApplySurfaceTypeAsWritten(settings, Some(sys), surfaceType);
            s == settings && applied.None?
            && next == Some(SetSurfaceType(sys, Some(NormalizeSurfaceType(surfaceType))).0)
  {
  }

  /** The concrete case: water and desert registered, settings on water,
      the user picks `land`; the system shows desert, the settings still
      say water. */
  lemma AppliedTypeCounterexample()
    ensures var water := Surface(0, "water", [1], true, true);
            var desert := Surface(1, "desert", [2], true, true);
            var sys := System([water, desert], Some(water), []);
            var settings := DefaultSettings().(surfaceType := "water");
            var (s, next, _) := ApplySurfaceTypeAsWritten(settings, Some(sys), "land");
            next.value.active == Some(desert) && s.surfaceType == "water"
  {
    var water := Surface(0, "water", [1], true, true);
    var desert := Surface(1, "desert", [2], true, true);
    assert Lookup([water, desert], "desert") == Some(desert);
  }

  /** `setSurfaceType` returning the type it made active, as its caller
      expects. */
  function SetSurfaceTypeReporting(sys: System, surfaceType: Option<string>): (System, Option<string>) {
    var after := SetSurfaceType(sys, surfaceType).0;
    (after, if after.active.Some? then Some(after.active.value.kind) else None)
  }

  /** `applySurfaceType` with the reporting `setSurfaceType`. */
  function ApplySurfaceType(settings: PlanetariumSettings, sys: Option<System>, surfaceType: string)
    : (PlanetariumSettings, Option<System>, Option<string>)
  {
    var normalized := NormalizeSurfaceType(surfaceType);
    var (nextSys, applied) :=
      if sys.Some? then
        var (after, kind) := SetSurfaceTypeReporting(sys.value, Some(normalized));
        (Some(after), kind)
      else (None, Some(normalized));
    var nextSettings := if applied.Some? && applied.value != [] then settings.(surfaceType := applied.value) else settings;
    (nextSettings, nextSys, applied)
  }

  /** With the reporting `setSurfaceType`, the settings record the type of
      the surface actually shown (the fallback included) whenever one is
      registered, and the normalised type when there is no system. */
  lemma ApplySurfaceTypeRecords(settings: PlanetariumSettings, sys: Option<System>, surfaceType: string)
    requires sys.Some? ==> forall i | 0 <= i < |sys.value.surfaces| :: sys.value.surfaces[i].kind != []
    ensures var (s, next, applied) := ApplySurfaceType(settings, sys, surfaceType);
            && (sys.None? ==> s.surfaceType == NormalizeSurfaceType(surfaceType) && applied.Some?)
            && (sys.Some? && sys.value.surfaces != [] ==>
                  next.value.active.Some? && s.surfaceType == next.value.active.value.kind
                  && applied == Some(s.surfaceType))
            && (sys.Some? && sys.value.surfaces == [] ==> s == settings && applied.None?)
  {
    if sys.Some? && sys.value.surfaces != [] {
      var ss := sys.value.surfaces;
      var kind := RequestedKind(Some(NormalizeSurfaceType(surfaceType)));
      var chosen := Choose(ss, kind);
      assert chosen.Some? && chosen.value in ss;
      var i :| 0 <= i < |ss| && ss[i] == chosen.value;
    }
  }
}

=== FILE: text.dfy ===
/** Character classes and the handful of string operations the Python
    script and the JavaScript modules rely on, written out over `seq<char>`. */
module Text {

  import opened Wrappers

  /** Python's `str.isspace()`: the characters `str.strip()` and
      `str.split()` treat as whitespace. */
  predicate IsPySpace(c: char) {
    var n := c as int;
    (9 <= n <= 13) || (0x1C <= n <= 0x20) || n == 0x85 || n == 0xA0 || n == 0x1680
    || (0x2000 <= n <= 0x200A) || n == 0x2028 || n == 0x2029 || n == 0x202F
    || n == 0x205F || n == 0x3000
  }

  /** The characters at which Python's `str.splitlines()` breaks a line. */
  predicate IsLineBreak(c: char) {
    var n := c as int;
    (10 <= n <= 13) || (0x1C <= n <= 0x1E) || n == 0x85 || n == 0x2028 || n == 0x2029
  }

  /** ECMAScript WhiteSpace and LineTerminator: what `\s` matches and
      `String.prototype.trim` removes. */
  predicate IsJsSpace(c: char) {
    var n := c as int;
    (9 <= n <= 13) || n == 0x20 || n == 0xA0 || n == 0x1680
    || (0x2000 <= n <= 0x200A) || n == 0x2028 || n == 0x2029 || n == 0x202F
    || n == 0x205F || n == 0x3000 || n == 0xFEFF
  }

  /** The character classes the string functions below are parameterised by. */
  datatype CharClass = PySpace | JsSpace | SpaceOrUnderscore | LineBreak | Quote | Just(c: char)

  predicate In(c: char, k: CharClass) {
    match k
    case PySpace => IsPySpace(c)
    case JsSpace => IsJsSpace(c)
    case SpaceOrUnderscore => c == '_' || IsJsSpace(c)
    case LineBreak => IsLineBreak(c)
    case Quote => c == '\'' || c == '"'
    case Just(d) => c == d
  }

  predicate NoneOf(s: string, p: CharClass) {
    forall i | 0 <= i < |s| :: !In(s[i], p)
  }

  predicate AllOf(s: string, p: CharClass) {
    forall i | 0 <= i < |s| :: In(s[i], p)
  }

  /** Neither end of `s` is a character of class `ws`. */
  predicate Trimmed(s: string, ws: CharClass) {
    s == [] || (!In(s[0], ws) && !In(s[|s| - 1], ws))
  }

  /** `s` with its leading run of `ws` characters removed. */
  function StripStart(s: string, ws: CharClass): (r: string)
    ensures |r| <= |s|
  {
    if s == [] || !In(s[0], ws) then s else StripStart(s[1..], ws)
  }

  /** `StripStart` removes a prefix, and what remains does not start with
      a `ws` character. */
  lemma {:induction false} StripStartSuffix(s: string, ws: CharClass)
    ensures StripStart(s, ws) == s[|s| - |StripStart(s, ws)|..]
    ensures StripStart(s, ws) == [] || !In(StripStart(s, ws)[0], ws)
  {
    if s != [] && In(s[0], ws) {
      StripStartSuffix(s[1..], ws);
    }
  }

  /** `s` with its trailing run of `ws` characters removed. */
  function StripEnd(s: string, ws: CharClass): (r: string)
    ensures |r| <= |s|
  {
    if s == [] || !In(s[|s| - 1], ws) then s else StripEnd(s[..|s| - 1], ws)
  }

  /** `StripEnd` removes a suffix, and what remains does not end with a
      `ws` character. */
  lemma {:induction false} StripEndPrefix(s: string, ws: CharClass)
    ensures StripEnd(s, ws) == s[..|StripEnd(s, ws)|]
    ensures StripEnd(s, ws) == [] || !In(StripEnd(s, ws)[|StripEnd(s, ws)| - 1], ws)
  {
    if s != [] && In(s[|s| - 1], ws) {
      StripEndPrefix(s[..|s| - 1], ws);
    }
  }

  /** Python's `str.strip()` / JavaScript's `trim()` for the class `ws`. */
  function Strip(s: string, ws: CharClass): string {
    StripEnd(StripStart(s, ws), ws)
  }

  /** Neither end of a stripped string is whitespace. */
  lemma StripIsTrimmed(s: string, ws: CharClass)
    ensures Trimmed(Strip(s, ws), ws)
  {
    var a := StripStart(s, ws);
    StripStartSuffix(s, ws);
    StripEndPrefix(a, ws);
  }

  /** A stripped string is a slice of the original. */
  lemma StripIsSlice(s: string, ws: CharClass)
    ensures |s| - |StripStart(s, ws)| + |Strip(s, ws)| <= |s|
    ensures Strip(s, ws) == s[|s| - |StripStart(s, ws)|..][..|Strip(s, ws)|]
  {
    StripStartSuffix(s, ws);
    StripEndPrefix(StripStart(s, ws), ws);
  }

  lemma StripStartPast(pre: string, rest: string, ws: CharClass)
    requires AllOf(pre, ws) && (rest == [] || !In(rest[0], ws))
    ensures StripStart(pre + rest, ws) == rest
  {
    if pre == [] {
      assert pre + rest == rest;
    } else {
      var s := pre + rest;
      assert s[0] == pre[0] && In(pre[0], ws);
      assert s[1..] == pre[1..] + rest;
      assert AllOf(pre[1..], ws) by {
        forall i | 0 <= i < |pre| - 1 ensures In(pre[1..][i], ws) {
          assert pre[1..][i] == pre[i + 1];
        }
      }
      StripStartPast(pre[1..], rest, ws);
    }
  }

  lemma StripEndPast(rest: string, post: string, ws: CharClass)
    requires AllOf(post, ws) && (rest == [] || !In(rest[|rest| - 1], ws))
    ensures StripEnd(rest + post, ws) == rest
  {
    if post != [] {
      var s := rest + post;
      assert s[..|s| - 1] == rest + post[..|post| - 1];
      StripEndPast(rest, post[..|post| - 1], ws);
    }
  }

  /** Stripping only removes padding: `pad + core + pad'` strips to `core`. */
  lemma StripPadded(pre: string, core: string, post: string, ws: CharClass)
    requires AllOf(pre, ws) && AllOf(post, ws) && Trimmed(core, ws)
    ensures Strip(pre + core + post, ws) == core
  {
    if core == [] {
      assert pre + core + post == pre + post;
      StripStartPast(pre + post, [], ws);
      assert pre + post + [] == pre + post;
    } else {
      assert pre + core + post == pre + (core + post);
      StripStartPast(pre, core + post, ws);
      StripEndPast(core, post, ws);
    }
  }

  /** A trimmed string strips to itself. */
  lemma StripTrimmed(s: string, ws: CharClass)
    requires Trimmed(s, ws)
    ensures Strip(s, ws) == s
  {
    StripPadded([], s, [], ws);
    assert [] + s + [] == s;
  }

  /** Stripping cannot introduce a character: a class absent from `s` is
      absent from `Strip(s, ws)`. */
  lemma StripKeepsNone(s: string, ws: CharClass, p: CharClass)
    requires NoneOf(s, p)
    ensures NoneOf(Strip(s, ws), p)
  {
    var a := StripStart(s, ws);
    var b := StripEnd(a, ws);
    StripStartSuffix(s, ws);
    StripEndPrefix(a, ws);
    forall i | 0 <= i < |b|
      ensures !In(b[i], p)
    {
      assert b[i] == a[i] == s[|s| - |a| + i];
    }
  }

  /** When `s` starts with a non-`ws` character, stripping keeps a prefix of it. */
  lemma StripKeepsFront(s: string, ws: CharClass)
    requires s != [] && !In(s[0], ws)
    ensures Strip(s, ws) == s[..|Strip(s, ws)|]
  {
    StripIsSlice(s, ws);
  }

  lemma NoneOfSlice(s: string, i: nat, j: nat, p: CharClass)
    requires i <= j <= |s| && NoneOf(s, p)
    ensures NoneOf(s[i..j], p)
  {
    assert forall k | 0 <= k < j - i :: s[i..j][k] == s[i + k];
  }

  predicate StartsWith(s: string, prefix: string) {
    |prefix| <= |s| && s[..|prefix|] == prefix
  }

  predicate EndsWith(s: string, suffix: string) {
    |suffix| <= |s| && s[|s| - |suffix|..] == suffix
  }

  /** Index of the first character of `s` in class `p`, or `|s|` when none is. */
  function FirstIndex(s: string, p: CharClass): (i: nat)
    ensures i <= |s|
    ensures NoneOf(s[..i], p)
    ensures i < |s| ==> In(s[i], p)
  {
    if s == [] then 0
    else if In(s[0], p) then 0
    else
      var j := FirstIndex(s[1..], p);
      assert s[1..][..j] == s[1..j + 1];
      1 + j
  }

  /** Python's `str.splitlines()` as far as `_parse_entry` can tell: the
      text between consecutive line-break characters.  Unlike Python it
      keeps the empty piece after a final break and splits `\r\n` in two;
      both only add blank lines, which the parser skips. */
  function SplitLines(s: string): seq<string>
    decreases |s|
  {
    var i := FirstIndex(s, LineBreak);
    if i == |s| then [s] else [s[..i]] + SplitLines(s[i + 1..])
  }

  /** No line holds a line break. */
  lemma {:induction false} SplitLinesNoBreaks(s: string)
    ensures forall k | 0 <= k < |SplitLines(s)| :: NoneOf(SplitLines(s)[k], LineBreak)
    decreases |s|
  {
    var i := FirstIndex(s, LineBreak);
    if i < |s| {
      SplitLinesNoBreaks(s[i + 1..]);
      var r := SplitLines(s);
      assert forall k | 1 <= k < |r| :: r[k] == SplitLines(s[i + 1..])[k - 1];
    }
  }

  lemma FirstIndexAt(a: string, c: char, b: string, p: CharClass)
    requires NoneOf(a, p) && In(c, p)
    ensures FirstIndex(a + [c] + b, p) == |a|
  {
    if a != [] {
      assert (a + [c] + b)[1..] == a[1..] + [c] + b;
      FirstIndexAt(a[1..], c, b, p);
    }
  }

  lemma FirstIndexNone(a: string, p: CharClass)
    requires NoneOf(a, p)
    ensures FirstIndex(a, p) == |a|
  {
    if a != [] {
      FirstIndexNone(a[1..], p);
    }
  }

  lemma SplitLinesAt(a: string, c: char, b: string)
    requires NoneOf(a, LineBreak) && IsLineBreak(c)
    ensures SplitLines(a + [c] + b) == [a] + SplitLines(b)
  {
    var s := a + [c] + b;
    FirstIndexAt(a, c, b, LineBreak);
    assert s[..|a|] == a && s[|a| + 1..] == b;
  }

  lemma SplitLinesNone(a: string)
    requires NoneOf(a, LineBreak)
    ensures SplitLines(a) == [a]
  {
    FirstIndexNone(a, LineBreak);
  }

  /** The maximal runs of characters outside `ws`, in order: Python's
      `str.split()` with no argument when `ws` is `PySpace`, and the
      words `\s+` separates when `ws` is `JsSpace`. */
  function Words(s: string, ws: CharClass): seq<string>
    decreases |s|
  {
    var t := StripStart(s, ws);
    if t == [] then []
    else
      StripStartSuffix(s, ws);
      var i := FirstIndex(t, ws);
      [t[..i]] + Words(t[i..], ws)
  }

  /** Each word is non-empty and holds no separator. */
  lemma {:induction false} WordsAreWords(s: string, ws: CharClass)
    ensures forall k | 0 <= k < |Words(s, ws)| :: Words(s, ws)[k] != [] && NoneOf(Words(s, ws)[k], ws)
    decreases |s|
  {
    var t := StripStart(s, ws);
    if t != [] {
      StripStartSuffix(s, ws);
      var i := FirstIndex(t, ws);
      WordsAreWords(t[i..], ws);
    }
  }

  /** A single word is split into itself. */
  lemma WordsOfWord(w: string, ws: CharClass)
    requires w != [] && NoneOf(w, ws)
    ensures Words(w, ws) == [w]
  {
    FirstIndexNone(w, ws);
    assert w[..|w|] == w;
    assert Words(w[|w|..], ws) == [];
  }

  /** Every occurrence of `from` in `s` replaced by `to` (`str.replace`
      for a one-character pattern). */
  function ReplaceChar(s: string, from: char, to: char): (r: string)
    ensures |r| == |s|
    ensures forall i | 0 <= i < |s| :: r[i] == (if s[i] == from then to else s[i])
  {
    if s == [] then []
    else [if s[0] == from then to else s[0]] + ReplaceChar(s[1..], from, to)
  }

  /** Python's `str.index` for one character. */
  function IndexOf(s: string, c: char): (r: Option<nat>)
    ensures r.None? <==> c !in s
    ensures r.Some? ==> r.value < |s| && s[r.value] == c && c !in s[..r.value]
  {
    var i := FirstIndex(s, Just(c));
    if i == |s| then
      assert forall k | 0 <= k < |s| :: s[..i][k] == s[k];
      None
    else Some(i)
  }

  /** Python's `str.rindex` for one character. */
  function LastIndexOf(s: string, c: char): (r: Option<nat>)
    ensures r.None? <==> c !in s
    ensures r.Some? ==> r.value < |s| && s[r.value] == c && c !in s[r.value + 1..]
  {
    if s == [] then None
    else if s[|s| - 1] == c then Some(|s| - 1)
    else
      var r := LastIndexOf(s[..|s| - 1], c);
      if r.Some? then
        assert s[r.value + 1..] == s[..|s| - 1][r.value + 1..] + [s[|s| - 1]];
        r
      else
        assert s == s[..|s| - 1] + [s[|s| - 1]];
        None
  }

}

=== FILE: timecontroller.dfy ===
/** The simulated clock of `core/timeController.js` (`TimeController`):
    three modes (`realtime`, `custom`, `fixed-time`), a pause flag, and
    the start instant every mode measures from.  Instants are integer
    milliseconds since the epoch; the wall clock (`Date.now()`) and the
    controller's seconds source are passed in as a `Clock`.  Local time is
    a fixed offset from UTC, so a calendar day is always 86 400 000 ms. */
module TimeControl {

  import opened Wrappers

  const DayMs: int := 86400000

  /** The readings an operation takes: `Date.now()` and the seconds
      source (`performance.now() * 0.001` unless a provider is given). */
  datatype Clock = Clock(wallMs: int, seconds: real)

  datatype Mode = Realtime | Custom | FixedTime

  /** `getFixedTimeOfDayMs`: the local time of day in milliseconds. */
  function TimeOfDay(t: int, zone: int): (r: int)
    ensures 0 <= r < DayMs
  {
    (t + zone) % DayMs
  }

  /** The local calendar day an instant falls on, counted from the epoch. */
  function DayNumber(t: int, zone: int): int {
    (t + zone) / DayMs
  }

  /** `setHours(0, 0, 0, 0)`: local midnight of the same day. */
  function StartOfDay(t: int, zone: int): int {
    t - TimeOfDay(t, zone)
  }

  /** `new Date(x)` for a finite `x`: the milliseconds truncated toward
      zero. */
  function Trunc(x: real): (r: int)
    ensures x >= 0.0 ==> r as real <= x < r as real + 1.0
    ensures x < 0.0 ==> r as real - 1.0 < x <= r as real
  {
    if x >= 0.0 then x.Floor else -((-x).Floor)
  }

  lemma TruncMonotone(x: real, y: real)
    requires x <= y
    ensures Trunc(x) <= Trunc(y)
  {
  }

  /** Local midnight plus a time of day lands on that time of day, on the
      same calendar day. */
  lemma AtTimeOfDay(t: int, zone: int, tod: int)
    requires 0 <= tod < DayMs
    ensures TimeOfDay(StartOfDay(t, zone) + tod, zone) == tod
    ensures DayNumber(StartOfDay(t, zone) + tod, zone) == DayNumber(t, zone)
  {
    var d := DayNumber(t, zone);
    assert t + zone == d * DayMs + TimeOfDay(t, zone);
    assert StartOfDay(t, zone) + tod + zone == d * DayMs + tod;
  }

  /** Moving an instant by whole days moves its day number and keeps its
      time of day. */
  lemma ShiftDays(t: int, zone: int, days: int)
    ensures TimeOfDay(t + days * DayMs, zone) == TimeOfDay(t, zone)
    ensures DayNumber(t + days * DayMs, zone) == DayNumber(t, zone) + days
  {
    var d := DayNumber(t, zone);
    assert t + zone == d * DayMs + TimeOfDay(t, zone);
    assert t + days * DayMs + zone == (d + days) * DayMs + TimeOfDay(t, zone);
  }

  /** The controller's state.  `zone` is the local offset from UTC and
      `isArchive` the constructor's flag; neither changes. */
  datatype Controller = Controller(
    isArchive: bool, zone: int,
    mode: Mode, timeScale: real, dayScale: real, paused: bool,
    startDate: int, startSeconds: real, simulatedDate: int,
    realtimeOffsetMs: int, fixedTimeOfDayMs: int, initialRealtimeDate: int)

  /** The stored time of day is always a time of day. */
  predicate Valid(c: Controller) {
    0 <= c.fixedTimeOfDayMs < DayMs
  }

  /** `getSnapshot` (the sidereal time is not modelled). */
  datatype Snapshot = Snapshot(timeMode: Mode, timeScale: real, dayScale: real, isTimePaused: bool,
                               simulatedDate: int)

  function GetSnapshot(c: Controller): (s: Snapshot)
    ensures s.timeMode == c.mode && s.isTimePaused == c.paused && s.simulatedDate == c.simulatedDate
    ensures s.timeScale == c.timeScale && s.dayScale == c.dayScale
  {
    Snapshot(c.mode, c.timeScale, c.dayScale, c.paused, c.simulatedDate)
  }

  /** `reset(baseDate)`. */
  function Reset(c: Controller, baseDate: int, seconds: real): Controller {
    Controller(c.isArchive, c.zone, Realtime, 240.0, 1.0, false,
               baseDate, seconds, baseDate, 0, TimeOfDay(baseDate, c.zone), baseDate)
  }

  /** The constructor: a reset to the current wall-clock instant. */
  function New(isArchive: bool, zone: int, clock: Clock): Controller {
    Reset(Controller(isArchive, zone, Realtime, 0.0, 0.0, false, 0, 0.0, 0, 0, 0, 0),
          clock.wallMs, clock.seconds)
  }

  /** Everything `reset` promises: realtime at 240x and one day per
      second, running, no offset, starting from and showing the base
      date, with its time of day kept. */
  lemma ResetDefaults(c: Controller, baseDate: int, seconds: real)
    ensures var r := Reset(c, baseDate, seconds);
            && Valid(r)
            && r.mode == Realtime && r.timeScale == 240.0 && r.dayScale == 1.0 && !r.paused
            && r.realtimeOffsetMs == 0
            && r.startDate == r.simulatedDate == r.initialRealtimeDate == baseDate
            && r.startSeconds == seconds
            && r.fixedTimeOfDayMs == TimeOfDay(baseDate, c.zone)
            && r.isArchive == c.isArchive && r.zone == c.zone
  {
  }

  /** `setMode`'s options.  `date` is the valid date given, absent when
      it is missing, falsy or invalid; a scale is present only when it is
      a number and not `NaN`. */
  datatype ModeOptions = ModeOptions(date: Option<int>, timeScale: Option<real>, dayScale: Option<real>)

  /** A new start: both the start and the shown date are `base`, measured
      from `seconds`, and `base`'s time of day is kept. */
  function Rebase(c: Controller, base: int, seconds: real): Controller {
    c.(startDate := base, startSeconds := seconds, simulatedDate := base,
       fixedTimeOfDayMs := TimeOfDay(base, c.zone))
  }

  /** `setMode(mode, options)`.  Without a valid date, realtime starts
      from now (or, in the archive, from the shown date) and the other
      modes from the shown date.  An unknown mode only logs a warning. */
  function SetMode(c: Controller, mode: string, options: ModeOptions, clock: Clock): Controller {
    if mode == "realtime" then
      var base := options.date.GetOr(if c.isArchive then c.simulatedDate else clock.wallMs);
      Rebase(c.(mode := Realtime, paused := false, realtimeOffsetMs := base - clock.wallMs), base, clock.seconds)
    else if mode == "custom" then
      Rebase(c.(mode := Custom, paused := false, timeScale := options.timeScale.GetOr(c.timeScale)),
             options.date.GetOr(c.simulatedDate), clock.seconds)
    else if mode == "fixed-time" then
      Rebase(c.(mode := FixedTime, paused := false, dayScale := options.dayScale.GetOr(c.dayScale)),
             options.date.GetOr(c.simulatedDate), clock.seconds)
    else c
  }

  predicate KnownMode(mode: string) {
    mode == "realtime" || mode == "custom" || mode == "fixed-time"
  }

  /** A recognised mode is entered unpaused and restarts from its base
      date; an unknown mode changes nothing. */
  lemma SetModeEnters(c: Controller, mode: string, options: ModeOptions, clock: Clock)
    ensures var r := SetMode(c, mode, options, clock);
            && (KnownMode(mode) ==>
                  && Valid(r) && !r.paused
                  && r.mode == (if mode == "realtime" then Realtime else if mode == "custom" then Custom else FixedTime)
                  && r.startDate == r.simulatedDate && r.startSeconds == clock.seconds
                  && r.fixedTimeOfDayMs == TimeOfDay(r.startDate, c.zone))
            && (!KnownMode(mode) ==> r == c)
  {
  }

  /** `custom` adopts a given time scale and `fixed-time` a given day
      scale; every other scale keeps its value. */
  lemma SetModeScales(c: Controller, mode: string, options: ModeOptions, clock: Clock)
    ensures var r := SetMode(c, mode, options, clock);
            && r.timeScale == (if mode == "custom" && options.timeScale.Some? then options.timeScale.value else c.timeScale)
            && r.dayScale == (if mode == "fixed-time" && options.dayScale.Some? then options.dayScale.value else c.dayScale)
  {
  }

  /** The base date: the given date if valid; otherwise the shown date,
      except for a live (non-archive) realtime switch, which uses now. */
  lemma SetModeBase(c: Controller, mode: string, options: ModeOptions, clock: Clock)
    requires KnownMode(mode)
    ensures var r := SetMode(c, mode, options, clock);
            && (options.date.Some? ==> r.startDate == options.date.value)
            && (options.date.None? && (mode != "realtime" || c.isArchive) ==> r.startDate == c.simulatedDate)
            && (options.date.None? && mode == "realtime" && !c.isArchive ==> r.startDate == clock.wallMs)
  {
  }

  /** `update(nowSeconds)`: realtime follows the wall clock at its
      offset; custom runs `timeScale` times real time from the start
      (frozen while paused); fixed-time advances whole days, one per
      `1 / dayScale` seconds, and keeps the time of day. */
  function Update(c: Controller, clock: Clock): Controller {
    if c.mode == Realtime then c.(simulatedDate := clock.wallMs + c.realtimeOffsetMs)
    else if c.mode == Custom then
      c.(simulatedDate := Trunc(CustomTarget(c.startDate, clock.seconds - c.startSeconds, CustomScale(c))))
    else
      c.(simulatedDate := OnDay(c.startDate, DaysPassed(clock.seconds - c.startSeconds, FixedScale(c)),
                                c.fixedTimeOfDayMs, c.zone))
  }

  /** The rate custom time runs at: none while paused. */
  function CustomScale(c: Controller): real {
    if c.paused then 0.0 else c.timeScale
  }

  /** The days fixed-time advances per second: none while paused. */
  function FixedScale(c: Controller): real {
    if c.paused then 0.0 else c.dayScale
  }

  /** `simulationStartDate.getTime() + elapsed * 1000 * scale`. */
  function CustomTarget(start: int, elapsed: real, scale: real): real {
    start as real + elapsed * 1000.0 * scale
  }

  /** `Math.floor(elapsed * scale)`. */
  function DaysPassed(elapsed: real, scale: real): int {
    (elapsed * scale).Floor
  }

  /** The start moved on by `days` calendar days (`setDate`), taken to
      local midnight (`setHours(0, 0, 0, 0)`), plus the kept time of day. */
  function OnDay(start: int, days: int, tod: int, zone: int): int {
    StartOfDay(start + days * DayMs, zone) + tod
  }

  /** Entering realtime and then updating shows the base date moved on by
      exactly the wall-clock time that has passed since: the given date,
      the shown date in the archive, or now. */
  lemma RealtimeFollowsWallClock(c: Controller, options: ModeOptions, clock: Clock, later: Clock)
    ensures var r := SetMode(c, "realtime", options, clock);
            && Update(r, later).simulatedDate == r.startDate + (later.wallMs - clock.wallMs)
            && r.startDate == options.date.GetOr(if c.isArchive then c.simulatedDate else clock.wallMs)
  {
  }

  /** Paused custom time stands still at its start. */
  lemma CustomPausedHolds(c: Controller, clock: Clock)
    requires c.mode == Custom && c.paused
    ensures Update(c, clock).simulatedDate == c.startDate
  {
    assert CustomTarget(c.startDate, clock.seconds - c.startSeconds, 0.0) == c.startDate as real;
  }

  /** At its start instant, custom time shows its start date. */
  lemma CustomAtStart(c: Controller, clock: Clock)
    requires c.mode == Custom && clock.seconds == c.startSeconds
    ensures Update(c, clock).simulatedDate == c.startDate
  {
    assert CustomTarget(c.startDate, 0.0, CustomScale(c)) == c.startDate as real;
  }

  /** Running custom time is within a millisecond of its target
      `start + elapsed * 1000 * timeScale`. */
  lemma CustomNearTarget(c: Controller, clock: Clock)
    requires c.mode == Custom && !c.paused
    ensures var exact := CustomTarget(c.startDate, clock.seconds - c.startSeconds, c.timeScale);
            var shown := Update(c, clock).simulatedDate as real;
            exact - 1.0 < shown < exact + 1.0
  {
    var x := CustomTarget(c.startDate, clock.seconds - c.startSeconds, c.timeScale);
    assert Update(c, clock).simulatedDate == Trunc(x);
    if x >= 0.0 {
      assert Trunc(x) as real <= x < Trunc(x) as real + 1.0;
    } else {
      assert Trunc(x) as real - 1.0 < x <= Trunc(x) as real;
    }
  }

  lemma ScaleMonotone(a: real, b: real, k: real)
    requires a <= b && k >= 0.0
    ensures a * k <= b * k
  {
    assert b * k - a * k == (b - a) * k;
  }

  /** Custom time with a non-negative scale never runs backwards. */
  lemma CustomMonotone(c: Controller, clock: Clock, later: Clock)
    requires c.mode == Custom && c.timeScale >= 0.0 && clock.seconds <= later.seconds
    ensures Update(c, clock).simulatedDate <= Update(c, later).simulatedDate
  {
    var e1, e2 := clock.seconds - c.startSeconds, later.seconds - c.startSeconds;
    ScaleMonotone(e1 * 1000.0, e2 * 1000.0, CustomScale(c));
    TruncMonotone(CustomTarget(c.startDate, e1, CustomScale(c)), CustomTarget(c.startDate, e2, CustomScale(c)));
  }

  /** In fixed-time mode the shown date always has the kept time of day,
      and lies `floor(elapsed * dayScale)` calendar days after the start
      (none while paused). */
  lemma FixedTimeDays(c: Controller, clock: Clock)
    requires Valid(c) && c.mode == FixedTime
    ensures var shown := Update(c, clock).simulatedDate;
            var scale := if c.paused then 0.0 else c.dayScale;
            && TimeOfDay(shown, c.zone) == c.fixedTimeOfDayMs
            && DayNumber(shown, c.zone) == DayNumber(c.startDate, c.zone) + ((clock.seconds - c.startSeconds) * scale).Floor
  {
    var days := DaysPassed(clock.seconds - c.startSeconds, FixedScale(c));
    assert days == ((clock.seconds - c.startSeconds) * (if c.paused then 0.0 else c.dayScale)).Floor;
    assert Update(c, clock).simulatedDate == OnDay(c.startDate, days, c.fixedTimeOfDayMs, c.zone);
    assert OnDay(c.startDate, days, c.fixedTimeOfDayMs, c.zone)
        == StartOfDay(c.startDate + days * DayMs, c.zone) + c.fixedTimeOfDayMs;
    ShiftDays(c.startDate, c.zone, days);
    AtTimeOfDay(c.startDate + days * DayMs, c.zone, c.fixedTimeOfDayMs);
  }

  /** At its start instant, fixed-time shows its start date whenever
      that date has the kept time of day. */
  lemma FixedTimeAtStart(c: Controller, clock: Clock)
    requires c.mode == FixedTime && clock.seconds == c.startSeconds
    requires TimeOfDay(c.startDate, c.zone) == c.fixedTimeOfDayMs
    ensures Update(c, clock).simulatedDate == c.startDate
  {
    assert DaysPassed(0.0, FixedScale(c)) == 0;
    assert c.startDate + 0 * DayMs == c.startDate;
    assert Update(c, clock).simulatedDate == OnDay(c.startDate, 0, c.fixedTimeOfDayMs, c.zone);
  }

  /** `reset` answers with the snapshot of the fresh state: realtime at
      240x and one day per second, running, showing the base date. */
  lemma ResetSnapshot(c: Controller, baseDate: int, seconds: real)
    ensures GetSnapshot(Reset(c, baseDate, seconds))
         == Snapshot(Realtime, 240.0, 1.0, false, baseDate)
  {
  }

  /** `setMode` answers with a snapshot that reports the mode entered,
      running, at its base date; after an unknown mode it reports the
      state as it was. */
  lemma SetModeSnapshot(c: Controller, mode: string, options: ModeOptions, clock: Clock)
    ensures var s := GetSnapshot(SetMode(c, mode, options, clock));
            && (KnownMode(mode) ==>
                  && s.timeMode == (if mode == "realtime" then Realtime else if mode == "custom" then Custom else FixedTime)
                  && !s.isTimePaused
                  && s.simulatedDate == SetMode(c, mode, options, clock).startDate
                  && (options.date.Some? ==> s.simulatedDate == options.date.value))
            && (!KnownMode(mode) ==> s == GetSnapshot(c))
  {
  }

  /** `togglePause(forceState)`: realtime cannot be paused.  Otherwise
      the clock is brought up to date, a boolean `forceState` is adopted
      or the flag flips, and the start is rebased to the instant shown. */
  function TogglePause(c: Controller, forceState: Option<bool>, clock: Clock): (Controller, bool) {
    if c.mode == Realtime then (c.(paused := false), false)
    else
      var u := Update(c, clock);
      var next := forceState.GetOr(!u.paused);
      (u.(paused := next, startDate := u.simulatedDate, startSeconds := clock.seconds), next)
  }

  /** In realtime the answer is always "running". */
  lemma TogglePauseRealtime(c: Controller, forceState: Option<bool>, clock: Clock)
    requires c.mode == Realtime
    ensures !TogglePause(c, forceState, clock).0.paused && !TogglePause(c, forceState, clock).1
  {
  }

  /** Outside realtime the returned flag is the new pause state: the
      forced one, or the old one flipped.  Toggling twice without forcing
      restores the flag. */
  lemma TogglePauseFlag(c: Controller, forceState: Option<bool>, clock: Clock, later: Clock)
    requires c.mode != Realtime
    ensures var (r, paused) := TogglePause(c, forceState, clock);
            && r.paused == paused
            && paused == (if forceState.Some? then forceState.value else !c.paused)
            && r.mode == c.mode
    ensures TogglePause(TogglePause(c, None, clock).0, None, later).0.paused == c.paused
  {
  }

  /** The snapshot after a toggle reports the pause state the toggle
      returned, and the mode is unchanged. */
  lemma TogglePauseSnapshot(c: Controller, forceState: Option<bool>, clock: Clock)
    ensures var (r, paused) := TogglePause(c, forceState, clock);
            GetSnapshot(r).isTimePaused == paused && GetSnapshot(r).timeMode == c.mode
  {
  }

  /** Toggling does not make the shown date jump: an update at the same
      instant shows what an update just before the toggle showed. */
  lemma TogglePauseContinuous(c: Controller, forceState: Option<bool>, clock: Clock)
    requires Valid(c) && c.mode != Realtime
    ensures Update(TogglePause(c, forceState, clock).0, clock).simulatedDate == Update(c, clock).simulatedDate
  {
    var r := TogglePause(c, forceState, clock).0;
    if c.mode == FixedTime {
      FixedTimeDays(c, clock);
      FixedTimeAtStart(r, clock);
    } else {
      CustomAtStart(r, clock);
    }
  }

  /** Pausing custom time freezes it at the instant of the pause. */
  lemma PauseFreezesCustom(c: Controller, clock: Clock, later: Clock)
    requires c.mode == Custom
    ensures var r := TogglePause(c, Some(true), clock).0;
            r.paused && Update(r, later).simulatedDate == Update(c, clock).simulatedDate
  {
    CustomPausedHolds(TogglePause(c, Some(true), clock).0, later);
  }
}

=== FILE: updater.dfy ===
/** The per-record merge of `scripts/update_stars.py` (`_update_star`):
    look the record's `nameSIMBAD` up in the catalogue service and
    overwrite its position, brightness and spectral type with what comes
    back.  The service is the `Lookup` parameter. */
module StarUpdate {

  import opened Wrappers
  import opened Text
  import opened OrderedFields
  import opened Coordinates

  /** What the catalogue service knows about a star: right ascension and
      declination (both required), and optionally magnitude and spectral
      type. */
  datatype StarInfo = StarInfo(ra: Scalar, dec: Scalar, magnitude: Option<Scalar>, spType: Option<string>)

  /** The catalogue service: `None` when the name does not resolve, or
      when it resolves without a position. */
  type Lookup = string -> Option<StarInfo>

  /** The merged record, whether it was updated, and the name to report
      as unresolved, if any. */
  datatype Outcome = Outcome(fields: Fields, updated: bool, missing: Option<string>)

  /** The keys a merge may write. */
  predicate MergeKey(k: string) {
    k == "ra" || k == "dec" || k == "magnitude" || k == "sp_type"
  }

  /** `raw.strip().strip("'\"")`. */
  function LookupName(raw: string): string {
    Strip(Strip(raw, PySpace), Quote)
  }

  /** `float(magnitude)`, `None` where Python raises. */
  function Float(num: Numerics, v: Scalar): Option<real> {
    match v
    case Text(s) => num.parseFloat(s)
    case Number(x) => Some(x)
  }

  /** The magnitude to write, if the service gave one `float()` accepts. */
  function Magnitude(num: Numerics, info: StarInfo): Option<real> {
    if info.magnitude.None? then None else Float(num, info.magnitude.value)
  }

  /** The spectral type as written into the record: in single quotes. */
  function Quoted(s: string): string {
    "'" + s + "'"
  }

  /** The field assignments of a successful lookup, in the order the
      script makes them. */
  function Merge(num: Numerics, fs: Fields, ra: real, dec: real, info: StarInfo): Fields {
    var f1 := Put(Put(fs, "ra", num.fixed6(ra)), "dec", num.fixed6(dec));
    var mag := Magnitude(num, info);
    var f2 := if mag.Some? then Put(f1, "magnitude", num.fixed2(mag.value)) else f1;
    if info.spType.Some? then Put(f2, "sp_type", Quoted(info.spType.value)) else f2
  }

  /** `_update_star`, with the coordinates converted by the corrected
      `ToDecimalFixed` (colons separate the parts).  Conversion errors
      propagate. */
  function UpdateStar(num: Numerics, lookup: Lookup, fs: Fields): Result<Outcome> {
    match Get(fs, "nameSIMBAD")
    case None => Success(Outcome(fs, false, None))
    case Some(raw) =>
      var name := LookupName(raw);
      match lookup(name)
      case None => Success(Outcome(fs, false, Some(name)))
      case Some(info) =>
        var ra :- ToDecimalFixed(num, info.ra, true);
        var dec :- ToDecimalFixed(num, info.dec, false);
        Success(Outcome(Merge(num, fs, ra, dec, info), true, None))
  }

  // ---------------------------------------------------------------------
  // What a merge writes and what it leaves alone

  /** `b` extends `a` by merge keys only: the keys of `a` come first in
      their order, anything new is a merge key, and no other key's value
      differs. */
  ghost predicate Extends(a: Fields, b: Fields) {
    && |Keys(a)| <= |Keys(b)|
    && Keys(b)[..|Keys(a)|] == Keys(a)
    && (forall k | k in Keys(b) && k !in Keys(a) :: MergeKey(k))
    && (forall k | !MergeKey(k) :: Get(b, k) == Get(a, k))
  }

  lemma PutExtends(fs: Fields, k: string, v: string)
    requires MergeKey(k)
    ensures Extends(fs, Put(fs, k, v))
  {
    PutKeys(fs, k, v);
    PutGet(fs, k, v);
  }

  lemma ExtendsTrans(a: Fields, b: Fields, c: Fields)
    requires Extends(a, b) && Extends(b, c)
    ensures Extends(a, c)
  {
    var ka, kb, kc := Keys(a), Keys(b), Keys(c);
    assert kc[..|ka|] == kc[..|kb|][..|ka|];
  }

  lemma ExtendsRefl(a: Fields)
    ensures Extends(a, a)
  {
  }

  lemma MergeExtends(num: Numerics, fs: Fields, ra: real, dec: real, info: StarInfo)
    ensures Extends(fs, Merge(num, fs, ra, dec, info))
  {
    var f0 := Put(fs, "ra", num.fixed6(ra));
    var f1 := Put(f0, "dec", num.fixed6(dec));
    PutExtends(fs, "ra", num.fixed6(ra));
    PutExtends(f0, "dec", num.fixed6(dec));
    ExtendsTrans(fs, f0, f1);
    var mag := Magnitude(num, info);
    var f2 := if mag.Some? then Put(f1, "magnitude", num.fixed2(mag.value)) else f1;
    if mag.Some? {
      PutExtends(f1, "magnitude", num.fixed2(mag.value));
      ExtendsTrans(fs, f1, f2);
    }
    if info.spType.Some? {
      PutExtends(f2, "sp_type", Quoted(info.spType.value));
      ExtendsTrans(fs, f2, Merge(num, fs, ra, dec, info));
    }
  }

  /** A merge keeps every existing key in place, adds only `ra`, `dec`,
      `magnitude` or `sp_type` (at the end), and changes no other key. */
  lemma UpdateStarPreservesRecord(num: Numerics, lookup: Lookup, fs: Fields)
    requires UpdateStar(num, lookup, fs).Success?
    ensures Extends(fs, UpdateStar(num, lookup, fs).value.fields)
  {
    var raw := Get(fs, "nameSIMBAD");
    if raw.Some? && lookup(LookupName(raw.value)).Some? {
      var info := lookup(LookupName(raw.value)).value;
      var ra := ToDecimalFixed(num, info.ra, true).value;
      var dec := ToDecimalFixed(num, info.dec, false).value;
      MergeExtends(num, fs, ra, dec, info);
    } else {
      ExtendsRefl(fs);
    }
  }

  /** The values a merge writes. */
  lemma MergeWrites(num: Numerics, fs: Fields, ra: real, dec: real, info: StarInfo)
    ensures var m := Merge(num, fs, ra, dec, info);
            && Get(m, "ra") == Some(num.fixed6(ra))
            && Get(m, "dec") == Some(num.fixed6(dec))
            && Get(m, "magnitude") == (if Magnitude(num, info).Some?
                                       then Some(num.fixed2(Magnitude(num, info).value))
                                       else Get(fs, "magnitude"))
            && Get(m, "sp_type") == (if info.spType.Some? then Some(Quoted(info.spType.value))
                                     else Get(fs, "sp_type"))
  {
    var f0 := Put(fs, "ra", num.fixed6(ra));
    var f1 := Put(f0, "dec", num.fixed6(dec));
    var mag := Magnitude(num, info);
    var f2 := if mag.Some? then Put(f1, "magnitude", num.fixed2(mag.value)) else f1;
    var m := Merge(num, fs, ra, dec, info);
    assert "ra" != "dec" && "ra" != "magnitude" && "ra" != "sp_type";
    assert "dec" != "magnitude" && "dec" != "sp_type" && "magnitude" != "sp_type";
    PutGetAt(fs, "ra", num.fixed6(ra), "ra");
    PutGetAt(f0, "dec", num.fixed6(dec), "ra");
    PutGetAt(f0, "dec", num.fixed6(dec), "dec");
    PutGetAt(fs, "ra", num.fixed6(ra), "magnitude");
    PutGetAt(f0, "dec", num.fixed6(dec), "magnitude");
    PutGetAt(fs, "ra", num.fixed6(ra), "sp_type");
    PutGetAt(f0, "dec", num.fixed6(dec), "sp_type");
    if mag.Some? {
      var v := num.fixed2(mag.value);
      PutGetAt(f1, "magnitude", v, "ra");
      PutGetAt(f1, "magnitude", v, "dec");
      PutGetAt(f1, "magnitude", v, "magnitude");
      PutGetAt(f1, "magnitude", v, "sp_type");
    }
    if info.spType.Some? {
      var v := Quoted(info.spType.value);
      PutGetAt(f2, "sp_type", v, "ra");
      PutGetAt(f2, "sp_type", v, "dec");
      PutGetAt(f2, "sp_type", v, "magnitude");
      PutGetAt(f2, "sp_type", v, "sp_type");
    }
  }

  /** The outcomes: a record without `nameSIMBAD` is left alone and not
      reported; an unresolved name is reported, quotes and blanks
      stripped, with the record unchanged; a resolved one whose position
      converts is merged and marked updated; a resolved one whose position
      does not convert fails with the conversion's error, right ascension
      first. */
  lemma UpdateStarOutcomes(num: Numerics, lookup: Lookup, fs: Fields)
    ensures Get(fs, "nameSIMBAD").None? ==>
              UpdateStar(num, lookup, fs) == Success(Outcome(fs, false, None))
    ensures Get(fs, "nameSIMBAD").Some? && lookup(LookupName(Get(fs, "nameSIMBAD").value)).None? ==>
              UpdateStar(num, lookup, fs)
                == Success(Outcome(fs, false, Some(LookupName(Get(fs, "nameSIMBAD").value))))
    ensures Get(fs, "nameSIMBAD").Some? && lookup(LookupName(Get(fs, "nameSIMBAD").value)).Some? ==>
              var info := lookup(LookupName(Get(fs, "nameSIMBAD").value)).value;
              var ra := ToDecimalFixed(num, info.ra, true);
              var dec := ToDecimalFixed(num, info.dec, false);
              && (ra.Success? && dec.Success? ==>
                    UpdateStar(num, lookup, fs) == Success(Outcome(Merge(num, fs, ra.value, dec.value, info), true, None)))
              && (ra.Failure? ==> UpdateStar(num, lookup, fs) == Failure(ra.error))
              && (ra.Success? && dec.Failure? ==> UpdateStar(num, lookup, fs) == Failure(dec.error))
    ensures UpdateStar(num, lookup, fs).Success? && UpdateStar(num, lookup, fs).value.updated ==>
              var info := lookup(LookupName(Get(fs, "nameSIMBAD").value)).value;
              var r := UpdateStar(num, lookup, fs).value;
              && ToDecimalFixed(num, info.ra, true).Success?
              && ToDecimalFixed(num, info.dec, false).Success?
              && Get(r.fields, "ra") == Some(num.fixed6(ToDecimalFixed(num, info.ra, true).value))
              && Get(r.fields, "dec") == Some(num.fixed6(ToDecimalFixed(num, info.dec, false).value))
              && r.missing.None?
  {
    var raw := Get(fs, "nameSIMBAD");
    if raw.Some? && lookup(LookupName(raw.value)).Some? {
      var info := lookup(LookupName(raw.value)).value;
      var ra := ToDecimalFixed(num, info.ra, true);
      var dec := ToDecimalFixed(num, info.dec, false);
      if ra.Success? && dec.Success? {
        MergeWrites(num, fs, ra.value, dec.value, info);
      }
    }
  }

  // ---------------------------------------------------------------------
  // Running the merge twice

  lemma MergeKeepsName(num: Numerics, fs: Fields, ra: real, dec: real, info: StarInfo)
    ensures Get(Merge(num, fs, ra, dec, info), "nameSIMBAD") == Get(fs, "nameSIMBAD")
  {
    MergeExtends(num, fs, ra, dec, info);
  }

  /** Merging the same data into a merged record changes nothing. */
  lemma MergeTwice(num: Numerics, fs: Fields, ra: real, dec: real, info: StarInfo)
    ensures var m := Merge(num, fs, ra, dec, info);
            Merge(num, m, ra, dec, info) == m
  {
    var m := Merge(num, fs, ra, dec, info);
    MergeWrites(num, fs, ra, dec, info);
    PutSame(m, "ra");
    PutSame(m, "dec");
    var mag := Magnitude(num, info);
    if mag.Some? {
      PutSame(m, "magnitude");
    }
    if info.spType.Some? {
      PutSame(m, "sp_type");
    }
  }

  /** Idempotence: with the same service answers, updating an updated
      record gives the same outcome again. */
  lemma UpdateStarIdempotent(num: Numerics, lookup: Lookup, fs: Fields)
    requires UpdateStar(num, lookup, fs).Success?
    ensures UpdateStar(num, lookup, UpdateStar(num, lookup, fs).value.fields)
         == UpdateStar(num, lookup, fs)
  {
    var raw := Get(fs, "nameSIMBAD");
    if raw.Some? && lookup(LookupName(raw.value)).Some? {
      var info := lookup(LookupName(raw.value)).value;
      var ra := ToDecimalFixed(num, info.ra, true).value;
      var dec := ToDecimalFixed(num, info.dec, false).value;
      MergeKeepsName(num, fs, ra, dec, info);
      MergeTwice(num, fs, ra, dec, info);
    }
  }
}

=== FILE: wrappers.dfy ===
/** Failure-carrying results shared by every component of the model. */
module Wrappers {

  /** A value that may be absent: JavaScript's `undefined`/`null`, Python's `None`. */
  datatype Option<+T> = None | Some(value: T) {

    /** The carried value, or `default` when absent (JavaScript's `??`). */
    function GetOr(default: T): T {
      match this
      case Some(v) => v
      case None => default
    }
  }

  /** Errors the modelled code raises or throws. */
  datatype Error =
    | MissingColon(line: string)          // `line.split(":", 1)` unpacks one part: ValueError
    | BadSexagesimal(text: string)        // fewer than three sexagesimal parts: ValueError
    | BadNumber(text: string)             // `float(...)` on text that is not a number: ValueError
    | MissingBracket                      // `str.index` / `str.rindex` finds nothing: ValueError
    | MissingStarId                       // registerStar: `!star || !star.id`
    | MissingConstellationName            // registerConstellation: `!name && !id`
    | NotIterable                         // spreading a value that is not iterable: TypeError
    | PropertyOfNull                      // reading a property of `null`: TypeError

  datatype Result<+T> = Success(value: T) | Failure(error: Error) {

    predicate IsFailure() {
      Failure?
    }

    function PropagateFailure<U>(): Result<U>
      requires Failure?
    {
      Failure(error)
    }

    function Extract(): T
      requires Success?
    {
      value
    }
  }
}
